=== FILE: README.md ===
# UsBest! participation core, modelled in Dafny

UsBest! is an ad platform where users take part in ads. They comment, upload UGC (user-generated photos and videos), answer surveys and apply as product testers. Advertisers adopt or pin that content, and an adoption grants the author a coupon. This project models the core of the TypeScript code:

- the server actions that write participation (`lib/actions/participation.ts`) and moderation (`lib/actions/moderation.ts`);
- the tester-report route;
- the read queries (`lib/actions/queries.ts`) and the ad-feed route with its keyset cursor;
- the browser API client (`lib/api.ts`);
- the comment, survey and onboarding components;
- the onboarding page;
- the advertiser console.

## How the model is built

- **The database.** Supabase is modelled as the class `Store.Database`. It holds one `seq` field per table and an id counter. `Store.Tables` is the value snapshot of those fields.
- **Server actions.** Each action is an imperative method on the database. Its `ensures` equates the new snapshot and the result with a specification function such as `Participation.CreateCommentSpec`. That function states the error cases, the rows written and that nothing else changes. Lemmas about those functions give the cross-call properties: re-adoption, pin idempotence, the admission invariant, and a second report being refused.
- **Failures and side effects outside the code.** Whatever the code does not decide is a parameter:
  - a failing read is a `bool`;
  - a failing write is an `Option<string>` message;
  - whether a best-effort insert went through is a `bool`;
  - the signed-in user is an `Option<Id>`;
  - the clock is a `Timestamp` (an `int`).
- **Queries.** Queries are pure functions over the tables. An `ORDER BY` becomes the stable sort `Sorting.SortBy` under a total preorder. `.single()` becomes `Store.Single`, which fails unless exactly one row matched.
- **JSON and the API client.** JSON values are `Json.Json`. The client's response handling and its `transform*FromDB` converters are functions over them. For the ad, comment and UGC converters the model also writes the JSON the routes send for a stored row, and a lemma states what the converter makes of it (`Api.AdOfRow`, `Api.CommentOfRow`, `Api.CommentPosterOfRow`, `Api.UgcApprovedOfRow`). The survey and campaign converters are specified on arbitrary JSON only.
- **Client components.**
  - The comment panel and the onboarding form are classes. Their fields are the component's state, and their methods are its handlers.
  - The tag grouping, the survey answer update and the console's row mappers are functions.
  - The onboarding page's tag collection keeps its nested loops.
- **Dates and collation.** Dates in the console stay strings, with `new Date(s).getTime()` as a parameter `time`. The Japanese collation `localeCompare(…, 'ja')` is an abstract comparator `le` that is required to be a total preorder.

## Model

| member | source | states |
|---|---|---|
| Participation.CreateCommentSpec | lib/actions/participation.ts:6-40 | no user is Unauthorized; an insert error is that message and changes nothing; on success one pending, unpinned comment with the trimmed content and a fresh id is appended, the exposure is logged when that insert went through, and no other table changes; well-formed tables stay well-formed |
| Participation.CreateComment | lib/actions/participation.ts:6-40 | the database's new state and the result are exactly those of CreateCommentSpec, and the database stays valid |
| Participation.SubmitUgcSpec | lib/actions/participation.ts:42-77 | no user is Unauthorized; an insert error changes nothing; on success one pending UGC row without PR badge, with the given media URL and kind and a fresh id, is appended, plus the exposure; nothing else changes |
| Participation.SubmitUgc | lib/actions/participation.ts:42-77 | new state and result are those of SubmitUgcSpec |
| Participation.TextOrNull | lib/actions/participation.ts:105 | an absent or empty answer text is stored as null, any other text as itself |
| Participation.FindKey | lib/actions/participation.ts:111 | finds the row holding a (survey, question, user) key, or reports that no row holds it |
| Participation.UpsertAll | lib/actions/participation.ts:109-112 | the upsert writes one row per answer and never moves the id counter back |
| Participation.AnswerViewUpdate | lib/actions/participation.ts:111 | rewriting the row holding a key rewrites that key's answer and no other, and keeps keys unique |
| Participation.UpsertRowView | lib/actions/participation.ts:111 | upserting one answer keeps keys unique and ids fresh and sets that key's answer |
| Participation.UpsertAllView | lib/actions/participation.ts:101-112 | after the batch upsert the stored answers are the old ones overridden by the batch, keys stay unique and ids fresh |
| Participation.UpdateKeepsIdsAt | lib/actions/participation.ts:111 | overwriting a row in place keeps every id below the counter |
| Participation.SubmitSurveyAnswersSpec | lib/actions/participation.ts:79-126 | no user is Unauthorized; no active survey (or a failed read) is 'No active survey found'; a batch naming a question twice is refused as the database refuses it; otherwise a failed upsert fails with the store's message and one without error succeeds; on success one row per answer and the answers view is the old view overridden by the batch; failures change nothing |
| Participation.SubmitSurveyAnswers | lib/actions/participation.ts:79-126 | new state and result are those of SubmitSurveyAnswersSpec |
| Participation.ApplySpec | lib/actions/participation.ts:128-195 | no user, no open campaign, an earlier application and a full campaign each give their error; a failed insert fails with the store's message; success exactly when none applies and the insert goes through, appending one pending application; a missing or zero count never rejects |
| Participation.ApplyToTesterCampaign | lib/actions/participation.ts:128-195 | new state and result are those of ApplySpec |
| Participation.ApplyKeepsAdmissionInvariant | lib/actions/participation.ts:147-170 | with the existence and count reads succeeding, an application keeps "one application per user and campaign, never more than the maximum" |
| Participation.CompleteApplicant | lib/actions/participation.ts:235-239 | the best-effort status update keeps the tables well-formed |
| Participation.SubmitTesterReportSpec | lib/actions/participation.ts:197-242 | no user is Unauthorized; anything but exactly one selected application of the caller is 'No selected application found'; an insert error fails with the store's message; on success the report is appended with media URLs or [] and the application becomes completed when that update went through |
| Participation.SubmitTesterReport | lib/actions/participation.ts:197-242 | new state and result are those of SubmitTesterReportSpec |
| Participation.ReportCompletesApplication | lib/actions/participation.ts:205-239 | once a report and its status update went through, a second report for the same application is refused |
| Participation.UpdateUserInterestsSpec | lib/actions/participation.ts:244-268 | no user is Unauthorized; a caller without exactly one user row gets the single-row error; a failed update fails with the store's message, and one without error succeeds when the caller has exactly one row; on success exactly the caller's rows get the new interests and nothing else changes |
| Participation.UpdateUserInterests | lib/actions/participation.ts:244-268 | new state and result are those of UpdateUserInterestsSpec |
| Moderation.GrantCoupon | lib/actions/moderation.ts:39-49 | the reward insert appends one pending coupon for the source when it went through, and nothing else changes |
| Moderation.AdoptCommentSpec | lib/actions/moderation.ts:6-52 | no user is Unauthorized; a missing comment is 'Comment not found'; a failed update of a found comment fails with the store's message; success exactly when found and updated: that comment becomes adopted, the others are untouched, and a coupon for it is granted when written |
| Moderation.AdoptComment | lib/actions/moderation.ts:6-52 | new state and result are those of AdoptCommentSpec |
| Moderation.AdoptCommentAgain | lib/actions/moderation.ts:6-52 | adopting an adopted comment succeeds again and each successful adoption with its reward written adds one more reward |
| Moderation.AdoptUgcSpec | lib/actions/moderation.ts:54-100 | the same for UGC: not found, the store's message on a failed update, success iff found and updated, the row adopted, a coupon when written |
| Moderation.AdoptUgc | lib/actions/moderation.ts:54-100 | new state and result are those of AdoptUgcSpec |
| Moderation.AdoptUgcAgain | lib/actions/moderation.ts:54-100 | re-adoption of UGC succeeds and each success adds a reward |
| Moderation.PinCommentSpec | lib/actions/moderation.ts:102-137 | no user is Unauthorized; a missing comment is not found; a failed update fails with the store's message; success iff found and updated, pinning that comment only |
| Moderation.PinComment | lib/actions/moderation.ts:102-137 | new state and result are those of PinCommentSpec |
| Moderation.PinIdempotent | lib/actions/moderation.ts:102-137 | pinning a pinned comment succeeds and changes nothing |
| TesterReportsRoute.PostReportSpec | app/api/tester/reports/route.ts:4-64 | 401 iff no user; a body that does not parse is 500 with the parser's message; 400 iff the content is falsy; 404 iff the caller has not exactly one selected application; 201 iff it has and the insert succeeds, appending the report and completing the application when that update went through; no other status; failures change nothing |
| TesterReportsRoute.PostReport | app/api/tester/reports/route.ts:4-64 | the response and new state are those of PostReportSpec |
| TesterReportsRoute.SecondReportNotFound | app/api/tester/reports/route.ts:22-55 | after a 201 with the status update written, the next report of that user is 404 |
| Queries.DescendingTotal | lib/actions/queries.ts:15 | ORDER BY a key DESC is a total preorder |
| Queries.NewerTotal | lib/actions/queries.ts:15 | newest-first on ads is a total preorder |
| Queries.PinnedThenNewestTotal | lib/actions/queries.ts:62-63 | pinned-then-newest is a total preorder |
| Queries.BestThenNewestTotal | lib/actions/queries.ts:80-81 | best-quality-then-newest is a total preorder |
| Queries.Take | lib/actions/queries.ts:16 | `.limit(n)` gives exactly min(n, length) rows, and they are the leading rows in order |
| Queries.ListedAds | lib/actions/queries.ts:11-20 | exactly the active ads carrying every requested tag, newest first |
| Queries.BelowCursor | lib/actions/queries.ts:22-24 | exactly the ads strictly older than the cursor, still newest first |
| Queries.AdsFeed | lib/actions/queries.ts:11-26 | a page of at most `limit` listed ads older than the cursor, newest first, none more often than the table holds it. A qualifying ad is left out only when the page is full, and never one newer than the page's last ad |
| Queries.PageRepeatsNothing | lib/actions/queries.ts:11-26 | the query returns each matching row once: an ad shown twice on a page is held twice by the table |
| Queries.TakeLeavesOlder | lib/actions/queries.ts:16 | an ad the limit cuts from a newest-first list means the page is full, and the ad is no newer than the page's last |
| Queries.GetAds | lib/actions/queries.ts:5-36 | a negative limit and a cursor that is not a timestamp are errors; otherwise a feed page with `limit \|\| 20`, repeating no ad beyond the table, that leaves out a qualifying ad only when full and only one no newer than its last, and the cursor of its last ad |
| Queries.FeedAtCursor | lib/actions/queries.ts:22-24 | a cursor written from a timestamp reads back as that timestamp |
| Queries.NoneOlderThanLast | lib/actions/queries.ts:34 | no ad of a page is older than its last ad, the one the cursor is taken from |
| Queries.NextPageOlder | lib/actions/queries.ts:5-36 | reading with a page's cursor succeeds and gives only ads strictly older than every ad on that page |
| Queries.FilterSorted | lib/actions/queries.ts:11-24 | filtering a sorted feed keeps it sorted |
| Queries.OlderThanSplits | lib/actions/queries.ts:23 | without timestamp ties, the ads older than the k-th are exactly those after it |
| Queries.FeedAfterPosition | lib/actions/queries.ts:11-26 | without ties, the feed below the k-th ad's timestamp starts right after it |
| Queries.CursorWalksFeed | lib/actions/queries.ts:5-36 | without ties, the cursor of the k-th ad reads the ads after it |
| Queries.NextPageFollows | lib/actions/queries.ts:5-36 | without ties, successive pages walk the whole feed without gaps |
| Queries.FirstPage | lib/actions/queries.ts:5-36 | the first page is the head of the newest-first feed |
| Queries.GetAd | lib/actions/queries.ts:38-52 | success iff exactly one ad has the id; then it is that ad; otherwise the single-row error |
| Queries.GetComments | lib/actions/queries.ts:54-70 | exactly the ad's approved and adopted comments, pinned first and newest first within each group |
| Queries.GetUgc | lib/actions/queries.ts:72-88 | exactly the ad's approved and adopted UGC, best quality first and newest first among equals |
| Queries.GetSurvey | lib/actions/queries.ts:90-108 | the ad's active survey when exactly one exists, null otherwise; any other error is thrown |
| Queries.GetTesterCampaign | lib/actions/queries.ts:110-128 | the ad's open campaign when exactly one exists, null otherwise |
| Queries.Own | lib/actions/queries.ts:140-144 | exactly the user's rows of a table, newest first |
| Queries.GetUserRewards | lib/actions/queries.ts:130-151 | no user throws Unauthorized; otherwise the user's rewards newest first |
| Queries.GetUserParticipation | lib/actions/queries.ts:153-192 | no user throws; each of the four lists is the user's rows newest first, or [] when its read fails |
| AdsRoute.RouteTags | app/api/ads/route.ts:8 | no `tags` parameter is []; otherwise the comma-separated pieces, which join back to the parameter |
| AdsRoute.RouteLimit | app/api/ads/route.ts:10 | a missing or empty `limit` is 20 |
| AdsRoute.LimitOfNumeral | app/api/ads/route.ts:10 | a limit written as an integer's numeral is read back as that integer |
| AdsRoute.GetAdsRoute | app/api/ads/route.ts:4-40 | 500 with the error iff the limit is NaN or negative, the read fails or the cursor is not a timestamp; otherwise 200 with a feed page that leaves out a qualifying ad only when full and only one no newer than its last, and the last ad's timestamp |
| AdsRoute.ZeroLimitEmptyPage | app/api/ads/route.ts:10-17 | `limit=0` gives an empty page, unlike getAds |
| AdsRoute.RouteAgreesWithGetAds | app/api/ads/route.ts:4-40 | with a non-zero limit the route and getAds serve the same page and cursor, or fail together |
| Numerals.ParseIntegerOfIntToString | lib/actions/queries.ts:22-24 | a timestamp's numeral parses back to it |
| Numerals.JsParseIntOfIntToString | app/api/ads/route.ts:10 | parseInt reads an integer's numeral back as that integer |
| Url.Set | lib/api.ts:24-33 | URLSearchParams.set makes the name read back as the value and leaves other names alone |
| Url.QueryString | lib/api.ts:35 | the query string is empty exactly when no parameter is set |
| Api.FailureMessage | lib/api.ts:10-12 | a body that is not JSON is 'Unknown error'; otherwise the body's truthy `error`, else the status line |
| Api.HandleResponse | lib/api.ts:9-16 | fails iff the status is not 2xx or the body is nullish or not JSON; otherwise the body's truthy `data`, else the whole body |
| Api.ErrorRoundTrip | lib/api.ts:9-16 | a route's `{ error }` response comes back as that message, or the status line when it is empty |
| Api.DataRoundTrip | lib/api.ts:9-16 | a route's `{ data }` response comes back as the data when truthy |
| Api.BuildAdsRequest | lib/api.ts:24-35 | sets tags, cursor and limit only when given, and adds '?' only when a parameter was set |
| Api.RequestMatchesGetAds | lib/api.ts:19-38 | the request fetchAds sends makes the route serve the page getAds would give for the same options |
| Api.FetchAdsDropsCursor | lib/api.ts:37 | as written, the client's result of a feed response is the bare ad array: its `data` and `cursor` are undefined |
| Api.FetchAdsDropsCursorExample | lib/api.ts:19-38 | a feed with an active ad, fetched with no options: the route sends a cursor and the client's result has none |
| Api.FetchAdsPage | lib/api.ts:19-38 | the reading fetchAds' result type intends: the body's `data` and `cursor` |
| Api.FetchAdsPageRoundTrip | lib/api.ts:19-38 | that reading gives back what the route sent: the page and cursor, or the error |
| Api.NextRequestOlder | lib/api.ts:19-38 | the cursor read from one page makes the next call serve only ads strictly older than every ad of that page |
| Api.AdOfRow | lib/api.ts:160-178 | an ad row as the ads route sends it converts without error, with its id, advertiser, title, tags and date copied |
| Api.AdDefaultsOfRow | lib/api.ts:160-178 | such an ad shows 'Unknown' as its advertiser, no media or description, and all four feature flags false |
| Api.TransformAd | lib/api.ts:160-178 | a nullish row throws; otherwise each field is copied, with 'Unknown' for the advertiser name and [] or false for missing tags and flags |
| Api.TransformComment | lib/api.ts:181-193 | a nullish row throws; otherwise 'Unknown' for a missing poster name and false for a missing pin flag |
| Api.CommentOfRow | lib/api.ts:181-193 | a stored comment keeps its pin flag and status text |
| Api.CommentPosterOfRow | lib/api.ts:186 | a comment whose poster is missing or has an empty name is shown as by 'Unknown' |
| Api.TransformUgc | lib/api.ts:196-208 | a nullish row throws; `approved` is true exactly for status 'approved' or 'adopted' |
| Api.UgcApprovedOfRow | lib/api.ts:204 | a stored UGC is shown approved exactly when it was approved or adopted |
| Api.TransformQuestion | lib/api.ts:217-223 | type falls back to question_type, options to [], required to false |
| Api.TransformQuestions | lib/api.ts:217 | one question per entry in order; a null entry throws |
| Api.TransformSurvey | lib/api.ts:211-225 | a nullish row throws; questions that are not an array throw; otherwise the converted questions |
| Api.TransformCampaign | lib/api.ts:228-241 | a nullish row throws; requirements and winners default to [] and current applicants to 0 |
| Api.CatchMissing | lib/api.ts:111-116 | a message naming 404 or the not-found phrase becomes null; any other error is rethrown |
| Api.FetchSurvey | lib/api.ts:106-117 | a survey result is the converted body; an error thrown never names 404 or 'No active survey' |
| Api.FetchTesterCampaign | lib/api.ts:133-144 | the same for campaigns and 'No open campaign' |
| Api.StatusLineNames404 | lib/api.ts:12 | the status line of a 404 names 404 |
| Api.NotFoundIsNull | lib/api.ts:106-144 | the routes' 404 answers make fetchSurvey and fetchTesterCampaign return null |
| Api.MissingRowThrows | lib/api.ts:106-144 | as written, an ad without an active survey or open campaign makes the client throw the single-row error instead of returning null |
| Api.SingleRowRouteFixed | lib/api.ts:111-114 | the route the client's catch expects: anything but exactly one matching row is the 404 it maps to null, otherwise 200 with the row |
| Api.MissingRowIsNull | lib/api.ts:106-144 | with that route, no row is null and exactly one row is that row converted |
| CommentSection.Optimistic | components/collaboration/CommentSection.tsx:21-29 | the optimistic comment carries the raw input and the ad, and is pending, unpinned and by the current user |
| CommentSection.ShownBeforeTotal | components/collaboration/CommentSection.tsx:35-41 | the comparator orders every pair consistently |
| CommentSection.SortedComments | components/collaboration/CommentSection.tsx:35-41 | a permutation of the local comments: pinned first, then adopted, then newest first; comments the comparator ties keep their input order |
| CommentSection.Panel.constructor | components/collaboration/CommentSection.tsx:14-15 | the input starts empty and the list is the server's comments |
| CommentSection.Panel.Edit | components/collaboration/CommentSection.tsx:49 | typing replaces the input and leaves the list alone |
| CommentSection.Panel.HandleSubmit | components/collaboration/CommentSection.tsx:17-33 | a blank input changes nothing; otherwise the optimistic comment is prepended, the old list follows unchanged and the input is cleared |
| CommentSection.SubmittedShownAmongNewest | components/collaboration/CommentSection.tsx:17-41 | the new comment is shown ahead of every unpinned, unadopted comment older than it |
| SurveySection.HandleAnswerChange | components/collaboration/SurveySection.tsx:19-33 | single and text answers are replaced; a multiple-choice string is removed when present (all copies) and appended when absent, a missing answer counting as []; other questions unchanged |
| SurveySection.ToggleOptionTwice | components/collaboration/SurveySection.tsx:24-29 | choosing an unchosen option twice restores the answer |
| SurveySection.ToggleChosenOptionTwice | components/collaboration/SurveySection.tsx:24-29 | choosing a chosen option twice keeps the same options but moves it last |
| SurveySection.CheckboxChange | components/collaboration/SurveySection.tsx:138-144 | the checkbox hands on the current options with the option added when checked and removed when unchecked |
| SurveySection.CheckboxAnswerNests | components/collaboration/SurveySection.tsx:71-73 | as written, checking an option of an unanswered question stores an array holding an array, not the option |
| SurveySection.HandleAnswerChangeFixed | components/collaboration/SurveySection.tsx:19-33 | the intended handler: an array value is the new answer as it is; strings toggle as before |
| SurveySection.CheckboxAnswerFixed | components/collaboration/SurveySection.tsx:138-144 | with the fix, the option is in the answer exactly when checked, other options are kept and other questions untouched |
| Common.Toggle | components/onboarding/OnboardingForm.tsx:78-82 | a present tag is removed and the others keep their order (in a selection without duplicates, exactly its position is dropped); an absent tag is appended; no duplicates are introduced |
| Common.ToggleAbsentTwice | components/onboarding/OnboardingForm.tsx:78-82 | toggling an unselected tag twice restores the selection |
| Common.TogglePresentTwice | components/onboarding/OnboardingForm.tsx:78-82 | toggling a selected tag twice keeps the same tags but moves it last |
| Common.Dedupe | components/onboarding/OnboardingForm.tsx:34 | `Array.from(new Set(s))`: no duplicates and the same members |
| Common.DedupePrefix | components/onboarding/OnboardingForm.tsx:93 | the set order of a sequence is a prefix of the set order of any extension |
| OnboardingForm.NormalizeTags | components/onboarding/OnboardingForm.tsx:26-28 | exactly the trimmed tags that are not empty, each trimmed |
| OnboardingForm.NormalizeTagsEmpty | components/onboarding/OnboardingForm.tsx:26-32 | nothing is left exactly when every tag is blank |
| OnboardingForm.GroupOf | components/onboarding/OnboardingForm.tsx:53-73 | at most one group, present iff it has members, holding them once each in collation order |
| OnboardingForm.Assemble | components/onboarding/OnboardingForm.tsx:51-75 | the groups pushed are the category, benefit and other groups in that order, the fallback covering an empty remainder |
| OnboardingForm.Grouped | components/onboarding/OnboardingForm.tsx:34-75 | for non-empty input: some group, well formed, with each kind holding exactly its tags |
| OnboardingForm.TagGroups | components/onboarding/OnboardingForm.tsx:25-76 | no group iff every tag is blank; groups in kind order, non-empty, without duplicates and sorted; category holds exactly the keyword-matching tags, benefit likewise, and other the rest (or all tags when none is left over and no group exists) |
| OnboardingForm.GroupedTagsTrimmed | components/onboarding/OnboardingForm.tsx:26-28 | every grouped tag is trimmed and not empty |
| OnboardingForm.EveryTagGrouped | components/onboarding/OnboardingForm.tsx:25-76 | every non-blank tag lands in some group |
| OnboardingForm.GroupingIgnoresCase | components/onboarding/OnboardingForm.tsx:36-46 | keyword matching gives the same answer for a tag and its lower-case form |
| OnboardingForm.Form.constructor | components/onboarding/OnboardingForm.tsx:21-22 | the selection starts as the saved interests, with no error |
| OnboardingForm.Form.ToggleTag | components/onboarding/OnboardingForm.tsx:78-82 | the selection is toggled, membership of that tag flips, nothing else changes |
| OnboardingForm.Form.HandleSubmit | components/onboarding/OnboardingForm.tsx:84-102 | an empty selection sets the selection error and nothing else; otherwise the deduplicated selection is submitted, the error is the save error or cleared, and the form navigates home only when the save succeeds |
| OnboardingForm.Form.HandleSkip | components/onboarding/OnboardingForm.tsx:104-107 | skipping navigates home and changes nothing else |
| OnboardingForm.SubmittedSelection | components/onboarding/OnboardingForm.tsx:93-94 | the submitted tags have no duplicates, the same members as the selection, and keep first-selection order |
| OnboardingPage.RowsTagsMembers | app/onboarding/page.tsx:16-24 | the rows' tags are exactly the trimmed, non-blank string entries; other entries are skipped |
| OnboardingPage.MockTagsMembers | app/onboarding/page.tsx:26-34 | the mock tags are exactly the mock ads' tags trimmed, blank ones dropped |
| OnboardingPage.CollectedTrimmed | app/onboarding/page.tsx:19-30 | every collected tag is trimmed and not blank |
| OnboardingPage.AvailableTags | app/onboarding/page.tsx:9-37 | each tag once, in collation order, trimmed and not blank; the ads' tags when the query found any, else the mock ads' |
| OnboardingPage.CollectRowTags | app/onboarding/page.tsx:14-24 | the loops build the set of the rows' usable tags in first-seen order |
| OnboardingPage.CollectMockTags | app/onboarding/page.tsx:26-34 | the loops build the set of the mock tags in first-seen order |
| OnboardingPage.FetchAvailableTags | app/onboarding/page.tsx:9-37 | the method's result is AvailableTags |
| OnboardingPage.FetchUserInterests | app/onboarding/page.tsx:39-51 | [] when the read fails or the user has not exactly one row; otherwise the stored interests or [] |
| OnboardingPage.SavedInterestsReadBack | app/onboarding/page.tsx:39-51 | interests saved by updateUserInterests are what the page reads back |
| AdvertiserConsole.MapAdRow | app/advertiser/console/page.tsx:82-93 | a missing title is '無題の広告', a missing status 'draft', a missing date now; present title, status and date are copied; each flag is true only when stored true |
| AdvertiserConsole.MapUgcRow | app/advertiser/console/page.tsx:108-116 | a present status, media URL and date are copied. A missing status is 'approved' exactly when the legacy flag is set, else 'pending'. A missing media URL is '' and a missing date is now |
| AdvertiserConsole.MapCampaignRow | app/advertiser/console/page.tsx:132-142 | a missing title is 'キャンペーン', a missing status 'open', missing counts 0 |
| AdvertiserConsole.MapMockAds | app/advertiser/console/page.tsx:95-106 | every mock ad, in order, shown as active, with its id, title, date and four flags copied |
| AdvertiserConsole.EntryUgc | app/advertiser/console/page.tsx:119-128 | one entry per mock item, in order, tagged with the entry's ad. Id, media URL and date are copied, and the status is 'approved' iff the item is approved, else 'pending' |
| AdvertiserConsole.UgcNewerFirstTotal | app/advertiser/console/page.tsx:129 | the mock UGC comparator is a total preorder |
| AdvertiserConsole.MapMockUgc | app/advertiser/console/page.tsx:118-130 | a permutation of all mock UGC, newest first |
| AdvertiserConsole.MockUgcStatuses | app/advertiser/console/page.tsx:118-130 | mock UGC is approved or pending and belongs to an ad of the mock record |
| AdvertiserConsole.LaterDeadlineFirstTotal | app/advertiser/console/page.tsx:155 | the mock campaign comparator is a total preorder |
| AdvertiserConsole.MapMockCampaigns | app/advertiser/console/page.tsx:144-156 | a permutation of the mock campaigns, latest deadline first, no deadline as time 0 |
| AdvertiserConsole.StatusBadge | app/advertiser/console/page.tsx:158-177 | green iff active or open, yellow iff pending, blue iff approved or completed, red iff rejected or archived, gray for every other label |
| AdvertiserConsole.BadgesOfTableStatuses | app/advertiser/console/page.tsx:158-177 | paused, draft, adopted and closed get gray; only the seven listed labels get a colour |
| AdvertiserConsole.GetAdvertiserPermission | app/advertiser/console/page.tsx:179-202 | null iff the query errors or returns no row; otherwise the first row's advertiser, with role 'viewer' when missing |
| AdvertiserConsole.ComputeMetrics | app/advertiser/console/page.tsx:321-326 | total is the ad count; each counter is at most its list's size and is 0 iff no item has its status; active equals total iff every ad is active |
| AdvertiserConsole.ActiveAdsAppend | app/advertiser/console/page.tsx:323 | one more ad raises the active counter by one exactly when it is active |
| AdvertiserConsole.PendingUgcAppend | app/advertiser/console/page.tsx:324 | one more UGC item raises the pending counter by one exactly when it is pending |
| AdvertiserConsole.OpenCampaignsAppend | app/advertiser/console/page.tsx:325 | one more campaign raises the open counter by one exactly when it is open |
| AdvertiserConsole.PendingPanel | app/advertiser/console/page.tsx:460-468 | at most 20 items, all pending and from the list; empty iff nothing is pending; min(20, pending count) items, and they are the leading items of the pending filter |
| AdvertiserConsole.PendingPanelInOrder | app/advertiser/console/page.tsx:466-468 | the panel's items sit at increasing positions of the UGC list |
| AdvertiserConsole.AdTitleMap | app/advertiser/console/page.tsx:319 | every ad's id is a key, and each key maps to the title of the last ad with that id |
| AdvertiserConsole.TitleFor | app/advertiser/console/page.tsx:474 | the fallback when no ad has the id, else the title of the last ad with that id |
| AdvertiserConsole.Limit | app/advertiser/console/page.tsx:289-297 | no data gives no row; otherwise exactly min(50, count) rows, the leading ones in order |
| AdvertiserConsole.AdvertiserConsolePage | app/advertiser/console/page.tsx:204-510 | no user goes home and no permission shows the no-permission card. Otherwise the data is mock iff no ad row came back. Mock data means mock ads, UGC and campaigns. Real data means the mapped rows, with at most 50 UGC rows. The counters and the pending panel are computed from the lists shown. Each pending item and each campaign is labelled with its ad's title, or '広告' and '広告未登録' respectively |
| Sorting.SortBy | lib/actions/queries.ts:15 | ORDER BY / Array.prototype.sort: a sorted permutation of its input |
| Sorting.SortByStable | app/advertiser/console/page.tsx:129 | the sort is stable: the elements of each tie class keep their input order |
| Sorting.InsertKeepsTies | app/advertiser/console/page.tsx:129 | inserting an element puts it after every element it ties with |

## Left out

- Authentication, cookies and `revalidatePath` are not modelled. The signed-in user is a parameter, and cache revalidation has no observable state here.
- Concurrency is not modelled. The reads and writes of one action run in sequence, and nothing interleaves between them. The check-then-insert race in applyToTesterCampaign is therefore outside the model. ApplyKeepsAdmissionInvariant holds only when the checks and the insert are not interleaved with another request.
- Joins (`users(name)`, `ads(title, media_url)`, `advertisers(org_name, email)`, `survey_questions(*)`) are not modelled in the query functions. The API client's converters receive the joined JSON as input.
- Error messages that the database produces are written as constants. This covers the single-row error, the negative-limit error, the invalid-timestamp error, the upsert error for a batch that names one conflict key twice (`Participation.UpsertSameKeyTwice`), and the TypeError for questions that are not an array. Their wording is an assumption.
- TesterReportsRoute.PostReportSpec: the request's `content` is taken to be a string whenever it is present. A truthy non-string value (a number, an object), which the route's `!content` test lets through to the insert, is not modelled.
- AdsRoute.RouteLimit: a NaN limit is None. The store is taken to reject it, like a negative limit.
- URL encoding is not modelled: URLSearchParams is a list of name/value pairs. A tag containing ',' is outside RequestMatchesGetAds.
- JSON objects are read at their first binding. Objects from serialised records have distinct keys.
- Timestamps are integers, and a cursor's text is its decimal numeral. ISO date strings, invalid dates and time zones are not modelled.
- Clocks and locale are parameters:
  - `Date.now()` and `new Date()` are `idTime` and `now`;
  - `new Date(s).getTime()` is `time`;
  - `localeCompare(…, 'ja')` is the comparator `le`, required to be a total preorder;
  - `toLocaleDateString` (formatDate) is not modelled.
- The lib/api.ts calls fetchAd, fetchComments, postComment, fetchUGC, postUGC, getUGCUploadUrl, submitSurveyAnswers and applyTester are not modelled as separate members. Each is HandleResponse followed by a converter; that converter, TransformX, is modelled and proved. Their routes are not part of this model.
- Router navigation (`router.replace`, `router.refresh`, `redirect`) is a flag or a page variant. React's `isPending` transition state is not modelled.
- SurveySection.HandleAnswerChange requires a multiple-choice answer, when present, to be an array. A string stored under a multiple-choice question would be read as a string in JavaScript; that case is not modelled.
- SurveySection's submit handler only sets a flag and shows an alert. It is not modelled.
- OnboardingForm keyword matching lower-cases only the code points whose lower case holds an ASCII letter (A-Z, U+0130, U+212A). Full Unicode case mapping is not modelled.
- The mock data sets (lib/mockData.ts) are parameters, not their literal contents.
- AdvertiserConsole.MapAdRow: the legacy camelCase keys (`ad_title`, `createdAt`, `hasComments`, …) are modelled as a second optional source. JavaScript `Boolean()` on a non-boolean value is not modelled; flags are booleans or missing.
- AdvertiserConsole.GetAdvertiserPermission: the role is kept as stored, because the cast to the role union checks nothing. The `.limit(1)` of the query is the database's job.
- AdvertiserConsole.AdvertiserConsolePage: the row filters and `ORDER BY` of the console's queries are the database's, so their results are inputs. The role's upper-casing and the rendering are not modelled.
- CommentSection.SubmittedShownAmongNewest is stated over the sort's result and proved from SortedComments without further steps.

## Findings

| source | as written | input that shows it | evidently intended | confidence | as-written member | corrected member |
|---|---|---|---|---|---|---|
| lib/api.ts:9-16, 37 | fetchAds returns `handleResponse(response)`, whose `data.data \|\| data` unwraps the route's `{ data, cursor }` to the bare ad array | any feed with an active ad, fetched with no options: the route sends a cursor, the caller's `.cursor` and `.data` are undefined | fetchAds returns `{ data, cursor }` as its type says, so paging can continue | high (not executed) | Api.FetchAdsDropsCursor, Api.FetchAdsDropsCursorExample | Api.FetchAdsPage, Api.FetchAdsPageRoundTrip |
| app/api/ads/[id]/survey/route.ts:76-89, app/api/ads/[id]/tester/route.ts:104-117 | `.single()` with no matching row returns the single-row error, which the route answers with 500; the 404 branch is unreachable for a missing row | an ad with no active survey (or no open campaign) | 404 for no row, so fetchSurvey / fetchTesterCampaign return null as their `catch` intends | high (not executed) | Api.MissingRowThrows | Api.SingleRowRouteFixed, Api.MissingRowIsNull |
| components/collaboration/SurveySection.tsx:71-73, 138-143 | the checkbox builds the new array and passes it to handleAnswerChange, which treats it as one option: `includes` never finds a fresh array, so the array is appended as an element | check option "A" of an unanswered multiple-choice question: the stored answer is `[["A"]]`, not `["A"]` | the checked options become the answer | high (not executed) | SurveySection.CheckboxAnswerNests | SurveySection.HandleAnswerChangeFixed, SurveySection.CheckboxAnswerFixed |

=== FILE: ads_route.dfy ===
/**
 * GET /api/ads (app/api/ads/route.ts): the feed query of getAds, driven by
 * the request's query parameters. Parameters are read as text: `tags` is
 * split on ',', `limit` goes through parseInt with "20" for a missing or
 * empty value, and `cursor` is used when non-empty. Every failure of the
 * query is a 500 carrying the store's message.
 */
module AdsRoute {
  import opened Common
  import opened Numerals
  import opened Schema
  import opened Sorting
  import opened Queries
  import opened Url

  /** `searchParams.get('tags')?.split(',') || []`. */
  function RouteTags(params: Params): (tags: seq<string>)
    ensures Get(params, "tags").None? ==> tags == []
    ensures Get(params, "tags").Some? ==> tags != [] && Join(tags) == Get(params, "tags").value
  {
    match Get(params, "tags")
    case None => []
    case Some(v) => JoinSplit(v); Split(v)
  }

  /** The text handed to parseInt: `searchParams.get('limit') || '20'` (the default is the numeral of 20). */
  function LimitText(params: Params): string
  {
    match Get(params, "limit")
    case None => IntToString(DefaultLimit)
    case Some(v) => if v == "" then IntToString(DefaultLimit) else v
  }

  /** The page size the route asks for; None is NaN. */
  function RouteLimit(params: Params): (n: Option<int>)
    ensures Get(params, "limit").None? || Get(params, "limit") == Some("") ==> n == Some(DefaultLimit)
  {
    JsParseIntOfIntToString(DefaultLimit);
    JsParseInt(LimitText(params))
  }

  /** A limit written as an integer's numeral is read back as that integer. */
  lemma LimitOfNumeral(params: Params, k: int)
    requires Get(params, "limit") == Some(IntToString(k))
    ensures RouteLimit(params) == Some(k)
  {
    JsParseIntOfIntToString(k);
  }

  /** The store's rejection of `limit=NaN` (its wording is assumed). */
  const UnparsableLimit := "failed to parse limit parameter (NaN)"

  /** A response body: `{ error }` or `{ data, cursor }` (an undefined cursor is None). */
  datatype AdsBody = ErrorBody(error: string) | PageBody(data: seq<AdRow>, cursor: Option<string>)

  datatype AdsResponse = AdsResponse(status: int, body: AdsBody)

  /** The query fails: a NaN or negative limit, an error of the store, or a cursor that is not a timestamp. */
  predicate QueryFails(params: Params, readError: Option<string>)
  {
    var cursor := Get(params, "cursor");
    || RouteLimit(params).None? || RouteLimit(params).value < 0 || readError.Some?
    || (cursor.Some? && cursor.value != "" && ParseInteger(cursor.value).None?)
  }

  /** The handler. */
  function GetAdsRoute(ads: seq<AdRow>, params: Params, readError: Option<string>): (r: AdsResponse)
    ensures r.status == 500 <==> QueryFails(params, readError)
    ensures r.status == 500 ==> r.body.ErrorBody?
    ensures r.status != 500 ==> r.status == 200 && r.body.PageBody?
    ensures readError.Some? && RouteLimit(params).Some? && RouteLimit(params).value >= 0 ==>
      r == AdsResponse(500, ErrorBody(readError.value))
    ensures r.status == 200 ==>
      && FeedPage(r.body.data, ads, RouteTags(params), CursorTime(Get(params, "cursor")), RouteLimit(params).value)
      && FeedComplete(r.body.data, ads, RouteTags(params), CursorTime(Get(params, "cursor")), RouteLimit(params).value)
      && r.body.cursor == NextCursor(r.body.data)
  {
    var limit := RouteLimit(params);
    var cursor := Get(params, "cursor");
    if limit.None? then AdsResponse(500, ErrorBody(UnparsableLimit))
    else if limit.value < 0 then AdsResponse(500, ErrorBody(NegativeLimit))
    else if readError.Some? then AdsResponse(500, ErrorBody(readError.value))
    else if cursor.Some? && cursor.value != "" && ParseInteger(cursor.value).None? then
      AdsResponse(500, ErrorBody(InvalidTimestamp(cursor.value)))
    else
      var page := AdsFeed(ads, RouteTags(params), CursorTime(cursor), limit.value);
      AdsResponse(200, PageBody(page, NextCursor(page)))
  }

  /** Unlike getAds, the route takes `limit=0` literally: the page is empty. */
  lemma ZeroLimitEmptyPage(ads: seq<AdRow>, params: Params)
    requires Get(params, "limit") == Some("0")
    requires !QueryFails(params, None)
    ensures GetAdsRoute(ads, params, None) == AdsResponse(200, PageBody([], None))
  {
    assert IntToString(0) == "0";
    LimitOfNumeral(params, 0);
  }

  /**
   * With the same filters and a non-zero limit, the route and getAds read
   * the same page and hand back the same cursor.
   */
  lemma RouteAgreesWithGetAds(ads: seq<AdRow>, params: Params, readError: Option<string>)
    requires RouteLimit(params).Some? && RouteLimit(params).value != 0
    ensures var route := GetAdsRoute(ads, params, readError);
      var action := GetAds(ads, Some(RouteTags(params)), Get(params, "cursor"), RouteLimit(params), readError);
      && (route.status == 200 <==> action.Ok?)
      && (action.Ok? ==> route.body == PageBody(action.value.data, action.value.cursor))
      && (action.Err? ==> route.body == ErrorBody(action.msg))
  {
  }
}

=== FILE: advertiser_console.dfy ===
/**
 * The advertiser console (app/advertiser/console/page.tsx): the signed-in
 * user's advertiser permission, the advertiser's ads with their UGC and
 * tester campaigns, each database row mapped to a display record with
 * defaults for missing columns, a fallback to the mock data set when the
 * advertiser has no ad, four counters and the panel of pending UGC.
 *
 * Dates stay strings as the rows carry them; `new Date(s).getTime()` is the
 * parameter `time`, and `new Date().toISOString()` the parameter `now`.
 */
module AdvertiserConsole {
  import opened Common
  import opened Sorting

  /** A value read as `row.snake_case ?? row.camelCase`: the column, or the legacy key. */
  datatype Field<T> = Field(column: Option<T>, legacy: Option<T>)

  /** `a ?? b`, both possibly missing. */
  function First<T>(f: Field<T>): Option<T>
  {
    if f.column.Some? then f.column else f.legacy
  }

  /** `a ?? b ?? fallback`. */
  function Or<T>(f: Field<T>, fallback: T): T
  {
    match First(f)
    case Some(v) => v
    case None => fallback
  }

  const UntitledAd := "無題の広告"
  const DefaultCampaignTitle := "キャンペーン"
  const DefaultAdvertiserName := "広告主アカウント"
  const DefaultRole := "viewer"
  /** The number of pending UGC items the panel lists. */
  const PendingShown := 20
  /** The `.limit(50)` of the UGC query. */
  const UgcQueryLimit := 50

  // ---------------------------------------------------------------------------
  // Rows and display records

  datatype AdRow = AdRow(
    id: string, title: Field<string>, status: Option<string>, createdAt: Field<string>,
    hasComments: Field<bool>, hasUgc: Field<bool>, hasSurvey: Field<bool>, hasTester: Field<bool>)

  datatype ConsoleAd = ConsoleAd(
    id: string, title: string, status: string, createdAt: string,
    hasComments: bool, hasUgc: bool, hasSurvey: bool, hasTester: bool)

  /** A UGC row; `approved` is a legacy flag read only when `status` is missing. */
  datatype UgcRow = UgcRow(
    id: string, adId: Field<string>, status: Option<string>, approved: Option<bool>,
    createdAt: Field<string>, mediaUrl: Field<string>)

  datatype ConsoleUgc = ConsoleUgc(id: string, adId: Option<string>, mediaUrl: string, status: string, createdAt: string)

  datatype CampaignRow = CampaignRow(
    id: string, adId: Field<string>, title: Option<string>, status: Option<string>,
    currentApplicants: Field<int>, maxApplicants: Field<int>, deadline: Option<string>)

  datatype ConsoleCampaign = ConsoleCampaign(
    id: string, adId: Option<string>, title: string, status: string,
    currentApplicants: int, maxApplicants: int, deadline: Option<string>)

  /** `mapAdRow`: a missing title, status, date or flag gets its default. */
  function MapAdRow(row: AdRow, now: string): (ad: ConsoleAd)
    ensures ad.id == row.id
    ensures First(row.title).None? ==> ad.title == UntitledAd
    ensures First(row.title).Some? ==> ad.title == First(row.title).value
    ensures ad.status == if row.status.Some? then row.status.value else "draft"
    ensures First(row.createdAt) == None ==> ad.createdAt == now
    ensures First(row.createdAt).Some? ==> ad.createdAt == First(row.createdAt).value
    ensures ad.hasComments <==> First(row.hasComments) == Some(true)
    ensures ad.hasUgc <==> First(row.hasUgc) == Some(true)
    ensures ad.hasSurvey <==> First(row.hasSurvey) == Some(true)
    ensures ad.hasTester <==> First(row.hasTester) == Some(true)
  {
    ConsoleAd(
      row.id, Or(row.title, UntitledAd), if row.status.Some? then row.status.value else "draft",
      Or(row.createdAt, now),
      Or(row.hasComments, false), Or(row.hasUgc, false), Or(row.hasSurvey, false), Or(row.hasTester, false))
  }

  /** `mapUGCRow`: a missing status falls back on the legacy flag, a missing media URL is "". */
  function MapUgcRow(row: UgcRow, now: string): (u: ConsoleUgc)
    ensures u.id == row.id && u.adId == First(row.adId)
    ensures row.status.Some? ==> u.status == row.status.value
    ensures row.status.None? ==> (u.status == "approved" <==> row.approved == Some(true))
    ensures row.status.None? ==> (u.status == "pending" <==> row.approved != Some(true))
    ensures First(row.mediaUrl).None? ==> u.mediaUrl == ""
    ensures First(row.mediaUrl).Some? ==> u.mediaUrl == First(row.mediaUrl).value
    ensures First(row.createdAt) == None ==> u.createdAt == now
    ensures First(row.createdAt).Some? ==> u.createdAt == First(row.createdAt).value
  {
    ConsoleUgc(
      row.id, First(row.adId), Or(row.mediaUrl, ""),
      if row.status.Some? then row.status.value else if row.approved == Some(true) then "approved" else "pending",
      Or(row.createdAt, now))
  }

  /** `mapCampaignRow`: a missing status is "open" and missing counts are 0. */
  function MapCampaignRow(row: CampaignRow): (c: ConsoleCampaign)
    ensures c.id == row.id && c.adId == First(row.adId) && c.deadline == row.deadline
    ensures c.title == if row.title.Some? then row.title.value else DefaultCampaignTitle
    ensures c.status == if row.status.Some? then row.status.value else "open"
    ensures First(row.currentApplicants).None? ==> c.currentApplicants == 0
    ensures First(row.maxApplicants).None? ==> c.maxApplicants == 0
    ensures First(row.currentApplicants).Some? ==> c.currentApplicants == First(row.currentApplicants).value
    ensures First(row.maxApplicants).Some? ==> c.maxApplicants == First(row.maxApplicants).value
  {
    ConsoleCampaign(
      row.id, First(row.adId), if row.title.Some? then row.title.value else DefaultCampaignTitle,
      if row.status.Some? then row.status.value else "open",
      Or(row.currentApplicants, 0), Or(row.maxApplicants, 0), row.deadline)
  }

  function MapAdRows(rows: seq<AdRow>, now: string): seq<ConsoleAd>
  {
    seq(|rows|, i requires 0 <= i < |rows| => MapAdRow(rows[i], now))
  }

  function MapUgcRows(rows: seq<UgcRow>, now: string): seq<ConsoleUgc>
  {
    seq(|rows|, i requires 0 <= i < |rows| => MapUgcRow(rows[i], now))
  }

  function MapCampaignRows(rows: seq<CampaignRow>): seq<ConsoleCampaign>
  {
    seq(|rows|, i requires 0 <= i < |rows| => MapCampaignRow(rows[i]))
  }

  // ---------------------------------------------------------------------------
  // The mock data set

  datatype MockAd = MockAd(
    id: string, title: string, createdAt: string,
    hasComments: bool, hasUgc: bool, hasSurvey: bool, hasTester: bool)

  datatype MockUgcItem = MockUgcItem(id: string, mediaUrl: string, approved: bool, createdAt: string)

  datatype MockCampaign = MockCampaign(
    id: string, adId: string, title: string, status: string,
    currentApplicants: int, maxApplicants: int, deadline: Option<string>)

  /** The mock ads, the mock UGC as the entries of a record keyed by ad id, and the mock campaigns. */
  datatype MockData = MockData(ads: seq<MockAd>, ugc: seq<(string, seq<MockUgcItem>)>, campaigns: seq<MockCampaign>)

  /** `mapMockAds`: every mock ad, shown as active. */
  function MapMockAds(ads: seq<MockAd>): (r: seq<ConsoleAd>)
    ensures |r| == |ads|
    ensures forall i :: 0 <= i < |r| ==> r[i].id == ads[i].id && r[i].title == ads[i].title && r[i].status == "active"
    ensures forall i :: 0 <= i < |r| ==> r[i].createdAt == ads[i].createdAt
    ensures forall i :: 0 <= i < |r| ==>
      && r[i].hasComments == ads[i].hasComments && r[i].hasUgc == ads[i].hasUgc
      && r[i].hasSurvey == ads[i].hasSurvey && r[i].hasTester == ads[i].hasTester
  {
    seq(|ads|, i requires 0 <= i < |ads| =>
      var ad := ads[i];
      ConsoleAd(ad.id, ad.title, "active", ad.createdAt, ad.hasComments, ad.hasUgc, ad.hasSurvey, ad.hasTester))
  }

  /** The UGC of one entry of the mock record, each item tagged with the entry's ad id. */
  function EntryUgc(entry: (string, seq<MockUgcItem>)): (r: seq<ConsoleUgc>)
    ensures forall u :: u in r ==> u.adId == Some(entry.0) && (u.status == "approved" || u.status == "pending")
    ensures |r| == |entry.1|
    ensures forall i :: 0 <= i < |r| ==>
      && r[i].id == entry.1[i].id && r[i].mediaUrl == entry.1[i].mediaUrl && r[i].createdAt == entry.1[i].createdAt
      && (r[i].status == "approved" <==> entry.1[i].approved)
  {
    seq(|entry.1|, i requires 0 <= i < |entry.1| =>
      var item := entry.1[i];
      ConsoleUgc(item.id, Some(entry.0), item.mediaUrl, if item.approved then "approved" else "pending", item.createdAt))
  }

  /** The comparator of `mapMockUGC`: newer first. */
  function UgcNewerFirst(time: string -> int): (ConsoleUgc, ConsoleUgc) -> bool
  {
    (a: ConsoleUgc, b: ConsoleUgc) => time(b.createdAt) <= time(a.createdAt)
  }

  lemma UgcNewerFirstTotal(time: string -> int)
    ensures TotalPreorder(UgcNewerFirst(time))
  {
  }

  /** `mapMockUGC`: all the mock UGC, newest first. */
  function MapMockUgc(entries: seq<(string, seq<MockUgcItem>)>, time: string -> int): (r: seq<ConsoleUgc>)
    ensures multiset(r) == multiset(FlatMap(entries, EntryUgc))
    ensures forall i, j :: 0 <= i < j < |r| ==> time(r[i].createdAt) >= time(r[j].createdAt)
  {
    UgcNewerFirstTotal(time);
    SortBy(FlatMap(entries, EntryUgc), UgcNewerFirst(time))
  }

  /** Mock UGC is approved or pending and belongs to an ad of the mock record. */
  lemma MockUgcStatuses(entries: seq<(string, seq<MockUgcItem>)>, time: string -> int, u: ConsoleUgc)
    requires u in MapMockUgc(entries, time)
    ensures u.status == "approved" || u.status == "pending"
    ensures exists i :: 0 <= i < |entries| && u.adId == Some(entries[i].0)
  {
    assert u in multiset(FlatMap(entries, EntryUgc));
    FlatMapMembers(entries, EntryUgc, u);
  }

  /** `new Date(deadline ?? 0).getTime()`. */
  function DeadlineTime(c: ConsoleCampaign, time: string -> int): int
  {
    if c.deadline.Some? then time(c.deadline.value) else 0
  }

  function LaterDeadlineFirst(time: string -> int): (ConsoleCampaign, ConsoleCampaign) -> bool
  {
    (a: ConsoleCampaign, b: ConsoleCampaign) => DeadlineTime(b, time) <= DeadlineTime(a, time)
  }

  lemma LaterDeadlineFirstTotal(time: string -> int)
    ensures TotalPreorder(LaterDeadlineFirst(time))
  {
  }

  function MockCampaignShown(c: MockCampaign): ConsoleCampaign
  {
    ConsoleCampaign(c.id, Some(c.adId), c.title, c.status, c.currentApplicants, c.maxApplicants, c.deadline)
  }

  /** `mapMockCampaigns`: all the mock campaigns, latest deadline first, no deadline counting as time 0. */
  function MapMockCampaigns(campaigns: seq<MockCampaign>, time: string -> int): (r: seq<ConsoleCampaign>)
    ensures multiset(r) == multiset(seq(|campaigns|, i requires 0 <= i < |campaigns| => MockCampaignShown(campaigns[i])))
    ensures forall i, j :: 0 <= i < j < |r| ==> DeadlineTime(r[i], time) >= DeadlineTime(r[j], time)
  {
    LaterDeadlineFirstTotal(time);
    SortBy(seq(|campaigns|, i requires 0 <= i < |campaigns| => MockCampaignShown(campaigns[i])), LaterDeadlineFirst(time))
  }

  // ---------------------------------------------------------------------------
  // Status badges

  datatype Badge = Green | Yellow | Blue | Red | Gray
  {
    function ClassName(): string
    {
      match this
      case Green => "bg-green-100 text-green-700"
      case Yellow => "bg-yellow-100 text-yellow-800"
      case Blue => "bg-blue-100 text-blue-700"
      case Red => "bg-red-100 text-red-700"
      case Gray => "bg-gray-100 text-gray-700"
    }
  }

  /** `statusBadgeClass`: the colour of a status label; unknown labels are gray. */
  function StatusBadge(status: string): (b: Badge)
    ensures b == Green <==> status == "active" || status == "open"
    ensures b == Yellow <==> status == "pending"
    ensures b == Blue <==> status == "approved" || status == "completed"
    ensures b == Red <==> status == "rejected" || status == "archived"
  {
    match status
    case "active" => Green
    case "open" => Green
    case "pending" => Yellow
    case "approved" => Blue
    case "completed" => Blue
    case "paused" => Gray
    case "draft" => Gray
    case "rejected" => Red
    case "archived" => Red
    case _ => Gray
  }

  /**
   * The badges of the statuses the tables hold: an adopted UGC item and a
   * closed campaign, like a paused or draft ad, get the gray badge.
   */
  lemma BadgesOfTableStatuses()
    ensures StatusBadge("paused") == Gray && StatusBadge("draft") == Gray
    ensures StatusBadge("adopted") == Gray && StatusBadge("closed") == Gray
    ensures forall s :: StatusBadge(s) != Gray ==>
      s in ["active", "open", "pending", "approved", "completed", "rejected", "archived"]
  {
  }

  // ---------------------------------------------------------------------------
  // Permission

  datatype PermissionRow = PermissionRow(advertiserId: string, role: Option<string>)

  datatype Permission = Permission(advertiserId: string, role: string)

  /** The outcome of the permissions query: an error flag and the rows, if any. */
  datatype PermissionQuery = PermissionQuery(failed: bool, data: Option<seq<PermissionRow>>)

  /** `getAdvertiserPermission`: the first permission row, none on an error or no row. */
  function GetAdvertiserPermission(q: PermissionQuery): (p: Option<Permission>)
    ensures p.None? <==> q.failed || q.data.None? || q.data.value == []
    ensures p.Some? ==> p.value.advertiserId == q.data.value[0].advertiserId
    ensures p.Some? ==> p.value.role == if q.data.value[0].role.Some? then q.data.value[0].role.value else DefaultRole
  {
    if q.failed || q.data.None? || |q.data.value| == 0 then None
    else
      var row := q.data.value[0];
      Some(Permission(row.advertiserId, if row.role.Some? then row.role.value else DefaultRole))
  }

  // ---------------------------------------------------------------------------
  // Counters and the pending panel

  datatype Metrics = Metrics(totalAds: nat, activeAds: nat, pendingUgc: nat, openCampaigns: nat)

  function IsActiveAd(ad: ConsoleAd): bool { ad.status == "active" }
  function IsPendingUgc(u: ConsoleUgc): bool { u.status == "pending" }
  function IsOpenCampaign(c: ConsoleCampaign): bool { c.status == "open" }

  /** `metrics`: each counter counts its status and is at most the size of its list. */
  function ComputeMetrics(ads: seq<ConsoleAd>, ugc: seq<ConsoleUgc>, campaigns: seq<ConsoleCampaign>): (m: Metrics)
    ensures m.totalAds == |ads|
    ensures m.activeAds <= |ads| && m.pendingUgc <= |ugc| && m.openCampaigns <= |campaigns|
    ensures m.activeAds == 0 <==> forall i :: 0 <= i < |ads| ==> ads[i].status != "active"
    ensures m.activeAds == |ads| <==> forall i :: 0 <= i < |ads| ==> ads[i].status == "active"
    ensures m.pendingUgc == 0 <==> forall i :: 0 <= i < |ugc| ==> ugc[i].status != "pending"
    ensures m.openCampaigns == 0 <==> forall i :: 0 <= i < |campaigns| ==> campaigns[i].status != "open"
  {
    CountAll(ads, IsActiveAd);
    Metrics(|ads|, Count(ads, IsActiveAd), Count(ugc, IsPendingUgc), Count(campaigns, IsOpenCampaign))
  }

  /** Adding an ad adds one to the active counter exactly when it is active. */
  lemma ActiveAdsAppend(ads: seq<ConsoleAd>, ad: ConsoleAd, ugc: seq<ConsoleUgc>, campaigns: seq<ConsoleCampaign>)
    ensures ComputeMetrics(ads + [ad], ugc, campaigns).activeAds
      == ComputeMetrics(ads, ugc, campaigns).activeAds + (if ad.status == "active" then 1 else 0)
  {
    CountAppend(ads, ad, IsActiveAd);
  }

  /** Adding a UGC item adds one to the pending counter exactly when it is pending. */
  lemma PendingUgcAppend(ads: seq<ConsoleAd>, ugc: seq<ConsoleUgc>, u: ConsoleUgc, campaigns: seq<ConsoleCampaign>)
    ensures ComputeMetrics(ads, ugc + [u], campaigns).pendingUgc
      == ComputeMetrics(ads, ugc, campaigns).pendingUgc + (if u.status == "pending" then 1 else 0)
  {
    CountAppend(ugc, u, IsPendingUgc);
  }

  /** Adding a campaign adds one to the open counter exactly when it is open. */
  lemma OpenCampaignsAppend(ads: seq<ConsoleAd>, ugc: seq<ConsoleUgc>, campaigns: seq<ConsoleCampaign>, c: ConsoleCampaign)
    ensures ComputeMetrics(ads, ugc, campaigns + [c]).openCampaigns
      == ComputeMetrics(ads, ugc, campaigns).openCampaigns + (if c.status == "open" then 1 else 0)
  {
    CountAppend(campaigns, c, IsOpenCampaign);
  }

  /** The pending panel: the first 20 pending items. */
  function PendingPanel(ugc: seq<ConsoleUgc>): (r: seq<ConsoleUgc>)
    ensures |r| <= PendingShown
    ensures forall i :: 0 <= i < |r| ==> r[i].status == "pending" && r[i] in ugc
    ensures r == [] <==> forall i :: 0 <= i < |ugc| ==> ugc[i].status != "pending"
    ensures |r| == if Count(ugc, IsPendingUgc) < PendingShown then Count(ugc, IsPendingUgc) else PendingShown
    ensures r == Filter(ugc, IsPendingUgc)[..|r|]
  {
    var pending := Filter(ugc, IsPendingUgc);
    var r := if |pending| <= PendingShown then pending else pending[..PendingShown];
    assert forall i :: 0 <= i < |r| ==> r[i] == pending[i];
    assert |pending| == Count(ugc, IsPendingUgc);
    r
  }

  /** The panel lists its items in the order of the UGC list. */
  lemma PendingPanelInOrder(ugc: seq<ConsoleUgc>)
    ensures exists idx :: PicksInOrder(PendingPanel(ugc), ugc, idx)
  {
    var idx := FilterInOrder(ugc, IsPendingUgc);
    var pending := Filter(ugc, IsPendingUgc);
    var m := |PendingPanel(ugc)|;
    PicksPrefix(pending, ugc, idx, m);
    assert pending[..m] == PendingPanel(ugc);
  }

  /** The label of a pending item whose ad has no title in the map. */
  const UgcFallbackTitle := "広告"
  /** The label of a campaign whose ad has no title in the map. */
  const CampaignFallbackTitle := "広告未登録"

  /** `ads[i]` is the last ad with its id. */
  ghost predicate LastWithId(ads: seq<ConsoleAd>, i: int)
  {
    0 <= i < |ads| && forall j :: i < j < |ads| ==> ads[j].id != ads[i].id
  }

  /** An ad last with its id among the first n stays last when the next ad has another id. */
  lemma LastWithIdExtends(ads: seq<ConsoleAd>, n: nat, i: int)
    requires n < |ads| && LastWithId(ads[..n], i) && ads[n].id != ads[i].id
    ensures LastWithId(ads[..n + 1], i)
  {
    assert forall j :: i < j < n ==> ads[..n + 1][j] == ads[..n][j];
  }

  /** `adTitleMap`: each ad id to the title of its last ad, as `new Map(entries)` keeps the last. */
  function AdTitleMap(ads: seq<ConsoleAd>): (m: map<string, string>)
    ensures forall i :: 0 <= i < |ads| ==> ads[i].id in m
    ensures forall id :: id in m ==> exists i :: LastWithId(ads, i) && ads[i].id == id && m[id] == ads[i].title
  {
    if ads == [] then map[]
    else
      var n := |ads| - 1;
      var prefix := ads[..n];
      assert ads == prefix + [ads[n]];
      var m := AdTitleMap(prefix);
      var m' := m[ads[n].id := ads[n].title];
      assert forall id :: id in m' ==> exists i :: LastWithId(ads, i) && ads[i].id == id && m'[id] == ads[i].title by {
        forall id | id in m'
          ensures exists i :: LastWithId(ads, i) && ads[i].id == id && m'[id] == ads[i].title
        {
          if id == ads[n].id {
            assert LastWithId(ads, n);
          } else {
            var i :| LastWithId(prefix, i) && prefix[i].id == id && m[id] == prefix[i].title;
            LastWithIdExtends(ads, n, i);
            assert ads[..n + 1] == ads;
          }
        }
      }
      m'
  }

  /** `adTitleMap.get(adId) ?? fallback`: the title of the last ad with that id, or the fallback when none has it. */
  function TitleFor(ads: seq<ConsoleAd>, adId: Option<string>, fallback: string): (t: string)
    ensures adId.None? || (forall i :: 0 <= i < |ads| ==> ads[i].id != adId.value) ==> t == fallback
    ensures adId.Some? && (exists i :: 0 <= i < |ads| && ads[i].id == adId.value) ==>
      exists i :: LastWithId(ads, i) && ads[i].id == adId.value && t == ads[i].title
  {
    var titles := AdTitleMap(ads);
    if adId.Some? && adId.value in titles then titles[adId.value] else fallback
  }

  /** The label of each pending item: `adTitleMap.get(item.adId) ?? '広告'`. */
  function UgcTitles(ads: seq<ConsoleAd>, items: seq<ConsoleUgc>): (r: seq<string>)
    ensures |r| == |items|
    ensures forall i :: 0 <= i < |items| ==> r[i] == TitleFor(ads, items[i].adId, UgcFallbackTitle)
  {
    seq(|items|, i requires 0 <= i < |items| => TitleFor(ads, items[i].adId, UgcFallbackTitle))
  }

  /** The ad of each campaign: `adTitleMap.get(campaign.adId) ?? '広告未登録'`. */
  function CampaignTitles(ads: seq<ConsoleAd>, campaigns: seq<ConsoleCampaign>): (r: seq<string>)
    ensures |r| == |campaigns|
    ensures forall i :: 0 <= i < |campaigns| ==> r[i] == TitleFor(ads, campaigns[i].adId, CampaignFallbackTitle)
  {
    seq(|campaigns|, i requires 0 <= i < |campaigns| => TitleFor(ads, campaigns[i].adId, CampaignFallbackTitle))
  }

  // ---------------------------------------------------------------------------
  // The page

  datatype Page =
    | RedirectHome
    | NoPermission
    | Console(role: string, advertiserName: string, isMockData: bool,
              ads: seq<ConsoleAd>, ugc: seq<ConsoleUgc>, campaigns: seq<ConsoleCampaign>,
              metrics: Metrics, pending: seq<ConsoleUgc>,
              pendingTitles: seq<string>, campaignAdTitles: seq<string>)

  /** `data ?? []`. */
  function RowsOf<T>(data: Option<seq<T>>): seq<T>
  {
    if data.Some? then data.value else []
  }

  /** `(data ?? [])` after `.limit(n)`: the first n rows, or all of them when there are fewer. */
  function Limit<T>(rows: Option<seq<T>>, n: nat): (r: seq<T>)
    ensures |r| <= n
    ensures rows.None? ==> r == []
    ensures rows.Some? ==> |r| == (if |rows.value| <= n then |rows.value| else n) && r == rows.value[..|r|]
  {
    if rows.None? then [] else if |rows.value| <= n then rows.value else rows.value[..n]
  }

  /**
   * `AdvertiserConsolePage`: no user is sent home, a user without permission
   * sees the no-permission card; otherwise the lists are the mapped rows,
   * replaced by the mock data set when the advertiser has no ad. The UGC
   * and campaigns are only queried for an advertiser with ads, so they are
   * mock exactly when the ads are.
   */
  method AdvertiserConsolePage(
    user: Option<string>, permissionQuery: PermissionQuery, orgName: Option<string>,
    adsRows: Option<seq<AdRow>>, ugcData: Option<seq<UgcRow>>, campaignData: Option<seq<CampaignRow>>,
    mock: MockData, now: string, time: string -> int) returns (page: Page)
    ensures user.None? ==> page == RedirectHome
    ensures user.Some? && GetAdvertiserPermission(permissionQuery).None? ==> page == NoPermission
    ensures user.Some? && GetAdvertiserPermission(permissionQuery).Some? ==>
      && page.Console?
      && page.role == GetAdvertiserPermission(permissionQuery).value.role
      && page.advertiserName == (if orgName.Some? then orgName.value else DefaultAdvertiserName)
      && (page.isMockData <==> RowsOf(adsRows) == [])
      && (page.isMockData ==>
            && page.ads == MapMockAds(mock.ads)
            && page.ugc == MapMockUgc(mock.ugc, time)
            && page.campaigns == MapMockCampaigns(mock.campaigns, time))
      && (!page.isMockData ==>
            && page.ads == MapAdRows(RowsOf(adsRows), now)
            && page.ugc == MapUgcRows(Limit(ugcData, UgcQueryLimit), now)
            && page.campaigns == MapCampaignRows(RowsOf(campaignData)))
      && page.metrics == ComputeMetrics(page.ads, page.ugc, page.campaigns)
      && page.pending == PendingPanel(page.ugc)
      && page.pendingTitles == UgcTitles(page.ads, page.pending)
      && page.campaignAdTitles == CampaignTitles(page.ads, page.campaigns)
  {
    if user.None? {
      return RedirectHome;
    }
    var permission := GetAdvertiserPermission(permissionQuery);
    if permission.None? {
      return NoPermission;
    }
    var advertiserName := if orgName.Some? then orgName.value else DefaultAdvertiserName;

    var supabaseAds := RowsOf(adsRows);
    var adIds := seq(|supabaseAds|, i requires 0 <= i < |supabaseAds| => supabaseAds[i].id);

    var ugcRows: seq<UgcRow> := [];
    var campaignsRows: seq<CampaignRow> := [];
    if |adIds| > 0 {
      ugcRows := Limit(ugcData, UgcQueryLimit);
      campaignsRows := RowsOf(campaignData);
    }

    var isMockData := false;

    var ads := MapAdRows(supabaseAds, now);
    if |ads| == 0 {
      isMockData := true;
      ads := MapMockAds(mock.ads);
    }

    var ugc := MapUgcRows(ugcRows, now);
    if |ugc| == 0 && isMockData {
      ugc := MapMockUgc(mock.ugc, time);
    }

    var campaigns := MapCampaignRows(campaignsRows);
    if |campaigns| == 0 && isMockData {
      campaigns := MapMockCampaigns(mock.campaigns, time);
    }

    var metrics := ComputeMetrics(ads, ugc, campaigns);
    var pending := PendingPanel(ugc);
    page := Console(permission.value.role, advertiserName, isMockData, ads, ugc, campaigns,
                    metrics, pending, UgcTitles(ads, pending), CampaignTitles(ads, campaigns));
  }
}

=== FILE: api.dfy ===
/**
 * The browser-side API client (lib/api.ts): reading a route's JSON response
 * (`handleResponse`), building the ad feed's request URL (`fetchAds`), the
 * conversions of database rows into the client's records
 * (`transform*FromDB`) and the "nothing there" mapping of `fetchSurvey` and
 * `fetchTesterCampaign`.
 *
 * `fetch` itself is I/O: a response is a parameter, its status and what
 * `response.json()` gave (an `Err` carrying the parser's message when the
 * body is not JSON). A thrown error is an `Err` carrying its message.
 */
module Api {
  import opened Common
  import opened Numerals
  import opened Json
  import opened Url
  import opened Schema
  import Store
  import Queries
  import AdsRoute

  const ApiBase := "/api"

  datatype HttpResponse = HttpResponse(status: int, body: Result<Json>)

  /** `response.ok`. */
  predicate Ok2xx(status: int)
  {
    200 <= status <= 299
  }

  /** The stand-in body handleResponse uses when an error response is not JSON. */
  const UnknownError := "Unknown error"

  function StatusError(status: int): string
  {
    "HTTP error! status: " + IntToString(status)
  }

  /** The body a route sends with `NextResponse.json({ error })`. */
  function ErrorJson(message: string): Json
  {
    Obj([("error", Str(message))])
  }

  /** The body a route sends with `NextResponse.json({ data })`. */
  function DataJson(data: Json): Json
  {
    Obj([("data", data)])
  }

  // ---------------------------------------------------------------------------
  // handleResponse

  /**
   * The message handleResponse throws for a response that is not ok: the
   * body's `error` when truthy, else the status line; a body that is not
   * JSON counts as `{ error: 'Unknown error' }`, and a `null` body makes
   * reading `error` itself throw.
   */
  function FailureMessage(resp: HttpResponse): (m: string)
    ensures resp.body.Err? ==> m == UnknownError
    ensures resp.body.Ok? && Nullish(resp.body.value) ==> m == ReadError(resp.body.value, "error")
    ensures resp.body.Ok? && !Nullish(resp.body.value) ==>
      var e := Field(resp.body.value, "error");
      m == if Truthy(e) then ToText(e) else StatusError(resp.status)
  {
    var error := if resp.body.Err? then ErrorJson(UnknownError) else resp.body.value;
    if Nullish(error) then ReadError(error, "error")
    else
      var e := Field(error, "error");
      if Truthy(e) then ToText(e) else StatusError(resp.status)
  }

  /** handleResponse: on an ok response, the body's `data` when truthy, else the whole body. */
  function HandleResponse(resp: HttpResponse): (r: Result<Json>)
    ensures r.Ok? <==> Ok2xx(resp.status) && resp.body.Ok? && !Nullish(resp.body.value)
    ensures !Ok2xx(resp.status) ==> r == Err(FailureMessage(resp))
    ensures Ok2xx(resp.status) && resp.body.Err? ==> r == resp.body
    ensures Ok2xx(resp.status) && resp.body.Ok? && Nullish(resp.body.value) ==>
      r == Err(ReadError(resp.body.value, "data"))
    ensures r.Ok? && Truthy(Field(resp.body.value, "data")) ==> r.value == Field(resp.body.value, "data")
    ensures r.Ok? && !Truthy(Field(resp.body.value, "data")) ==> r.value == resp.body.value
  {
    if !Ok2xx(resp.status) then Err(FailureMessage(resp))
    else match resp.body
      case Err(m) => Err(m)
      case Ok(data) => if Nullish(data) then Err(ReadError(data, "data")) else Ok(Or(Field(data, "data"), data))
  }

  /** A route's `{ error }` response comes back as that message, or the status line when it is empty. */
  lemma ErrorRoundTrip(status: int, message: string)
    requires !Ok2xx(status)
    ensures HandleResponse(HttpResponse(status, Ok(ErrorJson(message))))
         == Err(if message == "" then StatusError(status) else message)
  {
  }

  /** A route's `{ data }` response comes back as the data, when the data is truthy. */
  lemma DataRoundTrip(status: int, data: Json)
    requires Ok2xx(status) && Truthy(data)
    ensures HandleResponse(HttpResponse(status, Ok(DataJson(data)))) == Ok(data)
  {
  }

  // ---------------------------------------------------------------------------
  // fetchAds: the request

  /**
   * The query a fetchAds call sends: `tags` comma-joined when the list is
   * non-empty, `cursor` when truthy, `limit` when non-zero, and nothing
   * else.
   */
  predicate QueryOf(params: Params, tags: Option<seq<string>>, cursor: Option<string>, limit: Option<int>)
  {
    && Get(params, "tags") == (if tags.Some? && |tags.value| > 0 then Some(Join(tags.value)) else None)
    && Get(params, "cursor") == (if cursor.Some? && cursor.value != "" then cursor else None)
    && Get(params, "limit") == (if limit.Some? && limit.value != 0 then Some(IntToString(limit.value)) else None)
    && forall p :: p in params ==> p.0 == "tags" || p.0 == "cursor" || p.0 == "limit"
  }

  /** No option that fetchAds forwards is set. */
  predicate NoOptions(tags: Option<seq<string>>, cursor: Option<string>, limit: Option<int>)
  {
    (tags.None? || tags.value == []) && (cursor.None? || cursor.value == "") && (limit.None? || limit.value == 0)
  }

  /**
   * fetchAds up to the `fetch` call: the search parameters set one by one,
   * and the URL, which carries a '?' only when some parameter was set.
   * `limit` is None when left out; a NaN limit is not modelled.
   */
  method BuildAdsRequest(tags: Option<seq<string>>, cursor: Option<string>, limit: Option<int>)
    returns (url: string, params: Params)
    ensures QueryOf(params, tags, cursor, limit)
    ensures params == [] <==> NoOptions(tags, cursor, limit)
    ensures params == [] ==> url == ApiBase + "/ads"
    ensures params != [] ==> url == ApiBase + "/ads?" + QueryString(params)
  {
    params := [];
    if tags.Some? && |tags.value| > 0 {
      params := Set(params, "tags", Join(tags.value));
    }
    assert Get(params, "cursor").None? && Get(params, "limit").None?;
    if cursor.Some? && cursor.value != "" {
      params := Set(params, "cursor", cursor.value);
    }
    assert Get(params, "limit").None?;
    if limit.Some? && limit.value != 0 {
      params := Set(params, "limit", IntToString(limit.value));
    }
    var query := QueryString(params);
    if query != "" {
      url := ApiBase + "/ads?" + query;
    } else {
      url := ApiBase + "/ads";
    }
  }

  /**
   * What fetchAds sends, read by GET /api/ads, asks for the page getAds
   * would give for the same options (tags containing no ','): the route
   * fails exactly when getAds does, with the same message, and otherwise
   * serves the same page and cursor.
   */
  lemma RequestMatchesGetAds(ads: seq<AdRow>, params: Params, tags: Option<seq<string>>, cursor: Option<string>,
                             limit: Option<int>, readError: Option<string>)
    requires QueryOf(params, tags, cursor, limit)
    requires tags.Some? ==> forall i :: 0 <= i < |tags.value| ==> ',' !in tags.value[i]
    ensures var route := AdsRoute.GetAdsRoute(ads, params, readError);
      var action := Queries.GetAds(ads, tags, cursor, limit, readError);
      && (route.status == 200 <==> action.Ok?)
      && (action.Ok? ==> route.body == AdsRoute.PageBody(action.value.data, action.value.cursor))
      && (action.Err? ==> route.body == AdsRoute.ErrorBody(action.msg))
  {
    assert AdsRoute.RouteTags(params) == Queries.TagList(tags) by {
      if tags.Some? && |tags.value| > 0 {
        SplitJoin(tags.value);
      }
    }
    assert AdsRoute.RouteLimit(params) == Some(Queries.EffectiveLimit(limit)) by {
      if limit.Some? && limit.value != 0 {
        AdsRoute.LimitOfNumeral(params, limit.value);
      }
    }
    assert Queries.CursorTime(Get(params, "cursor")) == Queries.CursorTime(cursor);
  }

  // ---------------------------------------------------------------------------
  // fetchAds: the response

  function StatusText(s: AdStatus): string
  {
    match s
    case Active => "active"
    case Paused => "paused"
    case Archived => "archived"
  }

  function Strings(xs: seq<string>): (r: seq<Json>)
    ensures |r| == |xs| && forall i :: 0 <= i < |xs| ==> r[i] == Str(xs[i])
  {
    seq(|xs|, i requires 0 <= i < |xs| => Str(xs[i]))
  }

  /** An ad row as the route serialises it (timestamps as their numerals). */
  function AdJson(a: AdRow): Json
  {
    Obj([("id", Num(a.id)), ("advertiser_id", Num(a.advertiserId)), ("title", Str(a.title)),
         ("tags", Arr(Strings(a.tags))), ("status", Str(StatusText(a.status))),
         ("created_at", Str(IntToString(a.createdAt)))])
  }

  function AdsJson(ads: seq<AdRow>): (r: seq<Json>)
    ensures |r| == |ads| && forall i :: 0 <= i < |ads| ==> r[i] == AdJson(ads[i])
  {
    seq(|ads|, i requires 0 <= i < |ads| => AdJson(ads[i]))
  }

  /** The response GET /api/ads sends: `{ error }`, or `{ data, cursor }` with an undefined cursor left out. */
  function RouteJson(resp: AdsRoute.AdsResponse): HttpResponse
  {
    match resp.body
    case ErrorBody(e) => HttpResponse(resp.status, Ok(ErrorJson(e)))
    case PageBody(data, cursor) =>
      var fields := [("data", Arr(AdsJson(data)))] + (if cursor.Some? then [("cursor", Str(cursor.value))] else []);
      HttpResponse(resp.status, Ok(Obj(fields)))
  }

  /**
   * fetchAds as written hands the route's page to handleResponse, whose
   * `data.data || data` unwraps the always-truthy ad array: the caller gets
   * the bare array, and reading `.data` or `.cursor` from it gives
   * undefined, even when the route sent a cursor.
   */
  lemma FetchAdsDropsCursor(resp: AdsRoute.AdsResponse)
    requires resp.status == 200 && resp.body.PageBody?
    ensures HandleResponse(RouteJson(resp)) == Ok(Arr(AdsJson(resp.body.data)))
    ensures Field(HandleResponse(RouteJson(resp)).value, "cursor") == Undefined
    ensures Field(HandleResponse(RouteJson(resp)).value, "data") == Undefined
  {
  }

  /** The client's result of the response carries no cursor. */
  predicate CursorLost(resp: AdsRoute.AdsResponse)
  {
    HandleResponse(RouteJson(resp)).Ok? && Field(HandleResponse(RouteJson(resp)).value, "cursor") == Undefined
  }

  /**
   * Any feed with an active ad, fetched with no options: the route sends a
   * cursor, and the client's result has none.
   */
  lemma FetchAdsDropsCursorExample(ads: seq<AdRow>, ad: AdRow, params: Params)
    requires ad in ads && ad.status == AdStatus.Active
    requires QueryOf(params, None, None, None)
    ensures var resp := AdsRoute.GetAdsRoute(ads, params, None);
      resp.status == 200 && resp.body.cursor.Some? && CursorLost(resp)
  {
    var resp := AdsRoute.GetAdsRoute(ads, params, None);
    RequestMatchesGetAds(ads, params, None, None, None, None);
    Queries.FirstPage(ads, None, None);
    var listed := Queries.ListedAds(ads, []);
    assert Queries.ListedWith([])(ad);
    assert ad in listed;
    assert listed[0..] == listed;
    FetchAdsDropsCursor(resp);
  }

  /** The page fetchAds promises: the ads and the cursor for the next request. */
  datatype AdsResult = AdsResult(data: Json, cursor: Json)

  /**
   * fetchAds reading the route's body without unwrapping it, as its
   * `{ data, cursor }` result type intends.
   */
  function FetchAdsPage(resp: HttpResponse): (r: Result<AdsResult>)
    ensures r.Ok? <==> Ok2xx(resp.status) && resp.body.Ok? && !Nullish(resp.body.value)
    ensures !Ok2xx(resp.status) ==> r == Err(FailureMessage(resp))
  {
    if !Ok2xx(resp.status) then Err(FailureMessage(resp))
    else match resp.body
      case Err(m) => Err(m)
      case Ok(body) =>
        if Nullish(body) then Err(ReadError(body, "data"))
        else Ok(AdsResult(Field(body, "data"), Field(body, "cursor")))
  }

  /** The JSON form of the cursor a page carries: its text, or undefined. */
  function CursorJson(cursor: Option<string>): Json
  {
    if cursor.Some? then Str(cursor.value) else Undefined
  }

  /** Read that way, every route response gives back what the route sent: its page and cursor, or its error. */
  lemma FetchAdsPageRoundTrip(resp: AdsRoute.AdsResponse)
    requires resp.status in {200, 500}
    requires resp.status == 200 <==> resp.body.PageBody?
    ensures resp.body.PageBody? ==>
      FetchAdsPage(RouteJson(resp)) == Ok(AdsResult(Arr(AdsJson(resp.body.data)), CursorJson(resp.body.cursor)))
    ensures resp.body.ErrorBody? ==>
      FetchAdsPage(RouteJson(resp)) == Err(if resp.body.error == "" then StatusError(500) else resp.body.error)
  {
    match resp.body
    case ErrorBody(e) =>
      ErrorRoundTrip(500, e);
    case PageBody(data, cursor) =>
      var fields := [("data", Arr(AdsJson(data)))] + (if cursor.Some? then [("cursor", Str(cursor.value))] else []);
      assert RouteJson(resp) == HttpResponse(200, Ok(Obj(fields)));
      LookupAt(fields, "data", 0);
      if cursor.Some? {
        LookupAt(fields, "cursor", 1);
      } else {
        assert fields == [("data", Arr(AdsJson(data)))];
      }
  }

  /**
   * Paging with that reading: the cursor the client reads from one page,
   * handed to the next fetchAds call, makes the route serve only ads
   * strictly older than every ad of that page.
   */
  lemma NextRequestOlder(ads: seq<AdRow>, tags: Option<seq<string>>, limit: Option<int>, page: Queries.AdsPage,
                         next: Params)
    requires Queries.GetAds(ads, tags, None, limit, None) == Ok(page) && page.cursor.Some?
    requires tags.Some? ==> forall i :: 0 <= i < |tags.value| ==> ',' !in tags.value[i]
    requires QueryOf(next, tags, page.cursor, limit)
    ensures var resp := AdsRoute.GetAdsRoute(ads, next, None);
      && resp.status == 200
      && forall a, b :: a in page.data && b in resp.body.data ==> b.createdAt < a.createdAt
  {
    Queries.NextPageOlder(ads, tags, None, limit, page);
    RequestMatchesGetAds(ads, next, tags, page.cursor, limit, None);
  }

  // ---------------------------------------------------------------------------
  // Row conversions

  /** The client's Ad. */
  datatype AdView = AdView(
    id: Json, advertiserId: Json, advertiserName: Json, mediaUrl: Json, mediaType: Json,
    title: Json, description: Json, ctaText: Json, ctaUrl: Json, tags: Json, createdAt: Json,
    hasComments: Json, hasUgc: Json, hasSurvey: Json, hasTester: Json)

  /** `value || fallback` as a statement about its result: the value when truthy, the fallback otherwise. */
  predicate Defaulted(result: Json, value: Json, fallback: Json)
  {
    (Truthy(value) ==> result == value) && (!Truthy(value) ==> result == fallback)
  }

  /** transformAdFromDB. */
  function TransformAd(db: Json): (r: Result<AdView>)
    ensures r.Err? <==> Nullish(db)
    ensures r.Err? ==> r.msg == ReadError(db, "id")
    ensures r.Ok? ==>
      var ad := r.value;
      var orgName := OptField(Field(db, "advertisers"), "org_name");
      && (Truthy(orgName) ==> ad.advertiserName == orgName)
      && (!Truthy(orgName) ==> Defaulted(ad.advertiserName, Field(db, "advertiser_name"), Str("Unknown")))
      && Truthy(ad.advertiserName)
      && Defaulted(ad.tags, Field(db, "tags"), Arr([]))
      && Defaulted(ad.hasComments, Field(db, "has_comments"), Bool(false))
      && Defaulted(ad.hasUgc, Field(db, "has_ugc"), Bool(false))
      && Defaulted(ad.hasSurvey, Field(db, "has_survey"), Bool(false))
      && Defaulted(ad.hasTester, Field(db, "has_tester"), Bool(false))
      && ad.id == Field(db, "id") && ad.advertiserId == Field(db, "advertiser_id")
      && ad.mediaUrl == Field(db, "media_url") && ad.mediaType == Field(db, "media_type")
      && ad.title == Field(db, "title") && ad.description == Field(db, "description")
      && ad.ctaText == Field(db, "cta_text") && ad.ctaUrl == Field(db, "cta_url")
      && ad.createdAt == Field(db, "created_at")
  {
    if Nullish(db) then Err(ReadError(db, "id"))
    else
      Ok(AdView(
        id := Field(db, "id"),
        advertiserId := Field(db, "advertiser_id"),
        advertiserName := Or(Or(OptField(Field(db, "advertisers"), "org_name"), Field(db, "advertiser_name")), Str("Unknown")),
        mediaUrl := Field(db, "media_url"),
        mediaType := Field(db, "media_type"),
        title := Field(db, "title"),
        description := Field(db, "description"),
        ctaText := Field(db, "cta_text"),
        ctaUrl := Field(db, "cta_url"),
        tags := Or(Field(db, "tags"), Arr([])),
        createdAt := Field(db, "created_at"),
        hasComments := Or(Field(db, "has_comments"), Bool(false)),
        hasUgc := Or(Field(db, "has_ugc"), Bool(false)),
        hasSurvey := Or(Field(db, "has_survey"), Bool(false)),
        hasTester := Or(Field(db, "has_tester"), Bool(false))))
  }

  /** An ad row as the ads route sends it reaches the client with its id, advertiser, title, tags and date. */
  lemma AdOfRow(a: AdRow)
    ensures TransformAd(AdJson(a)).Ok?
    ensures var v := TransformAd(AdJson(a)).value;
      && v.id == Num(a.id) && v.advertiserId == Num(a.advertiserId) && v.title == Str(a.title)
      && v.tags == Arr(Strings(a.tags)) && v.createdAt == Str(IntToString(a.createdAt))
  {
    AdJsonHas(a);
  }

  /**
   * The ads route sends no advertiser name, media, description or feature
   * flags, so the client shows such an ad by 'Unknown', without media, and
   * with every feature off.
   */
  lemma AdDefaultsOfRow(a: AdRow)
    ensures TransformAd(AdJson(a)).Ok?
    ensures var v := TransformAd(AdJson(a)).value;
      && v.advertiserName == Str("Unknown") && v.mediaUrl == Undefined && v.description == Undefined
      && v.hasComments == Bool(false) && v.hasUgc == Bool(false)
      && v.hasSurvey == Bool(false) && v.hasTester == Bool(false)
  {
    AdJsonLacks(a, "advertisers");
    AdJsonLacks(a, "advertiser_name");
    AdJsonLacks(a, "media_url");
    AdJsonLacks(a, "description");
    AdJsonLacks(a, "has_comments");
    AdJsonLacks(a, "has_ugc");
    AdJsonLacks(a, "has_survey");
    AdJsonLacks(a, "has_tester");
  }

  /** The keys the ads route sends, with their values. */
  lemma AdJsonHas(a: AdRow)
    ensures Field(AdJson(a), "id") == Num(a.id) && Field(AdJson(a), "advertiser_id") == Num(a.advertiserId)
    ensures Field(AdJson(a), "title") == Str(a.title) && Field(AdJson(a), "tags") == Arr(Strings(a.tags))
    ensures Field(AdJson(a), "created_at") == Str(IntToString(a.createdAt))
  {
    AdKeysDiffer();
    SixKeysRead("id", "advertiser_id", "title", "tags", "status", "created_at",
                Num(a.id), Num(a.advertiserId), Str(a.title), Arr(Strings(a.tags)), Str(StatusText(a.status)),
                Str(IntToString(a.createdAt)));
  }

  lemma AdKeysDiffer()
    ensures "id" != "advertiser_id"
    ensures "id" != "title" && "advertiser_id" != "title"
    ensures "id" != "tags" && "advertiser_id" != "tags" && "title" != "tags"
    ensures "id" != "created_at" && "advertiser_id" != "created_at" && "title" != "created_at"
    ensures "tags" != "created_at" && "status" != "created_at"
  {
  }

  /** Reading the keys of a six-key object whose keys differ. */
  lemma SixKeysRead(k0: string, k1: string, k2: string, k3: string, k4: string, k5: string,
                    v0: Json, v1: Json, v2: Json, v3: Json, v4: Json, v5: Json)
    requires k0 != k1 && k0 != k2 && k1 != k2 && k0 != k3 && k1 != k3 && k2 != k3
    requires k0 != k5 && k1 != k5 && k2 != k5 && k3 != k5 && k4 != k5
    ensures var fields := [(k0, v0), (k1, v1), (k2, v2), (k3, v3), (k4, v4), (k5, v5)];
      && Lookup(fields, k0) == v0 && Lookup(fields, k1) == v1 && Lookup(fields, k2) == v2
      && Lookup(fields, k3) == v3 && Lookup(fields, k5) == v5
  {
    var fields := [(k0, v0), (k1, v1), (k2, v2), (k3, v3), (k4, v4), (k5, v5)];
    assert fields[0..] == fields;
    LookupSkip(fields, k2, 0);
    LookupSkip(fields, k2, 1);
    assert fields[2..][0] == (k2, v2);
    LookupSkip(fields, k3, 0);
    LookupSkip(fields, k3, 1);
    LookupSkip(fields, k3, 2);
    assert fields[3..][0] == (k3, v3);
    LookupSkip(fields, k5, 0);
    LookupSkip(fields, k5, 1);
    LookupSkip(fields, k5, 2);
    LookupSkip(fields, k5, 3);
    LookupSkip(fields, k5, 4);
    assert fields[5..][0] == (k5, v5);
  }

  /** A key the ads route never sends reads as undefined. */
  lemma AdJsonLacks(a: AdRow, key: string)
    requires key !in {"id", "advertiser_id", "title", "tags", "status", "created_at"}
    ensures Field(AdJson(a), key) == Undefined
  {
    SixKeysLack("id", "advertiser_id", "title", "tags", "status", "created_at",
                Num(a.id), Num(a.advertiserId), Str(a.title), Arr(Strings(a.tags)), Str(StatusText(a.status)),
                Str(IntToString(a.createdAt)), key);
  }

  /** Reading a key that none of a six-key object's keys names. */
  lemma SixKeysLack(k0: string, k1: string, k2: string, k3: string, k4: string, k5: string,
                    v0: Json, v1: Json, v2: Json, v3: Json, v4: Json, v5: Json, key: string)
    requires key != k0 && key != k1 && key != k2 && key != k3 && key != k4 && key != k5
    ensures Lookup([(k0, v0), (k1, v1), (k2, v2), (k3, v3), (k4, v4), (k5, v5)], key) == Undefined
  {
    var fields := [(k0, v0), (k1, v1), (k2, v2), (k3, v3), (k4, v4), (k5, v5)];
    assert fields[0..] == fields;
    LookupSkip(fields, key, 0);
    LookupSkip(fields, key, 1);
    LookupSkip(fields, key, 2);
    LookupSkip(fields, key, 3);
    LookupSkip(fields, key, 4);
    LookupSkip(fields, key, 5);
    assert fields[6..] == [];
  }

  /** The client's Comment. */
  datatype CommentView = CommentView(
    id: Json, adId: Json, userId: Json, userName: Json, content: Json, status: Json,
    createdAt: Json, isPinned: Json, replyFromAdvertiser: Json)

  /** transformCommentFromDB. */
  function TransformComment(db: Json): (r: Result<CommentView>)
    ensures r.Err? <==> Nullish(db)
    ensures r.Err? ==> r.msg == ReadError(db, "id")
    ensures r.Ok? ==>
      var c := r.value;
      && Defaulted(c.userName, OptField(Field(db, "users"), "name"), Str("Unknown"))
      && Defaulted(c.isPinned, Field(db, "is_pinned"), Bool(false))
      && c.status == Field(db, "status")
      && c.id == Field(db, "id") && c.adId == Field(db, "ad_id") && c.userId == Field(db, "user_id")
      && c.content == Field(db, "content") && c.createdAt == Field(db, "created_at")
      && c.replyFromAdvertiser == Field(db, "reply_from_advertiser")
  {
    if Nullish(db) then Err(ReadError(db, "id"))
    else
      Ok(CommentView(
        id := Field(db, "id"),
        adId := Field(db, "ad_id"),
        userId := Field(db, "user_id"),
        userName := Or(OptField(Field(db, "users"), "name"), Str("Unknown")),
        content := Field(db, "content"),
        status := Field(db, "status"),
        createdAt := Field(db, "created_at"),
        isPinned := Or(Field(db, "is_pinned"), Bool(false)),
        replyFromAdvertiser := Field(db, "reply_from_advertiser")))
  }

  function ReviewText(s: ReviewStatus): string
  {
    match s
    case Pending => "pending"
    case Approved => "approved"
    case Rejected => "rejected"
    case Adopted => "adopted"
  }

  /** The poster's name as `users(name)` embeds it: `{ name }`, or null when the join found no user. */
  function UserJson(name: Option<string>): Json
  {
    if name.Some? then Obj([("name", Str(name.value))]) else Null
  }

  /** A comment row with its poster, as the comments routes send it (the order of the keys is immaterial). */
  function CommentJson(c: CommentRow, userName: Option<string>): Json
  {
    Obj([("status", Str(ReviewText(c.status))), ("is_pinned", Bool(c.isPinned)), ("users", UserJson(userName)),
         ("id", Num(c.id)), ("ad_id", Num(c.adId)), ("user_id", Num(c.userId)), ("content", Str(c.content)),
         ("created_at", Str(IntToString(c.createdAt)))])
  }

  /** On a stored comment the client keeps the pin flag and the status text. */
  lemma CommentOfRow(c: CommentRow, userName: Option<string>)
    ensures var v := TransformComment(CommentJson(c, userName)).value;
      v.isPinned == Bool(c.isPinned) && v.status == Str(ReviewText(c.status))
  {
    var db := CommentJson(c, userName);
    LookupAt(db.fields, "status", 0);
    LookupAt(db.fields, "is_pinned", 1);
  }

  lemma CommentKeysDiffer()
    ensures "status" != "users" && "is_pinned" != "users"
  {
    assert |"status"| != |"users"| && |"is_pinned"| != |"users"|;
  }

  /** A comment whose poster the join did not find, or whose name is empty, is shown as by 'Unknown'. */
  lemma CommentPosterOfRow(c: CommentRow, userName: Option<string>)
    ensures TransformComment(CommentJson(c, userName)).value.userName
         == (if userName.Some? && userName.value != "" then Str(userName.value) else Str("Unknown"))
  {
    CommentUsers(c, userName);
    PosterName(userName);
    CommentPoster(CommentJson(c, userName));
  }

  lemma CommentUsers(c: CommentRow, userName: Option<string>)
    ensures Field(CommentJson(c, userName), "users") == UserJson(userName)
  {
    CommentKeysDiffer();
    LookupAt(CommentJson(c, userName).fields, "users", 2);
  }

  lemma PosterName(userName: Option<string>)
    ensures OptField(UserJson(userName), "name") == (if userName.Some? then Str(userName.value) else Undefined)
  {
    if userName.Some? {
      LookupAt(UserJson(userName).fields, "name", 0);
    }
  }

  /** The poster's name the client shows: the embedded name when truthy, else 'Unknown'. */
  lemma CommentPoster(db: Json)
    requires !Nullish(db)
    ensures TransformComment(db).value.userName == Or(OptField(Field(db, "users"), "name"), Str("Unknown"))
  {
  }

  /** The client's UGC. */
  datatype UgcView = UgcView(
    id: Json, adId: Json, userId: Json, userName: Json, mediaUrl: Json, kind: Json,
    approved: bool, createdAt: Json, qualityScore: Json)

  /** transformUGCFromDB. */
  function TransformUgc(db: Json): (r: Result<UgcView>)
    ensures r.Err? <==> Nullish(db)
    ensures r.Err? ==> r.msg == ReadError(db, "id")
    ensures r.Ok? ==>
      var u := r.value;
      && (u.approved <==> Field(db, "status") in {Str("approved"), Str("adopted")})
      && Defaulted(u.userName, OptField(Field(db, "users"), "name"), Str("Unknown"))
      && u.id == Field(db, "id") && u.adId == Field(db, "ad_id") && u.userId == Field(db, "user_id")
      && u.mediaUrl == Field(db, "media_url") && u.kind == Field(db, "type")
      && u.createdAt == Field(db, "created_at") && u.qualityScore == Field(db, "quality_score")
  {
    if Nullish(db) then Err(ReadError(db, "id"))
    else
      var status := Field(db, "status");
      Ok(UgcView(
        id := Field(db, "id"),
        adId := Field(db, "ad_id"),
        userId := Field(db, "user_id"),
        userName := Or(OptField(Field(db, "users"), "name"), Str("Unknown")),
        mediaUrl := Field(db, "media_url"),
        kind := Field(db, "type"),
        approved := status == Str("approved") || status == Str("adopted"),
        createdAt := Field(db, "created_at"),
        qualityScore := Field(db, "quality_score")))
  }

  function KindText(k: MediaKind): string
  {
    match k
    case Video => "video"
    case Image => "image"
  }

  /** A UGC row with its poster, as the UGC route sends it. */
  function UgcJson(u: UgcRow, userName: Option<string>): Json
  {
    Obj([("id", Num(u.id)), ("ad_id", Num(u.adId)), ("user_id", Num(u.userId)), ("media_url", Str(u.mediaUrl)),
         ("type", Str(KindText(u.kind))), ("status", Str(ReviewText(u.status))),
         ("quality_score", Num(u.qualityScore)), ("created_at", Str(IntToString(u.createdAt))),
         ("users", UserJson(userName))])
  }

  /** A stored UGC is shown as approved exactly when it was approved or adopted. */
  lemma UgcApprovedOfRow(u: UgcRow, userName: Option<string>)
    ensures TransformUgc(UgcJson(u, userName)).Ok?
    ensures TransformUgc(UgcJson(u, userName)).value.approved
        <==> u.status == ReviewStatus.Approved || u.status == ReviewStatus.Adopted
  {
    LookupAt(UgcJson(u, userName).fields, "status", 5);
  }

  /** The client's survey question. */
  datatype QuestionView = QuestionView(id: Json, kind: Json, question: Json, options: Json, required: Json)

  /** The mapping applied to each entry of `survey_questions`. */
  function TransformQuestion(q: Json): (r: QuestionView)
    requires !Nullish(q)
    ensures Defaulted(r.kind, Field(q, "type"), Field(q, "question_type"))
    ensures Defaulted(r.options, Field(q, "options"), Arr([]))
    ensures Defaulted(r.required, Field(q, "required"), Bool(false))
    ensures r.id == Field(q, "id") && r.question == Field(q, "question_text")
  {
    QuestionView(
      id := Field(q, "id"),
      kind := Or(Field(q, "type"), Field(q, "question_type")),
      question := Field(q, "question_text"),
      options := Or(Field(q, "options"), Arr([])),
      required := Or(Field(q, "required"), Bool(false)))
  }

  /** `.map(...)` over the questions: one question per entry, in order; a null entry throws. */
  function TransformQuestions(items: seq<Json>): (r: Result<seq<QuestionView>>)
    ensures r.Ok? <==> forall i :: 0 <= i < |items| ==> !Nullish(items[i])
    ensures r.Ok? ==> |r.value| == |items|
    ensures r.Ok? ==> forall i :: 0 <= i < |items| ==> r.value[i] == TransformQuestion(items[i])
    ensures r.Err? ==> exists i :: 0 <= i < |items| && Nullish(items[i]) && r.msg == ReadError(items[i], "id")
  {
    if items == [] then Ok([])
    else if Nullish(items[0]) then Err(ReadError(items[0], "id"))
    else match TransformQuestions(items[1..])
      case Err(m) =>
        ghost var i :| 0 <= i < |items[1..]| && Nullish(items[1..][i]) && m == ReadError(items[1..][i], "id");
        assert items[i + 1] == items[1..][i];
        Err(m)
      case Ok(rest) =>
        assert forall i :: 1 <= i < |items| ==> items[i] == items[1..][i - 1];
        Ok([TransformQuestion(items[0])] + rest)
  }

  /** The client's Survey. */
  datatype SurveyView = SurveyView(id: Json, adId: Json, title: Json, description: Json, questions: seq<QuestionView>)

  /** What `.map` is called on: `dbSurvey.survey_questions || []`. */
  function QuestionsOf(db: Json): Json
    requires !Nullish(db)
  {
    Or(Field(db, "survey_questions"), Arr([]))
  }

  /** The TypeError of calling `.map` on a truthy value that is not an array (its wording is assumed). */
  const NotAnArray := "(dbSurvey.survey_questions || []).map is not a function"

  /** transformSurveyFromDB. */
  function TransformSurvey(db: Json): (r: Result<SurveyView>)
    ensures Nullish(db) ==> r == Err(ReadError(db, "id"))
    ensures !Nullish(db) && !QuestionsOf(db).Arr? ==> r == Err(NotAnArray)
    ensures r.Ok? <==>
      && !Nullish(db) && QuestionsOf(db).Arr?
      && forall i :: 0 <= i < |QuestionsOf(db).items| ==> !Nullish(QuestionsOf(db).items[i])
    ensures r.Ok? ==>
      var items := QuestionsOf(db).items;
      && |r.value.questions| == |items|
      && (forall i :: 0 <= i < |items| ==> r.value.questions[i] == TransformQuestion(items[i]))
      && (!Truthy(Field(db, "survey_questions")) ==> r.value.questions == [])
      && r.value.id == Field(db, "id") && r.value.adId == Field(db, "ad_id")
      && r.value.title == Field(db, "title") && r.value.description == Field(db, "description")
  {
    if Nullish(db) then Err(ReadError(db, "id"))
    else
      var qs := QuestionsOf(db);
      if !qs.Arr? then Err(NotAnArray)
      else match TransformQuestions(qs.items)
        case Err(m) => Err(m)
        case Ok(questions) =>
          Ok(SurveyView(Field(db, "id"), Field(db, "ad_id"), Field(db, "title"), Field(db, "description"), questions))
  }

  /** The client's TesterCampaign. */
  datatype CampaignView = CampaignView(
    id: Json, adId: Json, title: Json, description: Json, requirements: Json, maxApplicants: Json,
    currentApplicants: Json, winners: Json, status: Json, deadline: Json)

  /** transformTesterCampaignFromDB. */
  function TransformCampaign(db: Json): (r: Result<CampaignView>)
    ensures r.Err? <==> Nullish(db)
    ensures r.Err? ==> r.msg == ReadError(db, "id")
    ensures r.Ok? ==>
      var c := r.value;
      && Defaulted(c.requirements, Field(db, "requirements"), Arr([]))
      && Defaulted(c.currentApplicants, Field(db, "current_applicants"), Num(0))
      && Defaulted(c.winners, Field(db, "winners"), Arr([]))
      && c.id == Field(db, "id") && c.adId == Field(db, "ad_id") && c.title == Field(db, "title")
      && c.description == Field(db, "description") && c.maxApplicants == Field(db, "max_applicants")
      && c.status == Field(db, "status") && c.deadline == Field(db, "deadline")
  {
    if Nullish(db) then Err(ReadError(db, "id"))
    else
      Ok(CampaignView(
        id := Field(db, "id"),
        adId := Field(db, "ad_id"),
        title := Field(db, "title"),
        description := Field(db, "description"),
        requirements := Or(Field(db, "requirements"), Arr([])),
        maxApplicants := Field(db, "max_applicants"),
        currentApplicants := Or(Field(db, "current_applicants"), Num(0)),
        winners := Or(Field(db, "winners"), Arr([])),
        status := Field(db, "status"),
        deadline := Field(db, "deadline")))
  }

  // ---------------------------------------------------------------------------
  // fetchSurvey and fetchTesterCampaign

  /** handleResponse followed by a conversion; the first error thrown wins. */
  function Then<T>(r: Result<Json>, convert: Json -> Result<T>): Result<T>
  {
    match r
    case Err(m) => Err(m)
    case Ok(j) => convert(j)
  }

  /** The catch clause: a message naming 404 or the given phrase is "nothing there", anything else is rethrown. */
  function CatchMissing<T>(attempt: Result<T>, phrase: string): (r: Result<Option<T>>)
    ensures attempt.Ok? ==> r == Ok(Some(attempt.value))
    ensures attempt.Err? && (Includes(attempt.msg, "404") || Includes(attempt.msg, phrase)) ==> r == Ok(None)
    ensures attempt.Err? && !Includes(attempt.msg, "404") && !Includes(attempt.msg, phrase) ==> r == Err(attempt.msg)
  {
    match attempt
    case Ok(v) => Ok(Some(v))
    case Err(m) => if Includes(m, "404") || Includes(m, phrase) then Ok(None) else Err(m)
  }

  /** fetchSurvey. */
  function FetchSurvey(resp: HttpResponse): (r: Result<Option<SurveyView>>)
    ensures r.Ok? && r.value.Some? ==>
      HandleResponse(resp).Ok? && TransformSurvey(HandleResponse(resp).value) == Ok(r.value.value)
    ensures r.Err? ==> !Includes(r.msg, "404") && !Includes(r.msg, "No active survey")
  {
    CatchMissing(Then(HandleResponse(resp), TransformSurvey), "No active survey")
  }

  /** fetchTesterCampaign. */
  function FetchTesterCampaign(resp: HttpResponse): (r: Result<Option<CampaignView>>)
    ensures r.Ok? && r.value.Some? ==>
      HandleResponse(resp).Ok? && TransformCampaign(HandleResponse(resp).value) == Ok(r.value.value)
    ensures r.Err? ==> !Includes(r.msg, "404") && !Includes(r.msg, "No open campaign")
  {
    CatchMissing(Then(HandleResponse(resp), TransformCampaign), "No open campaign")
  }

  /** Any 404 whose body names no error is "no survey": the status line names 404. */
  lemma StatusLineNames404()
    ensures Includes(StatusError(404), "404")
  {
    assert IntToString(404) == "404";
    IncludesSuffix("HTTP error! status: ", "404");
  }

  /** A not-found answer whose message is empty or names the phrase is caught as "nothing there". */
  lemma NotFoundCaught<T>(convert: Json -> Result<T>, body: Json, phrase: string)
    requires !Nullish(body)
    requires Truthy(Field(body, "error")) ==> Includes(ToText(Field(body, "error")), phrase)
    ensures CatchMissing(Then(HandleResponse(HttpResponse(404, Ok(body))), convert), phrase) == Ok(None)
  {
    StatusLineNames404();
  }

  /** A route's `{ error }` not-found answer naming the phrase is caught as "nothing there". */
  lemma NotFoundMessageCaught<T>(convert: Json -> Result<T>, message: string, phrase: string)
    requires Includes(message, phrase)
    ensures CatchMissing(Then(HandleResponse(HttpResponse(404, Ok(ErrorJson(message)))), convert), phrase) == Ok(None)
  {
    NotFoundCaught(convert, ErrorJson(message), phrase);
  }

  /** A server error whose message names neither 404 nor the phrase is rethrown as it is. */
  lemma ServerErrorRethrown<T>(convert: Json -> Result<T>, message: string, phrase: string)
    requires message != "" && !Includes(message, "404") && !Includes(message, phrase)
    ensures CatchMissing(Then(HandleResponse(HttpResponse(500, Ok(ErrorJson(message)))), convert), phrase) == Err(message)
  {
    ErrorRoundTrip(500, message);
  }

  /** Each route's not-found message names the phrase its client looks for. */
  lemma NotFoundNamesPhrase()
    ensures Includes(SurveyNotFound, "No active survey") && Includes(CampaignNotFound, "No open campaign")
  {
    IncludesPrefix("No active survey", " found");
    assert SurveyNotFound == "No active survey" + " found";
    IncludesPrefix("No open campaign", " found");
    assert CampaignNotFound == "No open campaign" + " found";
  }

  /** The routes' not-found answers come back as null. */
  lemma NotFoundIsNull(body: Json)
    requires !Nullish(body) && !Truthy(Field(body, "error"))
    ensures FetchSurvey(HttpResponse(404, Ok(ErrorJson(SurveyNotFound)))) == Ok(None)
    ensures FetchTesterCampaign(HttpResponse(404, Ok(ErrorJson(CampaignNotFound)))) == Ok(None)
    ensures FetchSurvey(HttpResponse(404, Ok(body))) == Ok(None)
    ensures FetchTesterCampaign(HttpResponse(404, Ok(body))) == Ok(None)
  {
    NotFoundNamesPhrase();
    NotFoundMessageCaught(TransformSurvey, SurveyNotFound, "No active survey");
    NotFoundMessageCaught(TransformCampaign, CampaignNotFound, "No open campaign");
    NotFoundCaught(TransformSurvey, body, "No active survey");
    NotFoundCaught(TransformCampaign, body, "No open campaign");
  }

  // ---------------------------------------------------------------------------
  // The single-row GET routes behind fetchSurvey and fetchTesterCampaign

  const SurveyNotFound := "No active survey found"
  const CampaignNotFound := "No open campaign found"

  /**
   * GET /api/ads/[id]/survey and GET /api/ads/[id]/tester as written: the
   * `.single()` read of the rows that matched (each a JSON object) fails
   * with PGRST116 unless exactly one matched, and that error is answered
   * with a 500; the 404 branch (`!data`) is taken only for a falsy row.
   */
  function SingleRowRoute(matches: seq<Json>, readError: Option<string>, notFound: string): HttpResponse
  {
    if readError.Some? then HttpResponse(500, Ok(ErrorJson(readError.value)))
    else if |matches| != 1 then HttpResponse(500, Ok(ErrorJson(Store.NoSingleRow)))
    else if !Truthy(matches[0]) then HttpResponse(404, Ok(ErrorJson(notFound)))
    else HttpResponse(200, Ok(DataJson(matches[0])))
  }

  /** A message lacking the characters '4', 'v' and 'p' names neither 404 nor either not-found phrase. */
  lemma NotMissing(m: string)
    requires '4' !in m && 'v' !in m && 'p' !in m
    ensures !Includes(m, "404") && !Includes(m, "No active survey") && !Includes(m, "No open campaign")
  {
    assert '4' in "404" && 'v' in "No active survey" && 'p' in "No open campaign";
    Excludes(m, "404", '4');
    Excludes(m, "No active survey", 'v');
    Excludes(m, "No open campaign", 'p');
  }

  /**
   * As written, an ad without an active survey (or an open campaign) makes
   * fetchSurvey (fetchTesterCampaign) throw the PGRST116 message instead
   * of returning null.
   */
  lemma MissingRowThrows()
    ensures FetchSurvey(SingleRowRoute([], None, SurveyNotFound)) == Err(Store.NoSingleRow)
    ensures FetchTesterCampaign(SingleRowRoute([], None, CampaignNotFound)) == Err(Store.NoSingleRow)
  {
    var m := Store.NoSingleRow;
    Store.NoSingleRowLacks('4');
    Store.NoSingleRowLacks('v');
    Store.NoSingleRowLacks('p');
    NotMissing(m);
    ServerErrorRethrown(TransformSurvey, m, "No active survey");
    ServerErrorRethrown(TransformCampaign, m, "No open campaign");
  }

  /**
   * The routes as evidently intended, treating PGRST116 as "no row" the
   * way getSurvey and getTesterCampaign do: anything but exactly one match
   * is the 404.
   */
  function SingleRowRouteFixed(matches: seq<Json>, readError: Option<string>, notFound: string): (r: HttpResponse)
    ensures readError.None? ==> (r.status == 404 <==> |matches| != 1 || !Truthy(matches[0]))
    ensures readError.None? && r.status != 404 ==> r == HttpResponse(200, Ok(DataJson(matches[0])))
  {
    if readError.Some? then HttpResponse(500, Ok(ErrorJson(readError.value)))
    else if |matches| != 1 || !Truthy(matches[0]) then HttpResponse(404, Ok(ErrorJson(notFound)))
    else HttpResponse(200, Ok(DataJson(matches[0])))
  }

  /** What a client's catch clause makes of the intended route's answer. */
  lemma FixedRouteCaught<T>(convert: Json -> Result<T>, matches: seq<Json>, notFound: string, phrase: string)
    requires Includes(notFound, phrase)
    ensures |matches| != 1 ==>
      CatchMissing(Then(HandleResponse(SingleRowRouteFixed(matches, None, notFound)), convert), phrase) == Ok(None)
    ensures |matches| == 1 && matches[0].Obj? ==>
      CatchMissing(Then(HandleResponse(SingleRowRouteFixed(matches, None, notFound)), convert), phrase)
        == CatchMissing(convert(matches[0]), phrase)
  {
    if |matches| != 1 {
      NotFoundMessageCaught(convert, notFound, phrase);
    } else if matches[0].Obj? {
      DataRoundTrip(200, matches[0]);
    }
  }

  /**
   * With those routes the clients keep their promise: no active survey (no
   * open campaign) is null, and exactly one is that row converted.
   */
  lemma MissingRowIsNull(matches: seq<Json>)
    ensures |matches| != 1 ==> FetchSurvey(SingleRowRouteFixed(matches, None, SurveyNotFound)) == Ok(None)
    ensures |matches| != 1 ==> FetchTesterCampaign(SingleRowRouteFixed(matches, None, CampaignNotFound)) == Ok(None)
    ensures |matches| == 1 && matches[0].Obj? ==>
      FetchSurvey(SingleRowRouteFixed(matches, None, SurveyNotFound)) == CatchMissing(TransformSurvey(matches[0]), "No active survey")
    ensures |matches| == 1 && matches[0].Obj? ==>
      FetchTesterCampaign(SingleRowRouteFixed(matches, None, CampaignNotFound)) == Ok(Some(TransformCampaign(matches[0]).value))
  {
    NotFoundNamesPhrase();
    FixedRouteCaught(TransformSurvey, matches, SurveyNotFound, "No active survey");
    FixedRouteCaught(TransformCampaign, matches, CampaignNotFound, "No open campaign");
  }
}

=== FILE: comment_section.dfy ===
/**
 * The comment panel of an ad (components/collaboration/CommentSection.tsx):
 * a text input and a local list of comments seeded from the server. Posting
 * is optimistic: a non-blank input is prepended to the local list as a
 * pending comment of the current user, and the input is cleared. The list
 * is shown pinned comments first, then adopted ones, then newest first.
 *
 * Timestamps are integers (milliseconds); the two clock reads of a
 * submission (`Date.now()` for the id, `new Date()` for createdAt) are
 * parameters.
 */
module CommentSection {
  import opened Common
  import opened Numerals
  import opened Schema
  import opened Sorting

  /** The fields of a client Comment that the panel reads or writes; a missing `isPinned` is false. */
  datatype LocalComment = LocalComment(
    id: string, adId: string, userId: string, userName: string, content: string,
    status: ReviewStatus, createdAt: Timestamp, isPinned: bool)

  const CurrentUser := "current-user"
  const You := "あなた"

  /** The comment a submission prepends: the raw input, pending, by the current user. */
  function Optimistic(adId: string, content: string, idTime: int, createdAt: Timestamp): (c: LocalComment)
    ensures c.content == content && c.adId == adId
    ensures c.status == ReviewStatus.Pending && c.userId == CurrentUser && !c.isPinned
  {
    LocalComment("c-" + IntToString(idTime), adId, CurrentUser, You, content, ReviewStatus.Pending, createdAt, false)
  }

  /** The comparator of `sortedComments`, returning a negative number when `a` goes first. */
  function Compare(a: LocalComment, b: LocalComment): int
  {
    if a.isPinned && !b.isPinned then -1
    else if !a.isPinned && b.isPinned then 1
    else if a.status == ReviewStatus.Adopted && b.status != ReviewStatus.Adopted then -1
    else if a.status != ReviewStatus.Adopted && b.status == ReviewStatus.Adopted then 1
    else b.createdAt - a.createdAt
  }

  /** "`a` may come before `b`": the comparator does not put `b` first. */
  function ShownBefore(a: LocalComment, b: LocalComment): bool
  {
    Compare(a, b) <= 0
  }

  /** The comparator is consistent: it orders by pinned, then adopted, then newest. */
  lemma ShownBeforeTotal()
    ensures TotalPreorder(ShownBefore)
  {
    forall a, b, c | ShownBefore(a, b) && ShownBefore(b, c) ensures ShownBefore(a, c) {
    }
  }

  /**
   * `sortedComments`: the local comments, reordered and otherwise
   * unchanged; pinned ones first, adopted ones next among the same
   * pinned-ness, newest first among the rest; comments the comparator
   * ties keep their order, the sort being stable.
   */
  function SortedComments(comments: seq<LocalComment>): (r: seq<LocalComment>)
    ensures multiset(r) == multiset(comments)
    ensures forall i, j :: 0 <= i < j < |r| && r[j].isPinned ==> r[i].isPinned
    ensures forall i, j :: (0 <= i < j < |r| && r[i].isPinned == r[j].isPinned
                            && r[j].status == ReviewStatus.Adopted) ==> r[i].status == ReviewStatus.Adopted
    ensures forall i, j :: (0 <= i < j < |r| && r[i].isPinned == r[j].isPinned
                            && (r[i].status == ReviewStatus.Adopted <==> r[j].status == ReviewStatus.Adopted))
                           ==> r[i].createdAt >= r[j].createdAt
    ensures forall k :: Filter(r, Tied(ShownBefore, k)) == Filter(comments, Tied(ShownBefore, k))
  {
    ShownBeforeTotal();
    var r := SortBy(comments, ShownBefore);
    assert forall i, j :: 0 <= i < j < |r| ==> Compare(r[i], r[j]) <= 0;
    forall k {
      SortByStable(comments, ShownBefore, k);
    }
    r
  }

  /** The panel's state: the input text and the local list. */
  class Panel {
    const adId: string
    var newComment: string
    var localComments: seq<LocalComment>

    constructor (adId: string, comments: seq<LocalComment>)
      ensures this.adId == adId && newComment == "" && localComments == comments
    {
      this.adId := adId;
      newComment := "";
      localComments := comments;
    }

    /** The list as shown. */
    function Shown(): seq<LocalComment>
      reads this
    {
      SortedComments(localComments)
    }

    /** The textarea's onChange. */
    method Edit(text: string)
      modifies this
      ensures newComment == text && localComments == old(localComments)
    {
      newComment := text;
    }

    /**
     * handleSubmit: a blank input changes nothing; otherwise the input,
     * untrimmed, becomes a pending comment at the head of the list and the
     * input is cleared.
     */
    method HandleSubmit(idTime: int, now: Timestamp)
      modifies this
      ensures IsBlank(old(newComment)) ==> newComment == old(newComment) && localComments == old(localComments)
      ensures !IsBlank(old(newComment)) ==>
        && localComments == [Optimistic(adId, old(newComment), idTime, now)] + old(localComments)
        && newComment == ""
      ensures |localComments| == |old(localComments)| + (if IsBlank(old(newComment)) then 0 else 1)
      ensures localComments[|localComments| - |old(localComments)|..] == old(localComments)
    {
      if Trim(newComment) == "" {
        return;
      }
      var comment := Optimistic(adId, newComment, idTime, now);
      localComments := [comment] + localComments;
      newComment := "";
    }
  }

  /**
   * The optimistic comment shows up after the pinned and adopted comments,
   * ahead of every other comment no newer than it.
   */
  lemma SubmittedShownAmongNewest(comments: seq<LocalComment>, adId: string, content: string, idTime: int,
                                  now: Timestamp, i: nat, j: nat)
    requires var shown := SortedComments([Optimistic(adId, content, idTime, now)] + comments);
      && i < |shown| && j < |shown| && shown[i] == Optimistic(adId, content, idTime, now)
      && !shown[j].isPinned && shown[j].status != ReviewStatus.Adopted && shown[j].createdAt < now
    ensures i < j
  {
  }
}

=== FILE: common.dfy ===
/**
 * Values and string/sequence operations shared by every part of the model:
 * the Option and Result wrappers, the JavaScript string primitives the code
 * relies on (trim, toLowerCase, includes, split(','), join(',')), and the
 * array idioms filter and Array.from(new Set(...)).
 */
module Common {

  datatype Option<+T> = None | Some(value: T)

  /** The outcome of an operation that throws `new Error(msg)` on failure. */
  datatype Result<+T> = Ok(value: T) | Err(msg: string)

  // ---------------------------------------------------------------------------
  // String.prototype.trim

  /** The WhiteSpace and LineTerminator code points of ECMAScript: what trim removes. */
  predicate IsJsSpace(c: char)
  {
    c == '\t' || c == '\n' || c == '\U{B}' || c == '\U{C}' || c == '\r' || c == ' '
    || c == '\U{A0}' || c == '\U{1680}' || ('\U{2000}' <= c <= '\U{200A}')
    || c == '\U{2028}' || c == '\U{2029}' || c == '\U{202F}' || c == '\U{205F}'
    || c == '\U{3000}' || c == '\U{FEFF}'
  }

  /** Every character is white space (the empty string included). */
  predicate IsBlank(s: string)
  {
    forall i :: 0 <= i < |s| ==> IsJsSpace(s[i])
  }

  /** Neither starts nor ends with white space. */
  predicate IsTrimmed(s: string)
  {
    s == [] || (!IsJsSpace(s[0]) && !IsJsSpace(s[|s| - 1]))
  }

  function TrimStart(s: string): (r: string)
    ensures |r| <= |s| && r == s[|s| - |r|..]
    ensures r == [] || !IsJsSpace(r[0])
    ensures IsBlank(s[..|s| - |r|])
  {
    if |s| > 0 && IsJsSpace(s[0]) then
      var r := TrimStart(s[1..]);
      assert s[..|s| - |r|] == [s[0]] + s[1..][..|s| - 1 - |r|];
      r
    else s
  }

  function TrimEnd(s: string): (r: string)
    ensures |r| <= |s| && r == s[..|r|]
    ensures r == [] || !IsJsSpace(r[|r| - 1])
    ensures IsBlank(s[|r|..])
  {
    if |s| > 0 && IsJsSpace(s[|s| - 1]) then
      var r := TrimEnd(s[..|s| - 1]);
      assert s[|r|..] == s[..|s| - 1][|r|..] + [s[|s| - 1]];
      r
    else s
  }

  /** String.prototype.trim: white space removed at both ends. */
  function Trim(s: string): (r: string)
    ensures |r| <= |s|
    ensures IsTrimmed(r)
    ensures r == [] <==> IsBlank(s)
    ensures IsTrimmed(s) ==> r == s
  {
    TrimBlank(s);
    TrimOfTrimmed(s);
    var a := TrimStart(s);
    var r := TrimEnd(a);
    assert r != [] ==> r[0] == a[0];
    r
  }

  /** Trimming both ends leaves nothing exactly when everything is white space. */
  lemma TrimBlank(s: string)
    ensures TrimEnd(TrimStart(s)) == [] <==> IsBlank(s)
  {
    var a := TrimStart(s);
    var k := |s| - |a|;
    if a == [] {
      assert s[..k] == s;
    } else {
      assert a[0] == s[k];
      assert a[0..] == a;
    }
  }

  /** A trimmed string is its own trim. */
  lemma TrimOfTrimmed(s: string)
    ensures IsTrimmed(s) ==> TrimEnd(TrimStart(s)) == s
  {
  }

  lemma TrimIdempotent(s: string)
    ensures Trim(Trim(s)) == Trim(s)
  {
  }

  // ---------------------------------------------------------------------------
  // String.prototype.toLowerCase and String.prototype.includes

  /**
   * Lower-case mapping of one code point. Only the mappings that can produce
   * the ASCII letters are written out (A-Z; U+0130, which lower-cases to "i"
   * followed by U+0307; and U+212A KELVIN SIGN, which lower-cases to "k");
   * every other code point is left as it is.
   */
  function LowerChar(c: char): string
  {
    if 'A' <= c <= 'Z' then [(c as int + 32) as char]
    else if c == '\U{130}' then ['i', '\U{307}']
    else if c == '\U{212A}' then ['k']
    else [c]
  }

  function ToLower(s: string): string
  {
    if s == [] then [] else LowerChar(s[0]) + ToLower(s[1..])
  }

  lemma {:induction false} ToLowerAppend(a: string, b: string)
    ensures ToLower(a + b) == ToLower(a) + ToLower(b)
  {
    if a == [] {
      assert a + b == b;
    } else {
      assert (a + b)[0] == a[0];
      assert (a + b)[1..] == a[1..] + b;
      ToLowerAppend(a[1..], b);
    }
  }

  /** Lower-casing twice is lower-casing once. */
  lemma {:induction false} ToLowerIdempotent(s: string)
    ensures ToLower(ToLower(s)) == ToLower(s)
  {
    if s != [] {
      ToLowerIdempotent(s[1..]);
      ToLowerAppend(LowerChar(s[0]), ToLower(s[1..]));
      LowerCharStable(s[0]);
    }
  }

  /** What one character lower-cases to is already lower case. */
  lemma LowerCharStable(c: char)
    ensures ToLower(LowerChar(c)) == LowerChar(c)
  {
    if c == '\U{130}' {
      assert LowerChar(c) == ['i'] + ['\U{307}'];
      ToLowerAppend(['i'], ['\U{307}']);
    }
  }

  predicate StartsWith(s: string, prefix: string)
  {
    |prefix| <= |s| && s[..|prefix|] == prefix
  }

  /** String.prototype.includes: `sub` occurs somewhere in `s`. */
  predicate Includes(s: string, sub: string)
  {
    exists i :: 0 <= i <= |s| && StartsWith(s[i..], sub)
  }

  /** A string includes anything it ends with. */
  lemma IncludesSuffix(prefix: string, sub: string)
    ensures Includes(prefix + sub, sub)
  {
    assert (prefix + sub)[|prefix|..] == sub;
  }

  /** Every character of what a string includes occurs in it. */
  lemma IncludesChars(s: string, sub: string, c: char)
    requires Includes(s, sub) && c in sub
    ensures c in s
  {
    var i :| 0 <= i <= |s| && StartsWith(s[i..], sub);
    var k :| 0 <= k < |sub| && sub[k] == c;
    assert s[i..][k] == c;
  }

  /** A string lacking one of a text's characters does not include that text. */
  lemma Excludes(s: string, sub: string, c: char)
    requires c in sub && c !in s
    ensures !Includes(s, sub)
  {
    if Includes(s, sub) {
      IncludesChars(s, sub, c);
    }
  }

  /** A string includes anything it begins with. */
  lemma IncludesPrefix(sub: string, rest: string)
    ensures Includes(sub + rest, sub)
  {
    assert (sub + rest)[0..] == sub + rest;
  }

  // ---------------------------------------------------------------------------
  // Array.prototype.filter and counting

  /** Array.prototype.filter: the elements satisfying `p`, in their order. */
  function Filter<T(!new)>(s: seq<T>, p: T -> bool): (r: seq<T>)
    ensures |r| <= |s|
    ensures forall x :: x in r <==> x in s && p(x)
    ensures forall i :: 0 <= i < |r| ==> p(r[i])
  {
    if s == [] then []
    else Filter(s[..|s| - 1], p) + (if p(s[|s| - 1]) then [s[|s| - 1]] else [])
  }

  lemma FilterAppend<T(!new)>(s: seq<T>, x: T, p: T -> bool)
    ensures Filter(s + [x], p) == Filter(s, p) + (if p(x) then [x] else [])
  {
    assert (s + [x])[..|s|] == s;
  }

  /** Filtering keeps each element at most as often as the input holds it. */
  lemma {:induction false} FilterSubMultiset<T(!new)>(s: seq<T>, p: T -> bool)
    ensures multiset(Filter(s, p)) <= multiset(s)
    decreases |s|
  {
    if s != [] {
      var init := s[..|s| - 1];
      FilterSubMultiset(init, p);
      LastSplit(s);
    }
  }

  /** An element at two positions is held at least twice. */
  lemma HeldTwice<T>(s: seq<T>, i: nat, j: nat)
    requires i < j < |s| && s[i] == s[j]
    ensures multiset(s)[s[i]] >= 2
  {
    assert s == s[..j] + [s[j]] + s[j + 1..];
    assert s[i] in s[..j];
  }

  lemma LastSplit<T>(s: seq<T>)
    requires s != []
    ensures s == s[..|s| - 1] + [s[|s| - 1]]
  {
  }

  /** Filtering distributes over concatenation. */
  lemma {:induction false} FilterConcat<T(!new)>(a: seq<T>, b: seq<T>, p: T -> bool)
    ensures Filter(a + b, p) == Filter(a, p) + Filter(b, p)
  {
    if b != [] {
      var n := |b| - 1;
      FilterConcat(a, b[..n], p);
      assert a + b == (a + b[..n]) + [b[n]];
      assert b[..n] + [b[n]] == b;
      FilterAppend(a + b[..n], b[n], p);
      FilterAppend(b[..n], b[n], p);
    } else {
      assert a + b == a;
    }
  }

  lemma {:induction false} FilterAll<T(!new)>(s: seq<T>, p: T -> bool)
    requires forall i :: 0 <= i < |s| ==> p(s[i])
    ensures Filter(s, p) == s
  {
    if s != [] {
      var n := |s| - 1;
      FilterAll(s[..n], p);
      LastSplit(s);
      FilterAppend(s[..n], s[n], p);
    }
  }

  /** `xs.flatMap(f)`: the pieces of every element, in order. */
  function FlatMap<A, B>(xs: seq<A>, f: A -> seq<B>): seq<B>
  {
    if xs == [] then [] else FlatMap(xs[..|xs| - 1], f) + f(xs[|xs| - 1])
  }

  lemma FlatMapSnoc<A, B>(xs: seq<A>, x: A, f: A -> seq<B>)
    ensures FlatMap(xs + [x], f) == FlatMap(xs, f) + f(x)
  {
    assert (xs + [x])[..|xs|] == xs;
  }

  lemma FlatMapPrefix<A, B>(xs: seq<A>, i: nat, f: A -> seq<B>)
    requires i < |xs|
    ensures FlatMap(xs[..i + 1], f) == FlatMap(xs[..i], f) + f(xs[i])
  {
    assert xs[..i + 1] == xs[..i] + [xs[i]];
    FlatMapSnoc(xs[..i], xs[i], f);
  }

  /**
   * One step of collecting the pieces of `xs` into an insertion-ordered Set
   * after `acc`: a piece of at most one element is added unless present.
   */
  lemma CollectStep<A, T(!new)>(acc: seq<T>, xs: seq<A>, j: nat, f: A -> seq<T>)
    requires j < |xs| && |f(xs[j])| <= 1
    ensures var found := Dedupe(acc + FlatMap(xs[..j], f));
      Dedupe(acc + FlatMap(xs[..j + 1], f)) == if f(xs[j]) == [] || f(xs[j])[0] in found then found else found + f(xs[j])
  {
    FlatMapPrefix(xs, j, f);
    var before := acc + FlatMap(xs[..j], f);
    var piece := f(xs[j]);
    AppendAssociative(acc, FlatMap(xs[..j], f), piece);
    if piece == [] {
      assert before + piece == before;
    } else {
      assert piece == [piece[0]];
      DedupeAppend(before, piece[0]);
    }
  }

  lemma AppendAssociative<T>(a: seq<T>, b: seq<T>, c: seq<T>)
    ensures a + (b + c) == (a + b) + c
  {
  }

  /** An element of a flat map comes from the pieces of some element. */
  lemma {:induction false} FlatMapMembers<A, B>(xs: seq<A>, f: A -> seq<B>, y: B)
    ensures y in FlatMap(xs, f) <==> exists i :: 0 <= i < |xs| && y in f(xs[i])
  {
    if xs != [] {
      var n := |xs| - 1;
      FlatMapMembers(xs[..n], f, y);
      if i :| 0 <= i < |xs| && y in f(xs[i]) {
        if i < n {
          assert xs[..n][i] == xs[i];
        }
      }
      if y in FlatMap(xs[..n], f) {
        var i :| 0 <= i < n && y in f(xs[..n][i]);
        assert xs[..n][i] == xs[i];
      }
    }
  }

  /** The number of elements satisfying `p` (`.filter(p).length`). */
  function Count<T(!new)>(s: seq<T>, p: T -> bool): (n: nat)
    ensures n <= |s|
    ensures n == 0 <==> forall i :: 0 <= i < |s| ==> !p(s[i])
  {
    var r := Filter(s, p);
    assert r != [] ==> r[0] in s && p(r[0]);
    assert (exists i :: 0 <= i < |s| && p(s[i])) ==> r != [] by {
      if i :| 0 <= i < |s| && p(s[i]) {
        assert s[i] in r;
      }
    }
    |r|
  }

  lemma CountAppend<T(!new)>(s: seq<T>, x: T, p: T -> bool)
    ensures Count(s + [x], p) == Count(s, p) + (if p(x) then 1 else 0)
  {
    FilterAppend(s, x, p);
  }

  /** Sequences that agree, position by position, on whether `p` holds keep as many elements under it. */
  lemma {:induction false} FilterPointwise<T(!new)>(xs: seq<T>, ys: seq<T>, p: T -> bool)
    requires |xs| == |ys| && forall i :: 0 <= i < |xs| ==> p(xs[i]) == p(ys[i])
    ensures |Filter(xs, p)| == |Filter(ys, p)|
  {
    if xs != [] {
      var n := |xs| - 1;
      var a, b := xs[..n], ys[..n];
      FilterPointwise(a, b, p);
      assert a + [xs[n]] == xs;
      assert b + [ys[n]] == ys;
      FilterAppend(a, xs[n], p);
      FilterAppend(b, ys[n], p);
    }
  }

  /** Every element qualifies exactly when the count is the length. */
  lemma {:induction false} CountAll<T(!new)>(s: seq<T>, p: T -> bool)
    ensures Count(s, p) == |s| <==> forall i :: 0 <= i < |s| ==> p(s[i])
  {
    if s != [] {
      var n := |s| - 1;
      CountAll(s[..n], p);
      CountAppend(s[..n], s[n], p);
      LastSplit(s);
    }
  }

  /** `r` is made of elements of `s` taken at the increasing positions `idx`. */
  ghost predicate PicksInOrder<T>(r: seq<T>, s: seq<T>, idx: seq<nat>)
  {
    && |idx| == |r|
    && (forall k :: 0 <= k < |idx| ==> idx[k] < |s| && r[k] == s[idx[k]])
    && (forall k, l :: 0 <= k < l < |idx| ==> idx[k] < idx[l])
  }

  /** Filtering keeps the input order. */
  lemma {:induction false} FilterInOrder<T(!new)>(s: seq<T>, p: T -> bool) returns (idx: seq<nat>)
    ensures PicksInOrder(Filter(s, p), s, idx)
  {
    if s == [] {
      idx := [];
    } else {
      var n := |s| - 1;
      idx := FilterInOrder(s[..n], p);
      if p(s[n]) {
        idx := idx + [n];
      }
    }
  }

  /** A prefix of an in-order pick is one too. */
  lemma PicksPrefix<T>(r: seq<T>, s: seq<T>, idx: seq<nat>, m: nat)
    requires PicksInOrder(r, s, idx) && m <= |r|
    ensures PicksInOrder(r[..m], s, idx[..m])
  {
  }

  // ---------------------------------------------------------------------------
  // Array.from(new Set(s)): duplicates dropped, first occurrences kept in order

  predicate Distinct<T(==)>(s: seq<T>)
  {
    forall i, j :: 0 <= i < j < |s| ==> s[i] != s[j]
  }

  function Dedupe<T(==,!new)>(s: seq<T>): (r: seq<T>)
    ensures Distinct(r)
    ensures forall x :: x in r <==> x in s
    ensures |r| <= |s|
  {
    if s == [] then []
    else
      var d := Dedupe(s[..|s| - 1]);
      if s[|s| - 1] in d then d else d + [s[|s| - 1]]
  }

  /** Adding to a Set: a new element goes last, a present one changes nothing. */
  lemma DedupeAppend<T(!new)>(s: seq<T>, x: T)
    ensures Dedupe(s + [x]) == if x in Dedupe(s) then Dedupe(s) else Dedupe(s) + [x]
  {
    assert (s + [x])[..|s|] == s;
  }

  /** A sequence without duplicates is its own set-order. */
  lemma {:induction false} DedupeOfDistinct<T(!new)>(s: seq<T>)
    requires Distinct(s)
    ensures Dedupe(s) == s
  {
    if s != [] {
      var init := s[..|s| - 1];
      DedupeOfDistinct(init);
      assert s[|s| - 1] !in init;
      assert init + [s[|s| - 1]] == s;
    }
  }

  /** Later elements never reorder earlier ones: first-occurrence order. */
  lemma {:induction false} DedupePrefix<T(!new)>(s: seq<T>, t: seq<T>)
    ensures |Dedupe(s)| <= |Dedupe(s + t)|
    ensures Dedupe(s) == Dedupe(s + t)[..|Dedupe(s)|]
    decreases |t|
  {
    if t == [] {
      assert s + t == s;
    } else {
      var u := s + t[..|t| - 1];
      DedupePrefix(s, t[..|t| - 1]);
      assert (s + t)[..|s + t| - 1] == u;
      assert (s + t)[|s + t| - 1] == t[|t| - 1];
      var du := Dedupe(u);
      assert Dedupe(s + t) == du || Dedupe(s + t) == du + [t[|t| - 1]];
    }
  }

  /** A rearrangement of a sequence without duplicates has none. */
  lemma DistinctPermutation<T>(a: seq<T>, b: seq<T>)
    requires Distinct(a) && multiset(a) == multiset(b)
    ensures Distinct(b)
  {
    forall i, j | 0 <= i < j < |b| ensures b[i] != b[j] {
      if b[i] == b[j] {
        var x := b[i];
        assert b == b[..j] + [b[j]] + b[j + 1..];
        assert x in b[..j];
        assert multiset(b)[x] >= 2;
        DistinctOccursOnce(a, x);
      }
    }
  }

  lemma {:induction false} DistinctOccursOnce<T>(s: seq<T>, x: T)
    requires Distinct(s)
    ensures multiset(s)[x] <= 1
  {
    if s != [] {
      DistinctOccursOnce(s[1..], x);
      assert s == [s[0]] + s[1..];
      assert s[0] !in s[1..];
    }
  }

  // ---------------------------------------------------------------------------
  // Toggling an element of a selection:
  // `prev.includes(x) ? prev.filter(item => item !== x) : [...prev, x]`

  /** `item => item !== x`. */
  function Except<T(==)>(x: T): T -> bool
  {
    (y: T) => y != x
  }

  /** Without duplicates, leaving out `x` removes its one position and keeps the rest in order. */
  lemma ExceptDropsAt<T(!new)>(s: seq<T>, x: T)
    ensures forall i :: 0 <= i < |s| && s[i] == x && Distinct(s) ==> Filter(s, Except(x)) == s[..i] + s[i + 1..]
    ensures x in s && Distinct(s) ==> Distinct(Filter(s, Except(x)))
  {
    forall i | 0 <= i < |s| && s[i] == x && Distinct(s) ensures Filter(s, Except(x)) == s[..i] + s[i + 1..] {
      FilterDropsOne(s, Except(x), i);
    }
  }

  function Toggle<T(==,!new)>(s: seq<T>, x: T): (r: seq<T>)
    ensures x in s ==> x !in r && forall y :: y != x ==> (y in r <==> y in s)
    ensures x in s ==> r == Filter(s, Except(x))
    ensures forall i :: 0 <= i < |s| && s[i] == x && Distinct(s) ==> r == s[..i] + s[i + 1..]
    ensures x !in s ==> r == s + [x]
    ensures Distinct(s) ==> Distinct(r)
  {
    if x in s then
      ExceptDropsAt(s, x);
      Filter(s, Except(x))
    else
      s + [x]
  }

  /** Without duplicates, filtering one value out deletes its one position. */
  lemma FilterDropsOne<T(!new)>(s: seq<T>, p: T -> bool, i: nat)
    requires Distinct(s) && i < |s|
    requires forall y :: p(y) <==> y != s[i]
    ensures Filter(s, p) == s[..i] + s[i + 1..]
  {
    SplitAround(s, i);
    assert s[i] !in s[..i];
    var after := s[i + 1..];
    assert s[i] !in after by {
      forall j | 0 <= j < |after| ensures after[j] != s[i] {
        assert after[j] == s[i + 1 + j];
      }
    }
    FilterDropsAt(s[..i], s[i], s[i + 1..], p);
  }

  lemma SplitAround<T>(s: seq<T>, i: nat)
    requires i < |s|
    ensures s == s[..i] + ([s[i]] + s[i + 1..])
  {
  }

  /** Filtering out the one element `x` from a sequence that holds it once. */
  lemma FilterDropsAt<T(!new)>(before: seq<T>, x: T, after: seq<T>, p: T -> bool)
    requires x !in before && x !in after
    requires forall y :: p(y) <==> y != x
    ensures Filter(before + ([x] + after), p) == before + after
  {
    FilterConcat([x], after, p);
    assert Filter([x], p) == [] by { assert [x][..0] == []; }
    KeepsAllBut(after, x, p);
    var rest := Filter([x] + after, p);
    assert rest == after by { assert [] + after == after; }
    FilterConcat(before, [x] + after, p);
    KeepsAllBut(before, x, p);
  }

  /** Filtering out an element that is absent keeps everything. */
  lemma KeepsAllBut<T(!new)>(s: seq<T>, x: T, p: T -> bool)
    requires x !in s
    requires forall y :: p(y) <==> y != x
    ensures Filter(s, p) == s
  {
    forall i | 0 <= i < |s| ensures p(s[i]) {
      assert s[i] in s;
    }
    FilterAll(s, p);
  }

  /** Toggling an absent element twice gives the selection back. */
  lemma ToggleAbsentTwice<T(!new)>(s: seq<T>, x: T)
    requires x !in s
    ensures Toggle(Toggle(s, x), x) == s
  {
    FilterAppend(s, x, Except(x));
    FilterAll(s, Except(x));
  }

  /**
   * Toggling a present element twice, on a selection without duplicates,
   * keeps the same elements and moves that one to the end.
   */
  lemma TogglePresentTwice<T(!new)>(s: seq<T>, i: nat)
    requires Distinct(s) && i < |s|
    ensures Toggle(Toggle(s, s[i]), s[i]) == s[..i] + s[i + 1..] + [s[i]]
    ensures multiset(Toggle(Toggle(s, s[i]), s[i])) == multiset(s)
  {
    var x := s[i];
    assert x !in s[..i] + s[i + 1..] by {
      SplitAround(s, i);
    }
    assert s == s[..i] + [x] + s[i + 1..];
  }

  // ---------------------------------------------------------------------------
  // split(',') and join(',')

  /** Array.prototype.join(','). */
  function Join(xs: seq<string>): string
  {
    if |xs| == 0 then ""
    else if |xs| == 1 then xs[0]
    else xs[0] + "," + Join(xs[1..])
  }

  /** String.prototype.split(','): always at least one piece ("" gives [""]). */
  function Split(s: string): (r: seq<string>)
    ensures |r| >= 1
  {
    if |s| == 0 then [""]
    else
      var rest := Split(s[1..]);
      if s[0] == ',' then [""] + rest
      else [[s[0]] + rest[0]] + rest[1..]
  }

  lemma {:induction false} SplitNoComma(a: string)
    requires ',' !in a
    ensures Split(a) == [a]
  {
    if a != [] {
      SplitNoComma(a[1..]);
      assert [a[0]] + a[1..] == a;
    }
  }

  lemma {:induction false} SplitPiece(a: string, t: string)
    requires ',' !in a
    ensures Split(a + "," + t) == [a] + Split(t)
  {
    if a == [] {
      assert a + "," + t == [','] + t;
      assert ([','] + t)[1..] == t;
    } else {
      var s := a + "," + t;
      assert s[1..] == a[1..] + "," + t;
      SplitPiece(a[1..], t);
      assert [a[0]] + a[1..] == a;
    }
  }

  /** Splitting what was joined gives the pieces back, when none contains ','. */
  lemma {:induction false} SplitJoin(xs: seq<string>)
    requires |xs| >= 1
    requires forall i :: 0 <= i < |xs| ==> ',' !in xs[i]
    ensures Split(Join(xs)) == xs
  {
    if |xs| == 1 {
      SplitNoComma(xs[0]);
    } else {
      SplitJoin(xs[1..]);
      SplitPiece(xs[0], Join(xs[1..]));
      assert [xs[0]] + xs[1..] == xs;
    }
  }

  /** Joining what was split gives the text back. */
  lemma {:induction false} JoinSplit(s: string)
    ensures Join(Split(s)) == s
    decreases |s|
  {
    if |s| > 0 {
      var rest := Split(s[1..]);
      JoinSplit(s[1..]);
      if s[0] == ',' {
        assert ([""] + rest)[1..] == rest;
      } else {
        var r := [[s[0]] + rest[0]] + rest[1..];
        if |rest| > 1 {
          assert r[1..] == rest[1..];
        }
      }
      assert [s[0]] + s[1..] == s;
    }
  }

  /** Joining gives the empty string only for no pieces or one empty piece. */
  lemma {:induction false} JoinEmpty(xs: seq<string>)
    ensures Join(xs) == "" <==> |xs| == 0 || (|xs| == 1 && xs[0] == "")
  {
    if |xs| >= 2 {
      assert (xs[0] + "," + Join(xs[1..]))[|xs[0]|] == ',';
    }
  }
}

=== FILE: json.dfy ===
/**
 * Parsed JSON values as the client code sees them, with the JavaScript
 * operators the transforms are written in: truthiness, `a || b`, property
 * access (`x.key`, which throws on null and undefined), optional chaining
 * (`x?.key`) and `String(x)`. Numbers are integers.
 */
module Json {
  import opened Common
  import opened Numerals

  datatype Json =
    | Undefined
    | Null
    | Bool(b: bool)
    | Num(n: int)
    | Str(s: string)
    | Arr(items: seq<Json>)
    | Obj(fields: seq<(string, Json)>)

  /** Values that `x.key` throws on. */
  predicate Nullish(j: Json)
  {
    j.Undefined? || j.Null?
  }

  /** JavaScript truthiness: undefined, null, false, 0 and "" are falsy; arrays and objects are not. */
  predicate Truthy(j: Json)
  {
    match j
    case Undefined => false
    case Null => false
    case Bool(b) => b
    case Num(n) => n != 0
    case Str(s) => s != ""
    case Arr(_) => true
    case Obj(_) => true
  }

  /** `a || b`. */
  function Or(a: Json, b: Json): (r: Json)
    ensures Truthy(a) ==> r == a
    ensures !Truthy(a) ==> r == b
  {
    if Truthy(a) then a else b
  }

  /**
   * The value bound to `key`. Every object here comes from a serialised
   * record, whose keys are distinct, so reading the first binding is
   * reading the only one.
   */
  function Lookup(fields: seq<(string, Json)>, key: string): (r: Json)
    ensures r != Undefined ==> (key, r) in fields
    ensures (forall i :: 0 <= i < |fields| ==> fields[i].0 != key) ==> r == Undefined
  {
    if fields == [] then Undefined
    else if fields[0].0 == key then fields[0].1
    else Lookup(fields[1..], key)
  }

  /** The binding of a key no earlier entry names is the one read. */
  lemma {:induction false} LookupAt(fields: seq<(string, Json)>, key: string, i: nat)
    requires i < |fields| && fields[i].0 == key
    requires forall j :: 0 <= j < i ==> fields[j].0 != key
    ensures Lookup(fields, key) == fields[i].1
  {
    if i > 0 {
      LookupAt(fields[1..], key, i - 1);
    }
  }

  /** Reading past a binding of another key. */
  lemma LookupSkip(fields: seq<(string, Json)>, key: string, i: nat)
    requires i < |fields| && fields[i].0 != key
    ensures Lookup(fields[i..], key) == Lookup(fields[i + 1..], key)
  {
    assert fields[i..][0] == fields[i];
    assert fields[i..][1..] == fields[i + 1..];
  }

  /** `x.key` on a value that is not null or undefined: a missing property is undefined. */
  function Field(j: Json, key: string): (r: Json)
    requires !Nullish(j)
    ensures !j.Obj? ==> r == Undefined
  {
    if j.Obj? then Lookup(j.fields, key) else Undefined
  }

  /** `x?.key`: undefined when `x` is null or undefined. */
  function OptField(j: Json, key: string): (r: Json)
    ensures Nullish(j) ==> r == Undefined
  {
    if Nullish(j) then Undefined else Field(j, key)
  }

  /** The message of the TypeError that `x.key` throws when `x` is null or undefined. */
  function ReadError(j: Json, key: string): string
    requires Nullish(j)
  {
    "Cannot read properties of " + (if j.Null? then "null" else "undefined") + " (reading '" + key + "')"
  }

  /** `String(x)`, as `new Error(x)` makes a message of a value that is not a string. */
  function ToText(j: Json): string
    decreases j, 1
  {
    match j
    case Undefined => "undefined"
    case Null => "null"
    case Bool(b) => if b then "true" else "false"
    case Num(n) => IntToString(n)
    case Str(s) => s
    case Arr(items) => ItemsText(items)
    case Obj(_) => "[object Object]"
  }

  /** `Array.prototype.join(',')` over `String` of each element, null and undefined giving "". */
  function ItemsText(items: seq<Json>): string
    decreases items, 0
  {
    if items == [] then ""
    else
      var first := if Nullish(items[0]) then "" else ToText(items[0]);
      if |items| == 1 then first else first + "," + ItemsText(items[1..])
  }

}

=== FILE: moderation.dfy ===
/**
 * The moderation server actions (lib/actions/moderation.ts): adopting a
 * comment or a UGC item, which sets its status to 'adopted' and grants its
 * author a coupon, and pinning a comment. As in Participation, each action
 * is a function on the store's value and a method on the `Database` proved
 * to agree with it. None of the actions looks at the row's current status.
 */
module Moderation {
  import opened Common
  import opened Schema
  import opened Store

  const CommentNotFound := "Comment not found"
  const UgcNotFound := "UGC not found"
  const CommentAdoptionReward := "COMMENT_ADOPTION_REWARD"
  const UgcAdoptionReward := "UGC_ADOPTION_REWARD"

  function CommentWithId(id: Id): CommentRow -> bool
  {
    (c: CommentRow) => c.id == id
  }

  function UgcWithId(id: Id): UgcRow -> bool
  {
    (g: UgcRow) => g.id == id
  }

  function MarkCommentAdopted(c: CommentRow): CommentRow
  {
    c.(status := ReviewStatus.Adopted)
  }

  function MarkUgcAdopted(g: UgcRow): UgcRow
  {
    g.(status := ReviewStatus.Adopted)
  }

  function MarkPinned(c: CommentRow): CommentRow
  {
    c.(isPinned := true)
  }

  /** The `.single()` read of the comment by id; a failed read finds nothing. */
  function FindComment(t: Tables, id: Id, readFails: bool): Option<CommentRow>
  {
    if readFails then None else Single(Filter(t.comments, CommentWithId(id)))
  }

  function FindUgc(t: Tables, id: Id, readFails: bool): Option<UgcRow>
  {
    if readFails then None else Single(Filter(t.ugc, UgcWithId(id)))
  }

  /** The rewards a source has earned. */
  function RewardFor(source: SourceType, sourceId: Id): RewardRow -> bool
  {
    (r: RewardRow) => r.sourceType == source && r.sourceId == Some(sourceId)
  }

  /**
   * The coupon granted to the author after a successful adoption. The
   * insert's outcome is not looked at, so the row is appended only when
   * `written`.
   */
  function GrantCoupon(t: Tables, adId: Id, userId: Id, value: string, source: SourceType, sourceId: Id,
                       written: bool, now: Timestamp): (u: Tables)
    ensures WellFormed(t) ==> WellFormed(u)
    ensures u.rewards == t.rewards + (if written then [RewardRow(t.nextId, adId, userId, RewardType.Coupon, value,
                                                                  RewardStatus.Pending, source, Some(sourceId), now)]
                                      else [])
    ensures u == t.(rewards := u.rewards, nextId := u.nextId)
  {
    if written then
      var r := RewardRow(t.nextId, adId, userId, RewardType.Coupon, value, RewardStatus.Pending, source, Some(sourceId), now);
      t.(rewards := t.rewards + [r], nextId := t.nextId + 1)
    else t
  }

  // ---------------------------------------------------------------------------
  // adoptComment

  function AdoptCommentSpec(t: Tables, user: Option<Id>, commentId: Id, lookupFails: bool,
                            updateError: Option<string>, rewardWritten: bool, now: Timestamp): (o: Outcome<CommentRow>)
    ensures WellFormed(t) ==> WellFormed(o.tables)
    ensures o.result.Err? ==> o.tables == t
    ensures user.None? ==> o.result == Err(Unauthorized)
    ensures user.Some? && FindComment(t, commentId, lookupFails).None? ==> o.result == Err(CommentNotFound)
    ensures o.result.Ok? <==> user.Some? && FindComment(t, commentId, lookupFails).Some? && updateError.None?
    ensures user.Some? && FindComment(t, commentId, lookupFails).Some? && updateError.Some?
            ==> o.result == Err(updateError.value)
    ensures o.result.Ok? ==>
      var c := FindComment(t, commentId, lookupFails).value;
      && o.result.value == c.(status := ReviewStatus.Adopted)
      && |o.tables.comments| == |t.comments|
      && (forall i :: 0 <= i < |t.comments| ==>
            o.tables.comments[i] == if t.comments[i].id == commentId then t.comments[i].(status := ReviewStatus.Adopted)
                                    else t.comments[i])
      && o.tables.rewards
         == t.rewards + (if rewardWritten then [RewardRow(t.nextId, c.adId, c.userId, RewardType.Coupon, CommentAdoptionReward,
                                                           RewardStatus.Pending, SourceType.Comment, Some(commentId), now)]
                         else [])
      && o.tables == t.(comments := o.tables.comments, rewards := o.tables.rewards, nextId := o.tables.nextId)
  {
    if user.None? then Outcome(t, Err(Unauthorized))
    else
      match FindComment(t, commentId, lookupFails)
      case None => Outcome(t, Err(CommentNotFound))
      case Some(c) =>
        if updateError.Some? then Outcome(t, Err(updateError.value))
        else
          var u := t.(comments := UpdateWhere(t.comments, CommentWithId(commentId), MarkCommentAdopted));
          assert WellFormed(t) ==> WellFormed(u) by {
            if WellFormed(t) {
              UpdateKeepsKeys(t.comments, CommentWithId(commentId), MarkCommentAdopted, CommentId);
              UpdateKeepsIdsBelow(t.comments, CommentWithId(commentId), MarkCommentAdopted, CommentId, t.nextId);
            }
          }
          var v := GrantCoupon(u, c.adId, c.userId, CommentAdoptionReward, SourceType.Comment, commentId, rewardWritten, now);
          Outcome(v, Ok(c.(status := ReviewStatus.Adopted)))
  }

  method AdoptComment(db: Database, user: Option<Id>, commentId: Id, lookupFails: bool,
                      updateError: Option<string>, rewardWritten: bool, now: Timestamp)
    returns (r: Result<CommentRow>)
    requires db.Valid()
    modifies db
    ensures db.Valid()
    ensures Outcome(db.Snapshot(), r)
      == AdoptCommentSpec(old(db.Snapshot()), user, commentId, lookupFails, updateError, rewardWritten, now)
  {
    if user.None? {
      return Err(Unauthorized);
    }
    var comment := FindComment(db.Snapshot(), commentId, lookupFails);
    if comment.None? {
      return Err(CommentNotFound);
    }
    if updateError.Some? {
      return Err(updateError.value);
    }
    db.comments := UpdateWhere(db.comments, CommentWithId(commentId), MarkCommentAdopted);
    if rewardWritten {
      var c := comment.value;
      db.rewards := db.rewards + [RewardRow(db.nextId, c.adId, c.userId, RewardType.Coupon, CommentAdoptionReward,
                                            RewardStatus.Pending, SourceType.Comment, Some(commentId), now)];
      db.nextId := db.nextId + 1;
    }
    assert db.Snapshot() == AdoptCommentSpec(old(db.Snapshot()), user, commentId, lookupFails, updateError, rewardWritten, now).tables;
    r := Ok(comment.value.(status := ReviewStatus.Adopted));
  }

  /**
   * No re-adoption guard: adopting a comment that was just adopted succeeds
   * again, and every successful adoption whose reward insert went through
   * adds one reward for that comment.
   */
  lemma AdoptCommentAgain(t: Tables, user: Option<Id>, commentId: Id, w1: bool, w2: bool, now1: Timestamp, now2: Timestamp)
    requires AdoptCommentSpec(t, user, commentId, false, None, w1, now1).result.Ok?
    ensures var t1 := AdoptCommentSpec(t, user, commentId, false, None, w1, now1).tables;
      var o2 := AdoptCommentSpec(t1, user, commentId, false, None, w2, now2);
      && o2.result.Ok?
      && Count(o2.tables.rewards, RewardFor(SourceType.Comment, commentId))
         == Count(t.rewards, RewardFor(SourceType.Comment, commentId)) + (if w1 then 1 else 0) + (if w2 then 1 else 0)
  {
    var o1 := AdoptCommentSpec(t, user, commentId, false, None, w1, now1);
    CountUpdateWhere(t.comments, CommentWithId(commentId), MarkCommentAdopted, CommentWithId(commentId));
    assert o1.tables.comments == UpdateWhere(t.comments, CommentWithId(commentId), MarkCommentAdopted);
    var o2 := AdoptCommentSpec(o1.tables, user, commentId, false, None, w2, now2);
    var p := RewardFor(SourceType.Comment, commentId);
    if w1 {
      CountAppend(t.rewards, o1.tables.rewards[|t.rewards|], p);
    }
    if w2 {
      CountAppend(o1.tables.rewards, o2.tables.rewards[|o1.tables.rewards|], p);
    }
  }

  // ---------------------------------------------------------------------------
  // adoptUGC

  function AdoptUgcSpec(t: Tables, user: Option<Id>, ugcId: Id, lookupFails: bool,
                        updateError: Option<string>, rewardWritten: bool, now: Timestamp): (o: Outcome<UgcRow>)
    ensures WellFormed(t) ==> WellFormed(o.tables)
    ensures o.result.Err? ==> o.tables == t
    ensures user.None? ==> o.result == Err(Unauthorized)
    ensures user.Some? && FindUgc(t, ugcId, lookupFails).None? ==> o.result == Err(UgcNotFound)
    ensures o.result.Ok? <==> user.Some? && FindUgc(t, ugcId, lookupFails).Some? && updateError.None?
    ensures user.Some? && FindUgc(t, ugcId, lookupFails).Some? && updateError.Some?
            ==> o.result == Err(updateError.value)
    ensures o.result.Ok? ==>
      var g := FindUgc(t, ugcId, lookupFails).value;
      && o.result.value == g.(status := ReviewStatus.Adopted)
      && |o.tables.ugc| == |t.ugc|
      && (forall i :: 0 <= i < |t.ugc| ==>
            o.tables.ugc[i] == if t.ugc[i].id == ugcId then t.ugc[i].(status := ReviewStatus.Adopted) else t.ugc[i])
      && o.tables.rewards
         == t.rewards + (if rewardWritten then [RewardRow(t.nextId, g.adId, g.userId, RewardType.Coupon, UgcAdoptionReward,
                                                           RewardStatus.Pending, SourceType.Ugc, Some(ugcId), now)]
                         else [])
      && o.tables == t.(ugc := o.tables.ugc, rewards := o.tables.rewards, nextId := o.tables.nextId)
  {
    if user.None? then Outcome(t, Err(Unauthorized))
    else
      match FindUgc(t, ugcId, lookupFails)
      case None => Outcome(t, Err(UgcNotFound))
      case Some(g) =>
        if updateError.Some? then Outcome(t, Err(updateError.value))
        else
          var u := t.(ugc := UpdateWhere(t.ugc, UgcWithId(ugcId), MarkUgcAdopted));
          assert WellFormed(t) ==> WellFormed(u) by {
            if WellFormed(t) {
              UpdateKeepsKeys(t.ugc, UgcWithId(ugcId), MarkUgcAdopted, UgcId);
              UpdateKeepsIdsBelow(t.ugc, UgcWithId(ugcId), MarkUgcAdopted, UgcId, t.nextId);
            }
          }
          var v := GrantCoupon(u, g.adId, g.userId, UgcAdoptionReward, SourceType.Ugc, ugcId, rewardWritten, now);
          Outcome(v, Ok(g.(status := ReviewStatus.Adopted)))
  }

  method AdoptUgc(db: Database, user: Option<Id>, ugcId: Id, lookupFails: bool,
                  updateError: Option<string>, rewardWritten: bool, now: Timestamp)
    returns (r: Result<UgcRow>)
    requires db.Valid()
    modifies db
    ensures db.Valid()
    ensures Outcome(db.Snapshot(), r)
      == AdoptUgcSpec(old(db.Snapshot()), user, ugcId, lookupFails, updateError, rewardWritten, now)
  {
    if user.None? {
      return Err(Unauthorized);
    }
    var found := FindUgc(db.Snapshot(), ugcId, lookupFails);
    if found.None? {
      return Err(UgcNotFound);
    }
    if updateError.Some? {
      return Err(updateError.value);
    }
    db.ugc := UpdateWhere(db.ugc, UgcWithId(ugcId), MarkUgcAdopted);
    if rewardWritten {
      var g := found.value;
      db.rewards := db.rewards + [RewardRow(db.nextId, g.adId, g.userId, RewardType.Coupon, UgcAdoptionReward,
                                            RewardStatus.Pending, SourceType.Ugc, Some(ugcId), now)];
      db.nextId := db.nextId + 1;
    }
    assert db.Snapshot() == AdoptUgcSpec(old(db.Snapshot()), user, ugcId, lookupFails, updateError, rewardWritten, now).tables;
    r := Ok(found.value.(status := ReviewStatus.Adopted));
  }

  /** The same for UGC: re-adoption succeeds and each success with its reward written adds one reward. */
  lemma AdoptUgcAgain(t: Tables, user: Option<Id>, ugcId: Id, w1: bool, w2: bool, now1: Timestamp, now2: Timestamp)
    requires AdoptUgcSpec(t, user, ugcId, false, None, w1, now1).result.Ok?
    ensures var t1 := AdoptUgcSpec(t, user, ugcId, false, None, w1, now1).tables;
      var o2 := AdoptUgcSpec(t1, user, ugcId, false, None, w2, now2);
      && o2.result.Ok?
      && Count(o2.tables.rewards, RewardFor(SourceType.Ugc, ugcId))
         == Count(t.rewards, RewardFor(SourceType.Ugc, ugcId)) + (if w1 then 1 else 0) + (if w2 then 1 else 0)
  {
    var o1 := AdoptUgcSpec(t, user, ugcId, false, None, w1, now1);
    CountUpdateWhere(t.ugc, UgcWithId(ugcId), MarkUgcAdopted, UgcWithId(ugcId));
    assert o1.tables.ugc == UpdateWhere(t.ugc, UgcWithId(ugcId), MarkUgcAdopted);
    var o2 := AdoptUgcSpec(o1.tables, user, ugcId, false, None, w2, now2);
    var p := RewardFor(SourceType.Ugc, ugcId);
    if w1 {
      CountAppend(t.rewards, o1.tables.rewards[|t.rewards|], p);
    }
    if w2 {
      CountAppend(o1.tables.rewards, o2.tables.rewards[|o1.tables.rewards|], p);
    }
  }

  // ---------------------------------------------------------------------------
  // pinComment

  function PinCommentSpec(t: Tables, user: Option<Id>, commentId: Id, lookupFails: bool,
                          updateError: Option<string>): (o: Outcome<CommentRow>)
    ensures WellFormed(t) ==> WellFormed(o.tables)
    ensures o.result.Err? ==> o.tables == t
    ensures user.None? ==> o.result == Err(Unauthorized)
    ensures user.Some? && FindComment(t, commentId, lookupFails).None? ==> o.result == Err(CommentNotFound)
    ensures o.result.Ok? <==> user.Some? && FindComment(t, commentId, lookupFails).Some? && updateError.None?
    ensures user.Some? && FindComment(t, commentId, lookupFails).Some? && updateError.Some?
            ==> o.result == Err(updateError.value)
    ensures o.result.Ok? ==>
      && o.result.value == FindComment(t, commentId, lookupFails).value.(isPinned := true)
      && |o.tables.comments| == |t.comments|
      && (forall i :: 0 <= i < |t.comments| ==>
            o.tables.comments[i] == if t.comments[i].id == commentId then t.comments[i].(isPinned := true) else t.comments[i])
      && o.tables == t.(comments := o.tables.comments)
  {
    if user.None? then Outcome(t, Err(Unauthorized))
    else
      match FindComment(t, commentId, lookupFails)
      case None => Outcome(t, Err(CommentNotFound))
      case Some(c) =>
        if updateError.Some? then Outcome(t, Err(updateError.value))
        else
          var u := t.(comments := UpdateWhere(t.comments, CommentWithId(commentId), MarkPinned));
          assert WellFormed(t) ==> WellFormed(u) by {
            if WellFormed(t) {
              UpdateKeepsKeys(t.comments, CommentWithId(commentId), MarkPinned, CommentId);
              UpdateKeepsIdsBelow(t.comments, CommentWithId(commentId), MarkPinned, CommentId, t.nextId);
            }
          }
          Outcome(u, Ok(c.(isPinned := true)))
  }

  method PinComment(db: Database, user: Option<Id>, commentId: Id, lookupFails: bool, updateError: Option<string>)
    returns (r: Result<CommentRow>)
    requires db.Valid()
    modifies db
    ensures db.Valid()
    ensures Outcome(db.Snapshot(), r) == PinCommentSpec(old(db.Snapshot()), user, commentId, lookupFails, updateError)
  {
    if user.None? {
      return Err(Unauthorized);
    }
    var comment := FindComment(db.Snapshot(), commentId, lookupFails);
    if comment.None? {
      return Err(CommentNotFound);
    }
    if updateError.Some? {
      return Err(updateError.value);
    }
    db.comments := UpdateWhere(db.comments, CommentWithId(commentId), MarkPinned);
    assert db.Snapshot() == PinCommentSpec(old(db.Snapshot()), user, commentId, lookupFails, updateError).tables;
    r := Ok(comment.value.(isPinned := true));
  }

  /** Pinning twice is pinning once: the second call succeeds and changes nothing. */
  lemma PinIdempotent(t: Tables, user: Option<Id>, commentId: Id)
    requires PinCommentSpec(t, user, commentId, false, None).result.Ok?
    ensures var t1 := PinCommentSpec(t, user, commentId, false, None).tables;
      var o2 := PinCommentSpec(t1, user, commentId, false, None);
      o2.result.Ok? && o2.tables == t1
  {
    var t1 := PinCommentSpec(t, user, commentId, false, None).tables;
    assert t1.comments == UpdateWhere(t.comments, CommentWithId(commentId), MarkPinned);
    CountUpdateWhere(t.comments, CommentWithId(commentId), MarkPinned, CommentWithId(commentId));
    UpdateWhereTwice(t.comments, CommentWithId(commentId), MarkPinned);
  }
}

=== FILE: numerals.dfy ===
/**
 * Decimal numerals. `IntToString` is Number.prototype.toString on an
 * integer; `JsParseInt` is the global parseInt called without a radix;
 * `ParseInteger` is the strict reading of a whole numeral that the model
 * uses for the database's parse of a timestamp text (see Store).
 */
module Numerals {
  import opened Common

  predicate IsDigit(c: char)
  {
    '0' <= c <= '9'
  }

  predicate AllDigits(s: string)
  {
    forall i :: 0 <= i < |s| ==> IsDigit(s[i])
  }

  function DigitChar(d: nat): (c: char)
    requires d < 10
    ensures IsDigit(c) && c as int - '0' as int == d
  {
    ('0' as int + d) as char
  }

  /** The value of a string of decimal digits, most significant first. */
  function DigitsValue(s: string): nat
    requires AllDigits(s)
  {
    if s == [] then 0
    else DigitsValue(s[..|s| - 1]) * 10 + (s[|s| - 1] as int - '0' as int)
  }

  /** The shortest decimal numeral of `n`. */
  function NatToString(n: nat): (s: string)
    ensures |s| >= 1 && AllDigits(s)
    ensures s[0] == '0' ==> n == 0
  {
    if n < 10 then [DigitChar(n)] else NatToString(n / 10) + [DigitChar(n % 10)]
  }

  /** Number.prototype.toString of an integer. */
  function IntToString(n: int): (s: string)
    ensures |s| >= 1
  {
    if n < 0 then "-" + NatToString(-n) else NatToString(n)
  }

  lemma {:induction false} NatToStringValue(n: nat)
    ensures DigitsValue(NatToString(n)) == n
  {
    if n >= 10 {
      NatToStringValue(n / 10);
      var s := NatToString(n / 10) + [DigitChar(n % 10)];
      assert s[..|s| - 1] == NatToString(n / 10);
    }
  }

  // ---------------------------------------------------------------------------
  // The strict reading: an optional '-' and one or more digits, nothing else.

  function ParseInteger(s: string): (r: Option<int>)
    ensures r.Some? ==> |s| >= 1
  {
    if |s| > 0 && s[0] == '-' then
      (if |s| > 1 && AllDigits(s[1..]) then var v: int := DigitsValue(s[1..]); Some(-v) else None)
    else if |s| > 0 && AllDigits(s) then Some(DigitsValue(s))
    else None
  }

  /** Reading back what IntToString wrote gives the number. */
  lemma ParseIntegerOfIntToString(n: int)
    ensures ParseInteger(IntToString(n)) == Some(n)
  {
    if n < 0 {
      ParseNegative(-n);
    } else {
      ParseNatural(n);
    }
  }

  lemma ParseNatural(n: nat)
    ensures ParseInteger(NatToString(n)) == Some(n)
  {
    var s := NatToString(n);
    assert s[0] != '-';
    NatToStringValue(n);
  }

  lemma ParseNegative(m: nat)
    ensures ParseInteger("-" + NatToString(m)) == Some(-(m as int))
  {
    var s := "-" + NatToString(m);
    assert s[0] == '-' && s[1..] == NatToString(m);
    NatToStringValue(m);
  }

  /** Different integers have different numerals. */
  lemma IntToStringInjective(m: int, n: int)
    ensures IntToString(m) == IntToString(n) ==> m == n
  {
    ParseIntegerOfIntToString(m);
    ParseIntegerOfIntToString(n);
  }

  // ---------------------------------------------------------------------------
  // parseInt(s) without a radix

  predicate IsHexDigit(c: char)
  {
    IsDigit(c) || 'a' <= c <= 'f' || 'A' <= c <= 'F'
  }

  function HexDigitValue(c: char): nat
    requires IsHexDigit(c)
  {
    if IsDigit(c) then c as int - '0' as int
    else if 'a' <= c <= 'f' then c as int - 'a' as int + 10
    else c as int - 'A' as int + 10
  }

  function HexValue(s: string): nat
    requires forall i :: 0 <= i < |s| ==> IsHexDigit(s[i])
  {
    if s == [] then 0 else HexValue(s[..|s| - 1]) * 16 + HexDigitValue(s[|s| - 1])
  }

  /** The longest prefix of decimal digits. */
  function DigitPrefix(s: string): (p: string)
    ensures |p| <= |s| && p == s[..|p|] && AllDigits(p)
    ensures |p| < |s| ==> !IsDigit(s[|p|])
  {
    if s != [] && IsDigit(s[0]) then [s[0]] + DigitPrefix(s[1..]) else []
  }

  /** The longest prefix of hexadecimal digits. */
  function HexPrefix(s: string): (p: string)
    ensures |p| <= |s| && p == s[..|p|]
    ensures forall i :: 0 <= i < |p| ==> IsHexDigit(p[i])
  {
    if s != [] && IsHexDigit(s[0]) then [s[0]] + HexPrefix(s[1..]) else []
  }

  /**
   * The digits after the sign: a "0x"/"0X" prefix switches to base 16, then
   * the longest run of digits is read; None when there is no digit at all.
   */
  function ParseUnsignedPrefix(u: string): Option<nat>
  {
    if |u| >= 2 && u[0] == '0' && (u[1] == 'x' || u[1] == 'X') then
      var h := HexPrefix(u[2..]);
      if h == [] then None else Some(HexValue(h))
    else
      var d := DigitPrefix(u);
      if d == [] then None else Some(DigitsValue(d))
  }

  /**
   * parseInt(s): leading white space skipped, an optional sign, then
   * ParseUnsignedPrefix; None stands for NaN.
   */
  function JsParseInt(s: string): (r: Option<int>)
  {
    var t := TrimStart(s);
    if |t| > 0 && (t[0] == '-' || t[0] == '+') then
      match ParseUnsignedPrefix(t[1..])
      case None => None
      case Some(v) => var w: int := v; if t[0] == '-' then Some(-w) else Some(w)
    else
      match ParseUnsignedPrefix(t)
      case None => None
      case Some(v) => Some(v)
  }

  lemma {:induction false} DigitPrefixOfDigits(s: string)
    requires AllDigits(s)
    ensures DigitPrefix(s) == s
  {
    if s != [] {
      DigitPrefixOfDigits(s[1..]);
      assert [s[0]] + s[1..] == s;
    }
  }

  lemma ParseUnsignedPrefixOfNatToString(m: nat)
    ensures ParseUnsignedPrefix(NatToString(m)) == Some(m)
  {
    var u := NatToString(m);
    assert !(|u| >= 2 && u[0] == '0');
    DigitPrefixOfDigits(u);
    NatToStringValue(m);
  }

  /** A numeral is read with its sign and nothing skipped. */
  lemma JsParseIntSigned(sign: string, m: nat)
    requires sign == "" || sign == "-"
    ensures JsParseInt(sign + NatToString(m)) == Some(if sign == "-" then 0 - m as int else m as int)
  {
    var s := sign + NatToString(m);
    assert !IsJsSpace(s[0]) by {
      assert s[0] == '-' || IsDigit(s[0]);
    }
    assert TrimStart(s) == s;
    ParseUnsignedPrefixOfNatToString(m);
    if sign == "-" {
      assert s[1..] == NatToString(m);
    } else {
      assert s == NatToString(m);
    }
  }

  /** parseInt reads back what Number.prototype.toString wrote. */
  lemma JsParseIntOfIntToString(n: int)
    ensures JsParseInt(IntToString(n)) == Some(n)
  {
    if n < 0 {
      JsParseIntSigned("-", -n);
    } else {
      JsParseIntNatural(n);
    }
  }

  lemma JsParseIntNatural(n: nat)
    ensures JsParseInt(NatToString(n)) == Some(n as int)
  {
    JsParseIntSigned("", n);
    assert "" + NatToString(n) == NatToString(n);
  }
}

=== FILE: onboarding_form.dfy ===
/**
 * The interest-tag picker of onboarding (components/onboarding/OnboardingForm.tsx).
 * The offered tags are trimmed, blanks dropped and duplicates removed, then
 * grouped by keyword: a tag whose lower-cased text contains a category
 * keyword goes under "カテゴリ", one containing a benefit keyword under
 * "目的・ベネフィット" (a tag may be in both), and the rest under "その他".
 * Each group is sorted by the Japanese collation, which the model takes as
 * a comparator `le` that orders every pair consistently.
 *
 * The form keeps the selected tags and an error message; submitting sends
 * the selection, without duplicates, to the `onSubmit` callback.
 */
module OnboardingForm {
  import opened Common
  import opened Sorting

  /** The three groups, in the order they are shown. */
  datatype GroupKind = Category | Benefit | Other
  {
    /** The heading shown for the group. */
    function Label(): string
    {
      match this
      case Category => "カテゴリ"
      case Benefit => "目的・ベネフィット"
      case Other => "その他"
    }

    function Rank(): nat
    {
      match this
      case Category => 0
      case Benefit => 1
      case Other => 2
    }
  }

  /** A group under the heading `kind.Label()`. */
  datatype TagGroup = TagGroup(kind: GroupKind, tags: seq<string>)

  const CategoryKeywords: seq<string> := ["ai", "フィットネス", "ヘルス", "エコ", "ライフスタイル", "ガジェット", "アプリ"]
  const BenefitKeywords: seq<string> := ["プロダクティビティ", "習慣", "節約", "持続可能", "共創", "参加", "テスター", "レビュー"]

  /** The offered tags, each trimmed. */
  function TrimAll(tags: seq<string>): (r: seq<string>)
    ensures |r| == |tags| && forall i :: 0 <= i < |tags| ==> r[i] == Trim(tags[i])
  {
    seq(|tags|, i requires 0 <= i < |tags| => Trim(tags[i]))
  }

  predicate NonEmpty(tag: string)
  {
    |tag| > 0
  }

  /** The offered tags trimmed, blank ones dropped, in their order. */
  function NormalizeTags(tags: seq<string>): (r: seq<string>)
    ensures forall i :: 0 <= i < |r| ==> r[i] != "" && IsTrimmed(r[i])
    ensures forall t :: t in r <==> t != "" && exists i :: 0 <= i < |tags| && Trim(tags[i]) == t
  {
    var trimmed := TrimAll(tags);
    assert forall t :: t in trimmed <==> exists i :: 0 <= i < |tags| && Trim(tags[i]) == t;
    Filter(trimmed, NonEmpty)
  }

  /** Nothing is left exactly when every offered tag is blank. */
  lemma NormalizeTagsEmpty(tags: seq<string>)
    ensures NormalizeTags(tags) == [] <==> forall i :: 0 <= i < |tags| ==> IsBlank(tags[i])
  {
    var r := NormalizeTags(tags);
    if r != [] {
      assert r[0] in r;
    }
    if i :| 0 <= i < |tags| && !IsBlank(tags[i]) {
      assert Trim(tags[i]) in r;
    }
  }

  /** The lower-cased tag contains a category keyword (these are written in lower case). */
  predicate IsCategory(tag: string)
  {
    exists k :: k in CategoryKeywords && Includes(ToLower(tag), k)
  }

  /** The lower-cased tag contains a lower-cased benefit keyword. */
  predicate IsBenefit(tag: string)
  {
    exists k :: k in BenefitKeywords && Includes(ToLower(tag), ToLower(k))
  }

  predicate IsOther(tag: string)
  {
    !IsCategory(tag) && !IsBenefit(tag)
  }

  /** A group of `members`, when there is any: without duplicates, in collation order. */
  function GroupOf(kind: GroupKind, members: seq<string>, le: (string, string) -> bool): (g: seq<TagGroup>)
    requires TotalPreorder(le)
    ensures |g| <= 1
    ensures g != [] <==> members != []
    ensures g != [] ==> g[0].kind == kind && g[0].tags != [] && Distinct(g[0].tags) && Sorted(g[0].tags, le)
    ensures g != [] ==> forall t :: t in g[0].tags <==> t in members
  {
    if members == [] then []
    else
      var unique := Dedupe(members);
      var sorted := SortBy(unique, le);
      DistinctPermutation(unique, sorted);
      [TagGroup(kind, sorted)]
  }

  /** The tags of the first group of `kind`, if there is one. */
  function TagsOf(groups: seq<TagGroup>, kind: GroupKind): (r: Option<seq<string>>)
    ensures r.None? ==> forall g :: g in groups ==> g.kind != kind
    ensures r.Some? ==> TagGroup(kind, r.value) in groups
  {
    if groups == [] then None
    else if groups[0].kind == kind then Some(groups[0].tags)
    else TagsOf(groups[1..], kind)
  }

  lemma {:induction false} TagsOfAppend(a: seq<TagGroup>, b: seq<TagGroup>, kind: GroupKind)
    ensures TagsOf(a + b, kind) == if TagsOf(a, kind).Some? then TagsOf(a, kind) else TagsOf(b, kind)
  {
    if a == [] {
      assert a + b == b;
    } else {
      TagsOfAppend(a[1..], b, kind);
      assert (a + b)[1..] == a[1..] + b;
    }
  }

  /**
   * The group of `kind` exists exactly when some of `tags` satisfies `p`,
   * and then holds exactly those.
   */
  ghost predicate GroupHolds(groups: seq<TagGroup>, kind: GroupKind, tags: seq<string>, p: string -> bool)
  {
    match TagsOf(groups, kind)
    case None => forall t :: t in tags ==> !p(t)
    case Some(ts) => ts != [] && forall t :: t in ts <==> t in tags && p(t)
  }

  /** At most one group, of `kind`, holding exactly `members`, and present when they are. */
  ghost predicate GroupFor(g: seq<TagGroup>, kind: GroupKind, members: seq<string>)
  {
    && |g| <= 1 && (g != [] <==> members != [])
    && (g != [] ==> g[0].kind == kind && g[0].tags != [] && forall t :: t in g[0].tags <==> t in members)
  }

  /** A group placed among groups of other kinds holds exactly its members. */
  lemma GroupHoldsOf(before: seq<TagGroup>, g: seq<TagGroup>, after: seq<TagGroup>, kind: GroupKind,
                     members: seq<string>, tags: seq<string>, p: string -> bool)
    requires GroupFor(g, kind, members)
    requires TagsOf(before, kind).None? && TagsOf(after, kind).None?
    requires forall t :: t in members <==> t in tags && p(t)
    ensures GroupHolds(before + g + after, kind, tags, p)
  {
    TagsOfAppend(before, g, kind);
    TagsOfAppend(before + g, after, kind);
    if members == [] {
      forall t | t in tags ensures !p(t) {
        assert t !in members;
      }
    } else {
      assert TagsOf(g, kind) == Some(g[0].tags);
    }
  }

  /**
   * The groups of the matched tags, then of the unmatched ones; when
   * nothing is unmatched, all tags go under "その他" if no other group
   * exists (which the callers rule out).
   */
  function Assemble(unique: seq<string>, category: seq<string>, benefit: seq<string>, remaining: seq<string>,
                    le: (string, string) -> bool): (groups: seq<TagGroup>)
    requires TotalPreorder(le)
    requires remaining == [] ==> category != [] || benefit != []
    ensures groups == GroupOf(Category, category, le) + GroupOf(Benefit, benefit, le) + GroupOf(Other, remaining, le)
  {
    var groups := GroupOf(Category, category, le) + GroupOf(Benefit, benefit, le);
    var fallback := if remaining != [] then remaining else unique;
    groups + (if remaining != [] || groups == [] then GroupOf(Other, fallback, le) else [])
  }

  /** Each kind at most once, in the order categories, benefits, the rest. */
  predicate InKindOrder(groups: seq<TagGroup>)
  {
    forall i, j :: 0 <= i < j < |groups| ==> groups[i].kind.Rank() < groups[j].kind.Rank()
  }

  lemma InKindOrderAppend(a: seq<TagGroup>, b: seq<TagGroup>)
    requires InKindOrder(a) && InKindOrder(b)
    requires forall x, y :: x in a && y in b ==> x.kind.Rank() < y.kind.Rank()
    ensures InKindOrder(a + b)
  {
    forall i, j | 0 <= i < j < |a + b| ensures (a + b)[i].kind.Rank() < (a + b)[j].kind.Rank() {
      if j < |a| {
      } else if i < |a| {
        assert (a + b)[i] in a && (a + b)[j] in b;
      } else {
        assert (a + b)[i] == b[i - |a|] && (a + b)[j] == b[j - |a|];
      }
    }
  }

  /** A shown group: not empty, sorted, without duplicates, drawn from `tags`. */
  ghost predicate GoodGroup(g: TagGroup, le: (string, string) -> bool, tags: seq<string>)
  {
    g.tags != [] && Distinct(g.tags) && Sorted(g.tags, le) && forall t :: t in g.tags ==> t in tags
  }

  /** Groups in their kinds' order, each of them good. */
  ghost predicate WellGrouped(groups: seq<TagGroup>, le: (string, string) -> bool, tags: seq<string>)
  {
    InKindOrder(groups) && forall g :: g in groups ==> GoodGroup(g, le, tags)
  }

  /** The group of some of `tags` is good. */
  lemma GroupOfGood(kind: GroupKind, members: seq<string>, le: (string, string) -> bool, tags: seq<string>)
    requires TotalPreorder(le)
    requires forall t :: t in members ==> t in tags
    ensures forall g :: g in GroupOf(kind, members, le) ==> GoodGroup(g, le, tags)
  {
  }

  /** Three optional good groups, one of each kind, are well grouped. */
  lemma AssembledWellGrouped(g1: seq<TagGroup>, g2: seq<TagGroup>, g3: seq<TagGroup>,
                             le: (string, string) -> bool, tags: seq<string>)
    requires |g1| <= 1 && |g2| <= 1 && |g3| <= 1
    requires (g1 != [] ==> g1[0].kind == Category) && (g2 != [] ==> g2[0].kind == Benefit)
    requires g3 != [] ==> g3[0].kind == Other
    requires forall g :: g in g1 + g2 + g3 ==> GoodGroup(g, le, tags)
    ensures WellGrouped(g1 + g2 + g3, le, tags)
  {
    InKindOrderAppend(g1, g2);
    InKindOrderAppend(g1 + g2, g3);
  }

  /** Three optional groups, one of each kind, each hold their members. */
  lemma AssembledHolds(g1: seq<TagGroup>, g2: seq<TagGroup>, g3: seq<TagGroup>,
                       category: seq<string>, benefit: seq<string>, remaining: seq<string>, tags: seq<string>,
                       isCategory: string -> bool, isBenefit: string -> bool, isOther: string -> bool)
    requires GroupFor(g1, Category, category) && GroupFor(g2, Benefit, benefit) && GroupFor(g3, Other, remaining)
    requires forall t :: t in category <==> t in tags && isCategory(t)
    requires forall t :: t in benefit <==> t in tags && isBenefit(t)
    requires forall t :: t in remaining <==> t in tags && isOther(t)
    ensures GroupHolds(g1 + g2 + g3, Category, tags, isCategory)
    ensures GroupHolds(g1 + g2 + g3, Benefit, tags, isBenefit)
    ensures GroupHolds(g1 + g2 + g3, Other, tags, isOther)
  {
    CategoryPlaced(g1, g2, g3, category, benefit, remaining, tags, isCategory);
    BenefitPlaced(g1, g2, g3, category, benefit, remaining, tags, isBenefit);
    OtherPlaced(g1, g2, g3, category, benefit, remaining, tags, isOther);
  }

  lemma CategoryPlaced(g1: seq<TagGroup>, g2: seq<TagGroup>, g3: seq<TagGroup>,
                       category: seq<string>, benefit: seq<string>, remaining: seq<string>, tags: seq<string>,
                       isCategory: string -> bool)
    requires GroupFor(g1, Category, category) && GroupFor(g2, Benefit, benefit) && GroupFor(g3, Other, remaining)
    requires forall t :: t in category <==> t in tags && isCategory(t)
    ensures GroupHolds(g1 + g2 + g3, Category, tags, isCategory)
  {
    TagsOfAppend(g2, g3, Category);
    GroupHoldsOf([], g1, g2 + g3, Category, category, tags, isCategory);
    assert [] + g1 + (g2 + g3) == g1 + g2 + g3;
  }

  lemma BenefitPlaced(g1: seq<TagGroup>, g2: seq<TagGroup>, g3: seq<TagGroup>,
                      category: seq<string>, benefit: seq<string>, remaining: seq<string>, tags: seq<string>,
                      isBenefit: string -> bool)
    requires GroupFor(g1, Category, category) && GroupFor(g2, Benefit, benefit) && GroupFor(g3, Other, remaining)
    requires forall t :: t in benefit <==> t in tags && isBenefit(t)
    ensures GroupHolds(g1 + g2 + g3, Benefit, tags, isBenefit)
  {
    GroupHoldsOf(g1, g2, g3, Benefit, benefit, tags, isBenefit);
  }

  lemma OtherPlaced(g1: seq<TagGroup>, g2: seq<TagGroup>, g3: seq<TagGroup>,
                    category: seq<string>, benefit: seq<string>, remaining: seq<string>, tags: seq<string>,
                    isOther: string -> bool)
    requires GroupFor(g1, Category, category) && GroupFor(g2, Benefit, benefit) && GroupFor(g3, Other, remaining)
    requires forall t :: t in remaining <==> t in tags && isOther(t)
    ensures GroupHolds(g1 + g2 + g3, Other, tags, isOther)
  {
    TagsOfAppend(g1, g2, Other);
    GroupHoldsOf(g1 + g2, g3, [], Other, remaining, tags, isOther);
    assert g1 + g2 + g3 + [] == g1 + g2 + g3;
  }

  /**
   * The grouping of a non-empty list of normalized tags, for any two
   * matching rules: a group of the tags each rule matches, then one of the
   * tags neither matches (`isOther`).
   */
  function Grouped(normalized: seq<string>, isCategory: string -> bool, isBenefit: string -> bool,
                   isOther: string -> bool, le: (string, string) -> bool): (groups: seq<TagGroup>)
    requires TotalPreorder(le)
    requires normalized != []
    requires forall t :: isOther(t) <==> !isCategory(t) && !isBenefit(t)
    ensures groups != []
    ensures WellGrouped(groups, le, normalized)
    ensures GroupHolds(groups, Category, normalized, isCategory)
    ensures GroupHolds(groups, Benefit, normalized, isBenefit)
    ensures GroupHolds(groups, Other, normalized, isOther)
  {
    var unique := Dedupe(normalized);
    var category := Filter(unique, isCategory);
    var benefit := Filter(unique, isBenefit);
    var remaining := Filter(unique, t => t !in category && t !in benefit);
    assert remaining == [] ==> category != [] || benefit != [] by {
      if remaining == [] {
        assert normalized[0] in unique;
      }
    }
    ghost var g1, g2, g3 := GroupOf(Category, category, le), GroupOf(Benefit, benefit, le),
      GroupOf(Other, remaining, le);
    assert WellGrouped(g1 + g2 + g3, le, normalized) by {
      GroupOfGood(Category, category, le, normalized);
      GroupOfGood(Benefit, benefit, le, normalized);
      GroupOfGood(Other, remaining, le, normalized);
      AssembledWellGrouped(g1, g2, g3, le, normalized);
    }
    AssembledHolds(g1, g2, g3, category, benefit, remaining, normalized, isCategory, isBenefit, isOther);
    Assemble(unique, category, benefit, remaining, le)
  }

  /** `tagGroups`. */
  function TagGroups(tags: seq<string>, le: (string, string) -> bool): (groups: seq<TagGroup>)
    requires TotalPreorder(le)
    ensures groups == [] <==> forall i :: 0 <= i < |tags| ==> IsBlank(tags[i])
    ensures WellGrouped(groups, le, NormalizeTags(tags))
    ensures GroupHolds(groups, Category, NormalizeTags(tags), IsCategory)
    ensures GroupHolds(groups, Benefit, NormalizeTags(tags), IsBenefit)
    ensures GroupHolds(groups, Other, NormalizeTags(tags), IsOther)
  {
    var normalized := NormalizeTags(tags);
    NormalizeTagsEmpty(tags);
    if normalized == [] then []
    else
      Grouped(normalized, IsCategory, IsBenefit, IsOther, le)
  }

  /** Every grouped tag is trimmed and not empty. */
  lemma GroupedTagsTrimmed(tags: seq<string>, le: (string, string) -> bool, g: TagGroup, t: string)
    requires TotalPreorder(le)
    requires g in TagGroups(tags, le) && t in g.tags
    ensures t != "" && IsTrimmed(t)
  {
  }

  /** A tag that a group holds is in that group. */
  lemma HeldTagGrouped(groups: seq<TagGroup>, kind: GroupKind, tags: seq<string>, p: string -> bool, t: string)
    requires GroupHolds(groups, kind, tags, p) && t in tags && p(t)
    ensures exists g :: g in groups && t in g.tags
  {
    assert TagGroup(kind, TagsOf(groups, kind).value) in groups;
  }

  /** Every offered tag that is not blank is shown in some group. */
  lemma EveryTagGrouped(tags: seq<string>, le: (string, string) -> bool, t: string)
    requires TotalPreorder(le)
    requires t in NormalizeTags(tags)
    ensures exists g :: g in TagGroups(tags, le) && t in g.tags
  {
    var groups := TagGroups(tags, le);
    var normalized := NormalizeTags(tags);
    if IsCategory(t) {
      HeldTagGrouped(groups, Category, normalized, IsCategory, t);
    } else if IsBenefit(t) {
      HeldTagGrouped(groups, Benefit, normalized, IsBenefit, t);
    } else {
      HeldTagGrouped(groups, Other, normalized, IsOther, t);
    }
  }

  /** Grouping ignores case: a tag is grouped as its lower-cased form is. */
  lemma GroupingIgnoresCase(tag: string)
    ensures IsCategory(tag) <==> IsCategory(ToLower(tag))
    ensures IsBenefit(tag) <==> IsBenefit(ToLower(tag))
  {
    ToLowerIdempotent(tag);
  }

  /** The form's state. */
  class Form {
    var selectedTags: seq<string>
    var error: Option<string>
    /** The arguments `onSubmit` has been called with, oldest first. */
    var submitted: seq<seq<string>>
    /** Whether the page has been sent home (`router.replace('/')`). */
    var redirectedHome: bool

    constructor (defaultInterests: seq<string>)
      ensures selectedTags == defaultInterests && error == None && submitted == [] && !redirectedHome
    {
      selectedTags := defaultInterests;
      error := None;
      submitted := [];
      redirectedHome := false;
    }

    /** `toggleTag`: a selected tag is removed (every copy of it), another one appended. */
    method ToggleTag(tag: string)
      modifies this
      ensures selectedTags == Toggle(old(selectedTags), tag)
      ensures error == old(error) && submitted == old(submitted) && redirectedHome == old(redirectedHome)
      ensures tag in selectedTags <==> tag !in old(selectedTags)
      ensures Distinct(old(selectedTags)) ==> Distinct(selectedTags)
    {
      selectedTags := Toggle(selectedTags, tag);
    }

    /**
     * `handleSubmit`. An empty selection only sets the error. Otherwise the
     * error is cleared and `onSubmit` receives the selection without
     * duplicates; when it fails (`submitFails`) the error says so, else the
     * page goes home.
     */
    method HandleSubmit(submitFails: bool)
      modifies this
      ensures selectedTags == old(selectedTags)
      ensures old(selectedTags) == [] ==>
        && error == Some(EmptySelection)
        && submitted == old(submitted) && redirectedHome == old(redirectedHome)
      ensures old(selectedTags) != [] ==>
        && submitted == old(submitted) + [Dedupe(old(selectedTags))]
        && error == (if submitFails then Some(SaveFailed) else None)
        && redirectedHome == (old(redirectedHome) || !submitFails)
    {
      if |selectedTags| == 0 {
        error := Some(EmptySelection);
        return;
      }
      error := None;
      var uniqueTags := Dedupe(selectedTags);
      submitted := submitted + [uniqueTags];
      if submitFails {
        error := Some(SaveFailed);
      } else {
        redirectedHome := true;
      }
    }

    /** `handleSkip`. */
    method HandleSkip()
      modifies this
      ensures redirectedHome
      ensures selectedTags == old(selectedTags) && error == old(error) && submitted == old(submitted)
    {
      redirectedHome := true;
    }
  }

  const EmptySelection := "最低でも1つ以上の興味タグを選択してください。"
  const SaveFailed := "タグの保存に失敗しました。時間をおいて再度お試しください。"

  /** What `onSubmit` receives holds every selected tag once, in the order first selected. */
  lemma SubmittedSelection(selected: seq<string>, more: seq<string>)
    ensures Distinct(Dedupe(selected))
    ensures forall t :: t in Dedupe(selected) <==> t in selected
    ensures |Dedupe(selected)| <= |Dedupe(selected + more)|
    ensures Dedupe(selected + more)[..|Dedupe(selected)|] == Dedupe(selected)
  {
    DedupePrefix(selected, more);
  }
}

=== FILE: onboarding_page.dfy ===
/**
 * The data loading of the onboarding page (app/onboarding/page.tsx).
 *
 * `fetchAvailableTags` reads the `tags` column of every ad and collects the
 * string entries, trimmed and not blank, into an insertion-ordered Set;
 * when the query fails or gives no usable tag, the tags of the mock ads are
 * collected instead. The result is sorted by the Japanese collation, taken
 * as a comparator `le`. `fetchUserInterests` reads the caller's stored
 * interests, with [] for every failure.
 */
module OnboardingPage {
  import opened Common
  import opened Schema
  import opened Sorting
  import opened Store
  import opened Participation

  /** An entry of a row's `tags` array, which the query does not type. */
  datatype TagValue = Text(text: string) | NotText

  /** A row of the query: its `tags` array, None when the row or its tags are null. */
  type TagRow = Option<seq<TagValue>>

  /** `row?.tags || []`. */
  function Entries(row: TagRow): seq<TagValue>
  {
    if row.Some? then row.value else []
  }

  /** What one entry adds: its trimmed text, when it is a string that is not blank. */
  function Usable(v: TagValue): (r: seq<string>)
    ensures |r| <= 1
  {
    if v.Text? && |Trim(v.text)| > 0 then [Trim(v.text)] else []
  }

  /** The usable tags of one row, in order. */
  function RowTags(row: TagRow): seq<string>
  {
    FlatMap(Entries(row), Usable)
  }

  /** The usable tags of all rows, row by row. */
  function RowsTags(rows: seq<TagRow>): seq<string>
  {
    FlatMap(rows, RowTags)
  }

  /** The usable tags of one row are its entries' usable texts. */
  lemma RowTagsMembers(row: TagRow, t: string)
    ensures t in RowTags(row) <==> exists k :: 0 <= k < |Entries(row)| && Usable(Entries(row)[k]) == [t]
  {
    var entries := Entries(row);
    FlatMapMembers(entries, Usable, t);
    if t in RowTags(row) {
      var k :| 0 <= k < |entries| && t in Usable(entries[k]);
      UsableMember(entries[k], t);
    }
    if k :| 0 <= k < |entries| && Usable(entries[k]) == [t] {
      UsableMember(entries[k], t);
    }
  }

  lemma UsableMember(v: TagValue, t: string)
    ensures t in Usable(v) <==> Usable(v) == [t]
  {
  }

  /**
   * The rows' usable tags are exactly the trimmed string entries of some
   * row that are not blank; entries that are not strings are skipped.
   */
  lemma RowsTagsMembers(rows: seq<TagRow>, t: string)
    ensures t in RowsTags(rows) <==>
      exists i, k :: 0 <= i < |rows| && 0 <= k < |Entries(rows[i])| && Usable(Entries(rows[i])[k]) == [t]
  {
    FlatMapMembers(rows, RowTags, t);
    if t in RowsTags(rows) {
      var i :| 0 <= i < |rows| && t in RowTags(rows[i]);
      RowTagsMembers(rows[i], t);
    }
    if i, k :| 0 <= i < |rows| && 0 <= k < |Entries(rows[i])| && Usable(Entries(rows[i])[k]) == [t] {
      RowTagsMembers(rows[i], t);
    }
  }

  /** What one mock tag adds: it trimmed, when it is not blank. */
  function UsableText(tag: string): (r: seq<string>)
    ensures |r| <= 1
  {
    if |Trim(tag)| > 0 then [Trim(tag)] else []
  }

  function MockAdTags(tags: seq<string>): seq<string>
  {
    FlatMap(tags, UsableText)
  }

  /** The usable tags of the mock ads, ad by ad. */
  function MockTags(ads: seq<seq<string>>): seq<string>
  {
    FlatMap(ads, MockAdTags)
  }

  /** The mock ads' usable tags are exactly their tags trimmed, blank ones left out. */
  lemma MockTagsMembers(ads: seq<seq<string>>, t: string)
    ensures t in MockTags(ads) <==>
      t != "" && exists i, k :: 0 <= i < |ads| && 0 <= k < |ads[i]| && Trim(ads[i][k]) == t
  {
    FlatMapMembers(ads, MockAdTags, t);
    if t in MockTags(ads) {
      var i :| 0 <= i < |ads| && t in MockAdTags(ads[i]);
      FlatMapMembers(ads[i], UsableText, t);
      var k :| 0 <= k < |ads[i]| && t in UsableText(ads[i][k]);
      assert Trim(ads[i][k]) == t;
    }
    if i, k :| 0 <= i < |ads| && 0 <= k < |ads[i]| && Trim(ads[i][k]) == t && t != "" {
      assert t in UsableText(ads[i][k]);
      FlatMapMembers(ads[i], UsableText, t);
      assert t in MockAdTags(ads[i]);
    }
  }

  /** Every collected tag is trimmed and not blank. */
  lemma CollectedTrimmed(rows: seq<TagRow>, ads: seq<seq<string>>, t: string)
    requires t in RowsTags(rows) || t in MockTags(ads)
    ensures t != "" && IsTrimmed(t)
  {
    RowsTagsMembers(rows, t);
    MockTagsMembers(ads, t);
    if t in RowsTags(rows) {
      var i, k :| 0 <= i < |rows| && 0 <= k < |Entries(rows[i])| && Usable(Entries(rows[i])[k]) == [t];
      assert t in Usable(Entries(rows[i])[k]);
    }
  }

  /** The query found a usable tag. */
  predicate QueryFound(rows: Option<seq<TagRow>>, readFailed: bool)
  {
    !readFailed && rows.Some? && RowsTags(rows.value) != []
  }

  /**
   * The tags offered: those of the ads when the query found any, else those
   * of the mock ads; each once, trimmed and not blank, in collation order.
   */
  function AvailableTags(rows: Option<seq<TagRow>>, readFailed: bool, mockAds: seq<seq<string>>,
                         le: (string, string) -> bool): (r: seq<string>)
    requires TotalPreorder(le)
    ensures Distinct(r) && Sorted(r, le)
    ensures forall t :: t in r ==> t != "" && IsTrimmed(t)
    ensures QueryFound(rows, readFailed) ==> forall t :: t in r <==> t in RowsTags(rows.value)
    ensures !QueryFound(rows, readFailed) ==> forall t :: t in r <==> t in MockTags(mockAds)
  {
    var found := if !readFailed && rows.Some? then Dedupe(RowsTags(rows.value)) else [];
    var tagSet := if found == [] then Dedupe(MockTags(mockAds)) else found;
    var r := SortBy(tagSet, le);
    forall t | t in r ensures t != "" && IsTrimmed(t) {
      CollectedTrimmed(if rows.Some? then rows.value else [], mockAds, t);
    }
    assert found == [] <==> !QueryFound(rows, readFailed) by {
      if QueryFound(rows, readFailed) {
        assert RowsTags(rows.value)[0] in found;
      }
    }
    DistinctPermutation(tagSet, r);
    r
  }

  /** The first pair of loops of `fetchAvailableTags`: the usable tags of the rows, into a Set. */
  method CollectRowTags(tagRows: seq<TagRow>) returns (tagSet: seq<string>)
    ensures tagSet == Dedupe(RowsTags(tagRows))
  {
    tagSet := [];
    var i := 0;
    while i < |tagRows|
      invariant 0 <= i <= |tagRows|
      invariant tagSet == Dedupe(RowsTags(tagRows[..i]))
    {
      var entries := Entries(tagRows[i]);
      ghost var done := RowsTags(tagRows[..i]);
      var j := 0;
      assert done + FlatMap(entries[..0], Usable) == done;
      while j < |entries|
        invariant 0 <= j <= |entries|
        invariant tagSet == Dedupe(done + FlatMap(entries[..j], Usable))
      {
        // `typeof tag === 'string' && tag.trim().length > 0`, then `tagSet.add(tag.trim())`
        var usable := Usable(entries[j]);
        CollectStep(done, entries, j, Usable);
        if usable != [] && usable[0] !in tagSet {
          tagSet := tagSet + usable;
        }
        j := j + 1;
      }
      assert entries[..j] == entries;
      FlatMapPrefix(tagRows, i, RowTags);
      i := i + 1;
    }
    assert tagRows[..i] == tagRows;
  }

  /** The second pair of loops: the usable tags of the mock ads, into a Set. */
  method CollectMockTags(mockAds: seq<seq<string>>) returns (tagSet: seq<string>)
    ensures tagSet == Dedupe(MockTags(mockAds))
  {
    tagSet := [];
    var i := 0;
    while i < |mockAds|
      invariant 0 <= i <= |mockAds|
      invariant tagSet == Dedupe(MockTags(mockAds[..i]))
    {
      var adTags := mockAds[i];
      ghost var done := MockTags(mockAds[..i]);
      var j := 0;
      assert done + FlatMap(adTags[..0], UsableText) == done;
      while j < |adTags|
        invariant 0 <= j <= |adTags|
        invariant tagSet == Dedupe(done + FlatMap(adTags[..j], UsableText))
      {
        var tag := adTags[j];
        CollectStep(done, adTags, j, UsableText);
        if |Trim(tag)| > 0 {
          if Trim(tag) !in tagSet {
            tagSet := tagSet + [Trim(tag)];
          }
        }
        j := j + 1;
      }
      assert adTags[..j] == adTags;
      assert done + MockAdTags(adTags) == MockTags(mockAds[..i + 1]) by {
        FlatMapPrefix(mockAds, i, MockAdTags);
      }
      i := i + 1;
    }
    assert mockAds[..i] == mockAds;
  }

  /** `fetchAvailableTags`: the rows' tags, the mock ads' when there are none, sorted. */
  method FetchAvailableTags(rows: Option<seq<TagRow>>, readFailed: bool, mockAds: seq<seq<string>>,
                            le: (string, string) -> bool) returns (tags: seq<string>)
    requires TotalPreorder(le)
    ensures tags == AvailableTags(rows, readFailed, mockAds, le)
  {
    var tagSet: seq<string> := [];
    if !readFailed && rows.Some? {
      tagSet := CollectRowTags(rows.value);
    }
    if |tagSet| == 0 {
      tagSet := CollectMockTags(mockAds);
    }
    tags := SortBy(tagSet, le);
  }

  /**
   * `fetchUserInterests`: the caller's stored interests; [] when the read
   * fails, when the caller has no row (or several), or when none are stored.
   */
  function FetchUserInterests(t: Tables, userId: Id, readFails: bool): (r: seq<string>)
    ensures readFails ==> r == []
    ensures Count(t.users, UserWithId(userId)) != 1 ==> r == []
    ensures !readFails && Count(t.users, UserWithId(userId)) == 1 ==>
      var row := Filter(t.users, UserWithId(userId))[0];
      r == if row.interests.Some? then row.interests.value else []
  {
    if readFails then []
    else
      match Single(Filter(t.users, UserWithId(userId)))
      case None => []
      case Some(row) => if row.interests.Some? then row.interests.value else []
  }

  /** What the form saves through updateUserInterests is what the page reads back next time. */
  lemma SavedInterestsReadBack(t: Tables, userId: Id, interests: seq<string>)
    requires UpdateUserInterestsSpec(t, Some(userId), interests, None).result.Ok?
    ensures FetchUserInterests(UpdateUserInterestsSpec(t, Some(userId), interests, None).tables, userId, false)
      == interests
  {
    var p := UserWithId(userId);
    FilterUpdateWhere(t.users, p, SetInterests(interests));
  }
}

=== FILE: participation.dfy ===
/**
 * The participation server actions (lib/actions/participation.ts): posting
 * a comment or a UGC item, answering a survey, applying to a tester
 * campaign, submitting a tester report, and saving the user's interests.
 *
 * Every action is written twice: as a function from the store's value
 * before the call to an `Outcome` (the store after it and the result or the
 * thrown message), which the lemmas below reason about, and as a method
 * that performs the same checks and writes step by step on a `Database`
 * and is proved to agree with that function.
 *
 * What the code cannot see is a parameter: the signed-in user (`None` when
 * there is none), the failure of a read (`...ReadFails`), the error a
 * primary write reports (`...Error`), whether a best-effort write went
 * through (`...Written`), and the store's clock (`now`).
 */
module Participation {
  import opened Common
  import opened Schema
  import opened Store

  const NoActiveSurvey := "No active survey found"
  const NoOpenCampaign := "No open tester campaign found"
  const AlreadyApplied := "You have already applied to this campaign"
  const CampaignFull := "Campaign is full"
  const NoSelectedApplication := "No selected application found"

  /**
   * Postgres's error when one upsert batch proposes the same conflict key
   * twice (SQLSTATE 21000).
   */
  const UpsertSameKeyTwice := "ON CONFLICT DO UPDATE command cannot affect row a second time"

  /** The column default of ugc.quality_score, which the insert does not set. */
  const DefaultQualityScore := 0

  /**
   * The ad_exposures insert that follows every successful submission: its
   * outcome is not looked at, so it is appended only when `written`.
   */
  function LogExposure(t: Tables, adId: Id, userId: Id, written: bool, now: Timestamp): Tables
  {
    if written then t.(exposures := t.exposures + [ExposureRow(adId, userId, now)]) else t
  }

  /** The exposure log grows by the one row (ad, user) when the insert went through, and nothing else changes. */
  function ExposureAdded(t: Tables, adId: Id, userId: Id, written: bool, now: Timestamp): seq<ExposureRow>
  {
    t.exposures + (if written then [ExposureRow(adId, userId, now)] else [])
  }

  // ---------------------------------------------------------------------------
  // createComment

  function CreateCommentSpec(t: Tables, user: Option<Id>, adId: Id, content: string, parentId: Option<Id>,
                             insertError: Option<string>, exposureWritten: bool, now: Timestamp): (o: Outcome<CommentRow>)
    ensures WellFormed(t) ==> WellFormed(o.tables)
    ensures o.result.Err? ==> o.tables == t
    ensures user.None? ==> o.result == Err(Unauthorized)
    ensures user.Some? && insertError.Some? ==> o.result == Err(insertError.value)
    ensures o.result.Ok? ==>
      var c := o.result.value;
      && user.Some? && insertError.None?
      && c.id == t.nextId && c.adId == adId && c.userId == user.value && c.parentId == parentId
      && c.content == Trim(content) && IsTrimmed(c.content)
      && c.status == ReviewStatus.Pending && !c.isPinned
      && o.tables.comments == t.comments + [c]
      && o.tables.exposures == ExposureAdded(t, adId, user.value, exposureWritten, now)
      && o.tables == t.(comments := o.tables.comments, exposures := o.tables.exposures, nextId := t.nextId + 1)
  {
    if user.None? then Outcome(t, Err(Unauthorized))
    else if insertError.Some? then Outcome(t, Err(insertError.value))
    else
      var c := CommentRow(t.nextId, adId, user.value, Trim(content), ReviewStatus.Pending, false, parentId, now);
      var u := t.(comments := t.comments + [c], nextId := t.nextId + 1);
      assert WellFormed(t) ==> WellFormed(u) by {
        if WellFormed(t) {
          AppendFresh(t.comments, CommentId, t.nextId, c);
          AdvanceAll(t, t.nextId + 1);
        }
      }
      Outcome(LogExposure(u, adId, user.value, exposureWritten, now), Ok(c))
  }

  method CreateComment(db: Database, user: Option<Id>, adId: Id, content: string, parentId: Option<Id>,
                       insertError: Option<string>, exposureWritten: bool, now: Timestamp)
    returns (r: Result<CommentRow>)
    requires db.Valid()
    modifies db
    ensures db.Valid()
    ensures Outcome(db.Snapshot(), r)
      == CreateCommentSpec(old(db.Snapshot()), user, adId, content, parentId, insertError, exposureWritten, now)
  {
    if user.None? {
      return Err(Unauthorized);
    }
    if insertError.Some? {
      return Err(insertError.value);
    }
    ghost var spec := CreateCommentSpec(db.Snapshot(), user, adId, content, parentId, insertError, exposureWritten, now);
    var row := CommentRow(db.nextId, adId, user.value, Trim(content), ReviewStatus.Pending, false, parentId, now);
    db.comments := db.comments + [row];
    db.nextId := db.nextId + 1;
    if exposureWritten {
      db.exposures := db.exposures + [ExposureRow(adId, user.value, now)];
    }
    assert db.Snapshot() == spec.tables;
    r := Ok(row);
  }

  // ---------------------------------------------------------------------------
  // submitUGC

  function SubmitUgcSpec(t: Tables, user: Option<Id>, adId: Id, mediaUrl: string, kind: MediaKind,
                         insertError: Option<string>, exposureWritten: bool, now: Timestamp): (o: Outcome<UgcRow>)
    ensures WellFormed(t) ==> WellFormed(o.tables)
    ensures o.result.Err? ==> o.tables == t
    ensures user.None? ==> o.result == Err(Unauthorized)
    ensures user.Some? && insertError.Some? ==> o.result == Err(insertError.value)
    ensures o.result.Ok? ==>
      var g := o.result.value;
      && user.Some? && insertError.None?
      && g.id == t.nextId && g.adId == adId && g.userId == user.value
      && g.mediaUrl == mediaUrl && g.kind == kind
      && g.status == ReviewStatus.Pending && !g.prBadge
      && o.tables.ugc == t.ugc + [g]
      && o.tables.exposures == ExposureAdded(t, adId, user.value, exposureWritten, now)
      && o.tables == t.(ugc := o.tables.ugc, exposures := o.tables.exposures, nextId := t.nextId + 1)
  {
    if user.None? then Outcome(t, Err(Unauthorized))
    else if insertError.Some? then Outcome(t, Err(insertError.value))
    else
      var g := UgcRow(t.nextId, adId, user.value, mediaUrl, kind, ReviewStatus.Pending, DefaultQualityScore, false, now);
      var u := t.(ugc := t.ugc + [g], nextId := t.nextId + 1);
      assert WellFormed(t) ==> WellFormed(u) by {
        if WellFormed(t) {
          AppendFresh(t.ugc, UgcId, t.nextId, g);
          AdvanceAll(t, t.nextId + 1);
        }
      }
      Outcome(LogExposure(u, adId, user.value, exposureWritten, now), Ok(g))
  }

  method SubmitUgc(db: Database, user: Option<Id>, adId: Id, mediaUrl: string, kind: MediaKind,
                   insertError: Option<string>, exposureWritten: bool, now: Timestamp)
    returns (r: Result<UgcRow>)
    requires db.Valid()
    modifies db
    ensures db.Valid()
    ensures Outcome(db.Snapshot(), r)
      == SubmitUgcSpec(old(db.Snapshot()), user, adId, mediaUrl, kind, insertError, exposureWritten, now)
  {
    if user.None? {
      return Err(Unauthorized);
    }
    if insertError.Some? {
      return Err(insertError.value);
    }
    ghost var t := db.Snapshot();
    ghost var spec := SubmitUgcSpec(t, user, adId, mediaUrl, kind, insertError, exposureWritten, now);
    var row := UgcRow(db.nextId, adId, user.value, mediaUrl, kind, ReviewStatus.Pending, DefaultQualityScore, false, now);
    db.ugc := db.ugc + [row];
    db.nextId := db.nextId + 1;
    if exposureWritten {
      db.exposures := db.exposures + [ExposureRow(adId, user.value, now)];
    }
    assert db.Snapshot() == spec.tables;
    r := Ok(row);
  }

  // ---------------------------------------------------------------------------
  // submitSurveyAnswers

  /** One element of the answers array; a field left out is `None`. */
  datatype AnswerInput = AnswerInput(questionId: Id, answerText: Option<string>, answerOptions: Option<seq<string>>)

  /** What the store holds under one conflict key. */
  datatype Answer = Answer(text: Option<string>, options: Option<seq<string>>)

  /** `answer_text || null`: an absent and an empty text are both stored as null. */
  function TextOrNull(s: Option<string>): (r: Option<string>)
    ensures r.Some? <==> s.Some? && s.value != ""
    ensures r.Some? ==> r == s
  {
    if s.Some? && s.value != "" then s else None
  }

  function ActiveSurveyOf(adId: Id): SurveyRow -> bool
  {
    (s: SurveyRow) => s.adId == adId && s.status == SurveyStatus.Active
  }

  /** The `.single()` read of the ad's active survey. */
  function FindActiveSurvey(t: Tables, adId: Id, readFails: bool): Option<SurveyRow>
  {
    if readFails then None else Single(Filter(t.surveys, ActiveSurveyOf(adId)))
  }

  function QuestionIds(answers: seq<AnswerInput>): (q: seq<Id>)
    ensures |q| == |answers| && forall i :: 0 <= i < |answers| ==> q[i] == answers[i].questionId
  {
    seq(|answers|, i requires 0 <= i < |answers| => answers[i].questionId)
  }

  /** The answers table read as a map from (survey, question, user) to the answer held there. */
  function AnswerView(rows: seq<SurveyAnswerRow>): map<(Id, Id, Id), Answer>
  {
    if rows == [] then map[]
    else
      var last := rows[|rows| - 1];
      AnswerView(rows[..|rows| - 1])[AnswerKey(last) := Answer(last.answerText, last.answerOptions)]
  }

  /** The batch read as the same kind of map, as it is to be stored. */
  function BatchView(surveyId: Id, userId: Id, answers: seq<AnswerInput>): map<(Id, Id, Id), Answer>
  {
    if answers == [] then map[]
    else
      var last := answers[|answers| - 1];
      BatchView(surveyId, userId, answers[..|answers| - 1])
        [(surveyId, last.questionId, userId) := Answer(TextOrNull(last.answerText), last.answerOptions)]
  }

  /** The position of the row holding key `k`, if there is one. */
  function FindKey(rows: seq<SurveyAnswerRow>, k: (Id, Id, Id)): (i: Option<nat>)
    ensures i.Some? ==> i.value < |rows| && AnswerKey(rows[i.value]) == k
    ensures i.None? ==> forall j :: 0 <= j < |rows| ==> AnswerKey(rows[j]) != k
  {
    if rows == [] then None
    else if AnswerKey(rows[|rows| - 1]) == k then Some(|rows| - 1)
    else FindKey(rows[..|rows| - 1], k)
  }

  /** The answers table during the upsert, with the rows written so far. */
  datatype UpsertState = UpsertState(rows: seq<SurveyAnswerRow>, nextId: Id, written: seq<SurveyAnswerRow>)

  /** One proposed row: overwrite the answer held under its key, or insert a new row. */
  function UpsertRow(s: UpsertState, surveyId: Id, userId: Id, a: AnswerInput, now: Timestamp): UpsertState
  {
    var k := (surveyId, a.questionId, userId);
    var text := TextOrNull(a.answerText);
    match FindKey(s.rows, k)
    case Some(i) =>
      var r := s.rows[i].(answerText := text, answerOptions := a.answerOptions);
      UpsertState(s.rows[i := r], s.nextId, s.written + [r])
    case None =>
      var r := SurveyAnswerRow(s.nextId, surveyId, a.questionId, userId, text, a.answerOptions, now);
      UpsertState(s.rows + [r], s.nextId + 1, s.written + [r])
  }

  /** `.upsert(rows, { onConflict: 'survey_id,question_id,user_id' })`, row by row in order. */
  function UpsertAll(s: UpsertState, surveyId: Id, userId: Id, answers: seq<AnswerInput>, now: Timestamp): (r: UpsertState)
    ensures |r.written| == |s.written| + |answers|
    ensures r.nextId >= s.nextId
  {
    if answers == [] then s
    else UpsertRow(UpsertAll(s, surveyId, userId, answers[..|answers| - 1], now), surveyId, userId, answers[|answers| - 1], now)
  }

  /** Rewriting the row that holds key `k` rewrites that entry of the map view and no other. */
  lemma {:induction false} AnswerViewUpdate(rows: seq<SurveyAnswerRow>, i: nat, r: SurveyAnswerRow)
    requires KeysUnique(rows, AnswerKey)
    requires i < |rows| && AnswerKey(rows[i]) == AnswerKey(r)
    ensures KeysUnique(rows[i := r], AnswerKey)
    ensures AnswerView(rows[i := r]) == AnswerView(rows)[AnswerKey(r) := Answer(r.answerText, r.answerOptions)]
    decreases |rows|
  {
    var n := |rows| - 1;
    var u := rows[i := r];
    assert u[..n] == (if i == n then rows[..n] else rows[..n][i := r]);
    if i < n {
      AnswerViewUpdate(rows[..n], i, r);
      assert AnswerKey(rows[n]) != AnswerKey(r);
    }
  }

  /** Upserting one row keeps keys unique and fresh, and updates the map view at that row's key. */
  lemma UpsertRowView(s: UpsertState, surveyId: Id, userId: Id, a: AnswerInput, now: Timestamp)
    requires KeysUnique(s.rows, AnswerKey) && KeyedTable(s.rows, AnswerId, s.nextId)
    ensures var s' := UpsertRow(s, surveyId, userId, a, now);
      && KeysUnique(s'.rows, AnswerKey) && KeyedTable(s'.rows, AnswerId, s'.nextId)
      && s'.nextId >= s.nextId
      && AnswerView(s'.rows)
         == AnswerView(s.rows)[(surveyId, a.questionId, userId) := Answer(TextOrNull(a.answerText), a.answerOptions)]
  {
    var k := (surveyId, a.questionId, userId);
    var s' := UpsertRow(s, surveyId, userId, a, now);
    match FindKey(s.rows, k)
    case Some(i) =>
      AnswerViewUpdate(s.rows, i, s'.rows[i]);
      UpdateKeepsIdsAt(s.rows, i, s'.rows[i], s.nextId);
    case None =>
      var r := s'.rows[|s'.rows| - 1];
      assert s'.rows == s.rows + [r];
      AppendFresh(s.rows, AnswerId, s.nextId, r);
      assert s'.rows[..|s'.rows| - 1] == s.rows;
  }

  lemma UpdateKeepsIdsAt(rows: seq<SurveyAnswerRow>, i: nat, r: SurveyAnswerRow, next: Id)
    requires KeyedTable(rows, AnswerId, next) && i < |rows| && r.id == rows[i].id
    ensures KeyedTable(rows[i := r], AnswerId, next)
  {
    var u := rows[i := r];
    forall j, l | 0 <= j < l < |u| ensures AnswerId(u[j]) != AnswerId(u[l]) {
      assert AnswerId(u[j]) == AnswerId(rows[j]) && AnswerId(u[l]) == AnswerId(rows[l]);
    }
  }

  /**
   * The whole upsert: when the batch names every question at most once, the
   * stored answers become the old ones overridden by the batch, keys stay
   * unique, and ids stay fresh.
   */
  lemma {:induction false} UpsertAllView(s: UpsertState, surveyId: Id, userId: Id, answers: seq<AnswerInput>, now: Timestamp)
    requires KeysUnique(s.rows, AnswerKey) && KeyedTable(s.rows, AnswerId, s.nextId)
    ensures var s' := UpsertAll(s, surveyId, userId, answers, now);
      && KeysUnique(s'.rows, AnswerKey) && KeyedTable(s'.rows, AnswerId, s'.nextId)
      && AnswerView(s'.rows) == AnswerView(s.rows) + BatchView(surveyId, userId, answers)
    decreases |answers|
  {
    if answers != [] {
      var init := answers[..|answers| - 1];
      var last := answers[|answers| - 1];
      UpsertAllView(s, surveyId, userId, init, now);
      var m := UpsertAll(s, surveyId, userId, init, now);
      UpsertRowView(m, surveyId, userId, last, now);
      var k := (surveyId, last.questionId, userId);
      var v := Answer(TextOrNull(last.answerText), last.answerOptions);
      assert UpsertAll(s, surveyId, userId, answers, now) == UpsertRow(m, surveyId, userId, last, now);
      assert BatchView(surveyId, userId, answers) == BatchView(surveyId, userId, init)[k := v];
      UnionUpdate(AnswerView(s.rows), BatchView(surveyId, userId, init), k, v);
    }
  }

  /** Overriding after a union is overriding the right operand. */
  lemma UnionUpdate<K, V>(a: map<K, V>, b: map<K, V>, k: K, v: V)
    ensures (a + b)[k := v] == a + b[k := v]
  {
  }

  function SubmitSurveyAnswersSpec(t: Tables, user: Option<Id>, adId: Id, answers: seq<AnswerInput>,
                                   surveyReadFails: bool, upsertError: Option<string>,
                                   exposureWritten: bool, now: Timestamp): (o: Outcome<seq<SurveyAnswerRow>>)
    ensures WellFormed(t) ==> WellFormed(o.tables)
    ensures o.result.Err? ==> o.tables == t
    ensures user.None? ==> o.result == Err(Unauthorized)
    ensures user.Some? && FindActiveSurvey(t, adId, surveyReadFails).None? ==> o.result == Err(NoActiveSurvey)
    ensures user.Some? && FindActiveSurvey(t, adId, surveyReadFails).Some? && !Distinct(QuestionIds(answers))
            ==> o.result == Err(UpsertSameKeyTwice)
    ensures user.Some? && FindActiveSurvey(t, adId, surveyReadFails).Some? && Distinct(QuestionIds(answers))
            ==> (upsertError.Some? ==> o.result == Err(upsertError.value)) && (upsertError.None? ==> o.result.Ok?)
    ensures o.result.Ok? ==>
      && user.Some? && FindActiveSurvey(t, adId, surveyReadFails).Some?
      && Distinct(QuestionIds(answers)) && upsertError.None?
      && |o.result.value| == |answers|
      && (WellFormed(t) ==>
            AnswerView(o.tables.surveyAnswers)
            == AnswerView(t.surveyAnswers)
               + BatchView(FindActiveSurvey(t, adId, surveyReadFails).value.id, user.value, answers))
      && o.tables.exposures == ExposureAdded(t, adId, user.value, exposureWritten, now)
      && o.tables == t.(surveyAnswers := o.tables.surveyAnswers, exposures := o.tables.exposures,
                        nextId := o.tables.nextId)
  {
    if user.None? then Outcome(t, Err(Unauthorized))
    else
      match FindActiveSurvey(t, adId, surveyReadFails)
      case None => Outcome(t, Err(NoActiveSurvey))
      case Some(survey) =>
        if !Distinct(QuestionIds(answers)) then Outcome(t, Err(UpsertSameKeyTwice))
        else if upsertError.Some? then Outcome(t, Err(upsertError.value))
        else
          var s := UpsertAll(UpsertState(t.surveyAnswers, t.nextId, []), survey.id, user.value, answers, now);
          var u := t.(surveyAnswers := s.rows, nextId := s.nextId);
          assert WellFormed(t) ==>
                   && WellFormed(u)
                   && AnswerView(s.rows) == AnswerView(t.surveyAnswers) + BatchView(survey.id, user.value, answers) by {
            if WellFormed(t) {
              UpsertAllView(UpsertState(t.surveyAnswers, t.nextId, []), survey.id, user.value, answers, now);
              AdvanceAll(t, s.nextId);
            }
          }
          Outcome(LogExposure(u, adId, user.value, exposureWritten, now), Ok(s.written))
  }

  method SubmitSurveyAnswers(db: Database, user: Option<Id>, adId: Id, answers: seq<AnswerInput>,
                             surveyReadFails: bool, upsertError: Option<string>,
                             exposureWritten: bool, now: Timestamp)
    returns (r: Result<seq<SurveyAnswerRow>>)
    requires db.Valid()
    modifies db
    ensures db.Valid()
    ensures Outcome(db.Snapshot(), r)
      == SubmitSurveyAnswersSpec(old(db.Snapshot()), user, adId, answers, surveyReadFails, upsertError, exposureWritten, now)
  {
    if user.None? {
      return Err(Unauthorized);
    }
    var survey := FindActiveSurvey(db.Snapshot(), adId, surveyReadFails);
    if survey.None? {
      return Err(NoActiveSurvey);
    }
    if !Distinct(QuestionIds(answers)) {
      return Err(UpsertSameKeyTwice);
    }
    if upsertError.Some? {
      return Err(upsertError.value);
    }
    var s := UpsertAll(UpsertState(db.surveyAnswers, db.nextId, []), survey.value.id, user.value, answers, now);
    db.surveyAnswers := s.rows;
    db.nextId := s.nextId;
    if exposureWritten {
      db.exposures := db.exposures + [ExposureRow(adId, user.value, now)];
    }
    assert db.Snapshot() == SubmitSurveyAnswersSpec(old(db.Snapshot()), user, adId, answers, surveyReadFails, upsertError, exposureWritten, now).tables;
    r := Ok(s.written);
  }

  // ---------------------------------------------------------------------------
  // applyToTesterCampaign

  function OpenCampaignOf(adId: Id): CampaignRow -> bool
  {
    (c: CampaignRow) => c.adId == adId && c.status == CampaignStatus.Open
  }

  function ApplicationOf(campaignId: Id, userId: Id): ApplicantRow -> bool
  {
    (a: ApplicantRow) => a.campaignId == campaignId && a.userId == userId
  }

  function ApplicantOf(campaignId: Id): ApplicantRow -> bool
  {
    (a: ApplicantRow) => a.campaignId == campaignId
  }

  /** The `.single()` read of the ad's open campaign. */
  function FindOpenCampaign(t: Tables, adId: Id, readFails: bool): Option<CampaignRow>
  {
    if readFails then None else Single(Filter(t.campaigns, OpenCampaignOf(adId)))
  }

  /** The `.single()` read of the user's earlier application; a failed read finds nothing. */
  predicate HasApplied(t: Tables, campaignId: Id, userId: Id, readFails: bool)
  {
    !readFails && Single(Filter(t.applicants, ApplicationOf(campaignId, userId))).Some?
  }

  /** The exact count of the campaign's applicants; `None` when the count query fails. */
  function ApplicantCount(t: Tables, campaignId: Id, readFails: bool): Option<nat>
  {
    if readFails then None else Some(Count(t.applicants, ApplicantOf(campaignId)))
  }

  /** The capacity test `count && count >= max_applicants`: a missing or zero count never rejects. */
  predicate IsFull(count: Option<nat>, maxApplicants: int)
  {
    count.Some? && count.value != 0 && count.value >= maxApplicants
  }

  function ApplySpec(t: Tables, user: Option<Id>, adId: Id, data: map<string, string>,
                     campaignReadFails: bool, existingReadFails: bool, countReadFails: bool,
                     insertError: Option<string>, exposureWritten: bool, now: Timestamp): (o: Outcome<ApplicantRow>)
    ensures WellFormed(t) ==> WellFormed(o.tables)
    ensures o.result.Err? ==> o.tables == t
    ensures user.None? ==> o.result == Err(Unauthorized)
    ensures user.Some? && FindOpenCampaign(t, adId, campaignReadFails).None? ==> o.result == Err(NoOpenCampaign)
    ensures user.Some? && FindOpenCampaign(t, adId, campaignReadFails).Some? ==>
      var c := FindOpenCampaign(t, adId, campaignReadFails).value;
      && (HasApplied(t, c.id, user.value, existingReadFails) ==> o.result == Err(AlreadyApplied))
      && ((!HasApplied(t, c.id, user.value, existingReadFails)
           && IsFull(ApplicantCount(t, c.id, countReadFails), c.maxApplicants)) ==> o.result == Err(CampaignFull))
      && ((!HasApplied(t, c.id, user.value, existingReadFails)
           && !IsFull(ApplicantCount(t, c.id, countReadFails), c.maxApplicants)
           && insertError.Some?) ==> o.result == Err(insertError.value))
      && (o.result.Ok? <==>
            !HasApplied(t, c.id, user.value, existingReadFails)
            && !IsFull(ApplicantCount(t, c.id, countReadFails), c.maxApplicants)
            && insertError.None?)
    ensures o.result.Ok? ==>
      var a := o.result.value;
      && user.Some? && FindOpenCampaign(t, adId, campaignReadFails).Some?
      && a.id == t.nextId && a.campaignId == FindOpenCampaign(t, adId, campaignReadFails).value.id
      && a.userId == user.value && a.applicationData == data && a.status == ApplicantStatus.Pending
      && o.tables.applicants == t.applicants + [a]
      && o.tables.exposures == ExposureAdded(t, adId, user.value, exposureWritten, now)
      && o.tables == t.(applicants := o.tables.applicants, exposures := o.tables.exposures, nextId := t.nextId + 1)
  {
    if user.None? then Outcome(t, Err(Unauthorized))
    else
      match FindOpenCampaign(t, adId, campaignReadFails)
      case None => Outcome(t, Err(NoOpenCampaign))
      case Some(c) =>
        if HasApplied(t, c.id, user.value, existingReadFails) then Outcome(t, Err(AlreadyApplied))
        else if IsFull(ApplicantCount(t, c.id, countReadFails), c.maxApplicants) then Outcome(t, Err(CampaignFull))
        else if insertError.Some? then Outcome(t, Err(insertError.value))
        else
          var a := ApplicantRow(t.nextId, c.id, user.value, data, ApplicantStatus.Pending, now);
          var u := t.(applicants := t.applicants + [a], nextId := t.nextId + 1);
          Outcome(LogExposure(u, adId, user.value, exposureWritten, now), Ok(a))
  }

  method ApplyToTesterCampaign(db: Database, user: Option<Id>, adId: Id, data: map<string, string>,
                               campaignReadFails: bool, existingReadFails: bool, countReadFails: bool,
                               insertError: Option<string>, exposureWritten: bool, now: Timestamp)
    returns (r: Result<ApplicantRow>)
    requires db.Valid()
    modifies db
    ensures db.Valid()
    ensures Outcome(db.Snapshot(), r)
      == ApplySpec(old(db.Snapshot()), user, adId, data, campaignReadFails, existingReadFails, countReadFails,
                   insertError, exposureWritten, now)
  {
    if user.None? {
      return Err(Unauthorized);
    }
    var campaign := FindOpenCampaign(db.Snapshot(), adId, campaignReadFails);
    if campaign.None? {
      return Err(NoOpenCampaign);
    }
    var c := campaign.value;
    if HasApplied(db.Snapshot(), c.id, user.value, existingReadFails) {
      return Err(AlreadyApplied);
    }
    var count := ApplicantCount(db.Snapshot(), c.id, countReadFails);
    if IsFull(count, c.maxApplicants) {
      return Err(CampaignFull);
    }
    if insertError.Some? {
      return Err(insertError.value);
    }
    var row := ApplicantRow(db.nextId, c.id, user.value, data, ApplicantStatus.Pending, now);
    db.applicants := db.applicants + [row];
    db.nextId := db.nextId + 1;
    if exposureWritten {
      db.exposures := db.exposures + [ExposureRow(adId, user.value, now)];
    }
    assert db.Snapshot() == ApplySpec(old(db.Snapshot()), user, adId, data, campaignReadFails, existingReadFails, countReadFails,
                                  insertError, exposureWritten, now).tables;
    r := Ok(row);
  }

  /**
   * The admission invariant of sequential runs: every (campaign, user) pair
   * has at most one application, and a campaign admitting at least one
   * applicant holds no more than its maximum.
   */
  ghost predicate AdmissionInvariant(t: Tables)
  {
    && (forall c, u :: Count(t.applicants, ApplicationOf(c, u)) <= 1)
    && (forall i :: 0 <= i < |t.campaigns| && t.campaigns[i].maxApplicants >= 1
          ==> Count(t.applicants, ApplicantOf(t.campaigns[i].id)) <= t.campaigns[i].maxApplicants)
  }

  /**
   * Applications keep the admission invariant as long as the duplicate and
   * count reads succeed (the checks are not atomic with the insert, and a
   * failed read lets the insert through unchecked).
   */
  lemma ApplyKeepsAdmissionInvariant(t: Tables, user: Option<Id>, adId: Id, data: map<string, string>,
                                     campaignReadFails: bool, insertError: Option<string>,
                                     exposureWritten: bool, now: Timestamp)
    requires WellFormed(t) && AdmissionInvariant(t)
    ensures AdmissionInvariant(ApplySpec(t, user, adId, data, campaignReadFails, false, false,
                                         insertError, exposureWritten, now).tables)
  {
    var o := ApplySpec(t, user, adId, data, campaignReadFails, false, false, insertError, exposureWritten, now);
    if o.result.Ok? {
      var c := FindOpenCampaign(t, adId, campaignReadFails).value;
      var a := o.result.value;
      var rows := o.tables.applicants;
      assert c in t.campaigns;
      forall cid, uid ensures Count(rows, ApplicationOf(cid, uid)) <= 1 {
        CountAppend(t.applicants, a, ApplicationOf(cid, uid));
        if cid == c.id && uid == user.value {
          assert |Filter(t.applicants, ApplicationOf(cid, uid))| != 1;
        }
      }
      forall i | 0 <= i < |o.tables.campaigns| && o.tables.campaigns[i].maxApplicants >= 1
        ensures Count(rows, ApplicantOf(o.tables.campaigns[i].id)) <= o.tables.campaigns[i].maxApplicants
      {
        var ci := t.campaigns[i];
        CountAppend(t.applicants, a, ApplicantOf(ci.id));
        if ci.id == c.id {
          var j :| 0 <= j < |t.campaigns| && t.campaigns[j] == c;
          assert i == j;
        }
      }
    }
  }

  // ---------------------------------------------------------------------------
  // submitTesterReport

  /** The caller's selected application with the given id. */
  function SelectedApplication(applicantId: Id, userId: Id): ApplicantRow -> bool
  {
    (a: ApplicantRow) => a.id == applicantId && a.userId == userId && a.status == ApplicantStatus.Selected
  }

  function ApplicantWithId(applicantId: Id): ApplicantRow -> bool
  {
    (a: ApplicantRow) => a.id == applicantId
  }

  function MarkCompleted(a: ApplicantRow): ApplicantRow
  {
    a.(status := ApplicantStatus.Completed)
  }

  /** The best-effort `.update({ status: 'completed' }).eq('id', ...)`, applied when it went through. */
  function CompleteApplicant(t: Tables, applicantId: Id, written: bool): (u: Tables)
    ensures WellFormed(t) ==> WellFormed(u)
  {
    if written then
      var u := t.(applicants := UpdateWhere(t.applicants, ApplicantWithId(applicantId), MarkCompleted));
      assert WellFormed(t) ==> WellFormed(u) by {
        if WellFormed(t) {
          UpdateKeepsKeys(t.applicants, ApplicantWithId(applicantId), MarkCompleted, ApplicantId);
          UpdateKeepsIdsBelow(t.applicants, ApplicantWithId(applicantId), MarkCompleted, ApplicantId, t.nextId);
        }
      }
      u
    else t
  }

  function SubmitTesterReportSpec(t: Tables, user: Option<Id>, applicantId: Id, content: string,
                                  mediaUrls: Option<seq<string>>, applicantReadFails: bool,
                                  insertError: Option<string>, statusWritten: bool): (o: Outcome<ReportRow>)
    ensures WellFormed(t) ==> WellFormed(o.tables)
    ensures o.result.Err? ==> o.tables == t
    ensures user.None? ==> o.result == Err(Unauthorized)
    ensures user.Some? && (applicantReadFails || Count(t.applicants, SelectedApplication(applicantId, user.value)) != 1)
            ==> o.result == Err(NoSelectedApplication)
    ensures user.Some? && insertError.Some? ==> o.result.Err?
    ensures user.Some? && !applicantReadFails && Count(t.applicants, SelectedApplication(applicantId, user.value)) == 1
            && insertError.Some?
            ==> o.result == Err(insertError.value)
    ensures o.result.Ok? ==>
      var rep := o.result.value;
      && user.Some? && insertError.None?
      && Count(t.applicants, SelectedApplication(applicantId, user.value)) == 1
      && rep.id == t.nextId && rep.applicantId == applicantId && rep.content == content
      && rep.mediaUrls == (if mediaUrls.Some? then mediaUrls.value else [])
      && o.tables.reports == t.reports + [rep]
      && o.tables.applicants
         == (if statusWritten then UpdateWhere(t.applicants, ApplicantWithId(applicantId), MarkCompleted)
             else t.applicants)
      && o.tables == t.(reports := o.tables.reports, applicants := o.tables.applicants, nextId := t.nextId + 1)
  {
    if user.None? then Outcome(t, Err(Unauthorized))
    else if applicantReadFails || Single(Filter(t.applicants, SelectedApplication(applicantId, user.value))).None? then
      Outcome(t, Err(NoSelectedApplication))
    else if insertError.Some? then Outcome(t, Err(insertError.value))
    else
      var rep := ReportRow(t.nextId, applicantId, content, if mediaUrls.Some? then mediaUrls.value else []);
      var u := t.(reports := t.reports + [rep], nextId := t.nextId + 1);
      Outcome(CompleteApplicant(u, applicantId, statusWritten), Ok(rep))
  }

  method SubmitTesterReport(db: Database, user: Option<Id>, applicantId: Id, content: string,
                            mediaUrls: Option<seq<string>>, applicantReadFails: bool,
                            insertError: Option<string>, statusWritten: bool)
    returns (r: Result<ReportRow>)
    requires db.Valid()
    modifies db
    ensures db.Valid()
    ensures Outcome(db.Snapshot(), r)
      == SubmitTesterReportSpec(old(db.Snapshot()), user, applicantId, content, mediaUrls,
                                applicantReadFails, insertError, statusWritten)
  {
    if user.None? {
      return Err(Unauthorized);
    }
    if applicantReadFails || Single(Filter(db.applicants, SelectedApplication(applicantId, user.value))).None? {
      return Err(NoSelectedApplication);
    }
    if insertError.Some? {
      return Err(insertError.value);
    }
    ghost var spec := SubmitTesterReportSpec(db.Snapshot(), user, applicantId, content, mediaUrls,
                                             applicantReadFails, insertError, statusWritten);
    var report := ReportRow(db.nextId, applicantId, content, if mediaUrls.Some? then mediaUrls.value else []);
    db.reports := db.reports + [report];
    db.nextId := db.nextId + 1;
    if statusWritten {
      db.applicants := UpdateWhere(db.applicants, ApplicantWithId(applicantId), MarkCompleted);
    }
    assert db.Snapshot() == spec.tables;
    r := Ok(report);
  }

  /**
   * Selected becomes completed: once a report went through and the status
   * update with it, the same application can no longer report.
   */
  lemma ReportCompletesApplication(t: Tables, user: Option<Id>, applicantId: Id, content: string,
                                   mediaUrls: Option<seq<string>>, insertError: Option<string>,
                                   content2: string, mediaUrls2: Option<seq<string>>, insertError2: Option<string>)
    requires SubmitTesterReportSpec(t, user, applicantId, content, mediaUrls, false, insertError, true).result.Ok?
    ensures var t' := SubmitTesterReportSpec(t, user, applicantId, content, mediaUrls, false, insertError, true).tables;
      SubmitTesterReportSpec(t', user, applicantId, content2, mediaUrls2, false, insertError2, true).result
      == Err(NoSelectedApplication)
  {
    var t' := SubmitTesterReportSpec(t, user, applicantId, content, mediaUrls, false, insertError, true).tables;
    var p := SelectedApplication(applicantId, user.value);
    forall i | 0 <= i < |t'.applicants| ensures !p(t'.applicants[i]) {
      if t.applicants[i].id == applicantId {
        assert t'.applicants[i].status == ApplicantStatus.Completed;
      }
    }
  }

  // ---------------------------------------------------------------------------
  // updateUserInterests

  function UserWithId(userId: Id): UserRow -> bool
  {
    (u: UserRow) => u.id == userId
  }

  function SetInterests(interests: seq<string>): UserRow -> UserRow
  {
    (u: UserRow) => u.(interests := Some(interests))
  }

  /**
   * `.update({ interests }).eq('id', user.id).select().single()`: the
   * caller's row gets the new interests; when the caller has no row (or,
   * impossibly, several) the update is rejected and nothing changes.
   */
  function UpdateUserInterestsSpec(t: Tables, user: Option<Id>, interests: seq<string>,
                                   updateError: Option<string>): (o: Outcome<UserRow>)
    ensures WellFormed(t) ==> WellFormed(o.tables)
    ensures o.result.Err? ==> o.tables == t
    ensures user.None? ==> o.result == Err(Unauthorized)
    ensures user.Some? && updateError.None? && Count(t.users, UserWithId(user.value)) != 1
            ==> o.result == Err(NoSingleRow)
    ensures user.Some? && updateError.Some? ==> o.result == Err(updateError.value)
    ensures user.Some? && updateError.None? && Count(t.users, UserWithId(user.value)) == 1 ==> o.result.Ok?
    ensures o.result.Ok? ==>
      && user.Some? && updateError.None?
      && o.result.value.id == user.value && o.result.value.interests == Some(interests)
      && o.tables == t.(users := o.tables.users)
      && |o.tables.users| == |t.users|
      && forall i :: 0 <= i < |t.users| ==>
           o.tables.users[i] == if t.users[i].id == user.value then t.users[i].(interests := Some(interests)) else t.users[i]
  {
    if user.None? then Outcome(t, Err(Unauthorized))
    else if updateError.Some? then Outcome(t, Err(updateError.value))
    else
      match Single(Filter(t.users, UserWithId(user.value)))
      case None => Outcome(t, Err(NoSingleRow))
      case Some(row) =>
        var u := t.(users := UpdateWhere(t.users, UserWithId(user.value), SetInterests(interests)));
        assert WellFormed(t) ==> WellFormed(u) by {
          if WellFormed(t) {
            UpdateKeepsKeys(t.users, UserWithId(user.value), SetInterests(interests), UserId);
          }
        }
        Outcome(u, Ok(row.(interests := Some(interests))))
  }

  method UpdateUserInterests(db: Database, user: Option<Id>, interests: seq<string>, updateError: Option<string>)
    returns (r: Result<UserRow>)
    requires db.Valid()
    modifies db
    ensures db.Valid()
    ensures Outcome(db.Snapshot(), r) == UpdateUserInterestsSpec(old(db.Snapshot()), user, interests, updateError)
  {
    if user.None? {
      return Err(Unauthorized);
    }
    if updateError.Some? {
      return Err(updateError.value);
    }
    var found := Single(Filter(db.users, UserWithId(user.value)));
    if found.None? {
      return Err(NoSingleRow);
    }
    db.users := UpdateWhere(db.users, UserWithId(user.value), SetInterests(interests));
    assert db.Snapshot() == UpdateUserInterestsSpec(old(db.Snapshot()), user, interests, updateError).tables;
    r := Ok(found.value.(interests := Some(interests)));
  }
}

=== FILE: queries.dfy ===
/**
 * The read-only server actions (lib/actions/queries.ts): the ad feed with
 * cursor pagination, the visible comments and UGC of an ad, the ad's active
 * survey and open tester campaign, and the signed-in user's rewards and
 * participation history. Each is a function of the tables it reads; an error
 * the store reports is the parameter `readError`.
 *
 * Timestamps travel as text: a row's created_at reaches the client as
 * `IntToString(createdAt)`, and a cursor text handed back is parsed by the
 * store with `ParseInteger`.
 */
module Queries {
  import opened Common
  import opened Numerals
  import opened Schema
  import opened Store
  import opened Sorting
  import Participation

  const DefaultLimit := 20

  /** Postgres's message for a negative LIMIT. */
  const NegativeLimit := "LIMIT must not be negative"

  /** Postgres's message for a cursor text that is not a timestamp. */
  function InvalidTimestamp(text: string): string
  {
    "invalid input syntax for type timestamp with time zone: \"" + text + "\""
  }

  // ---------------------------------------------------------------------------
  // Orders

  /** ORDER BY key DESC, for any integer key. */
  function Descending<T>(key: T -> int): (T, T) -> bool
  {
    (a: T, b: T) => key(a) >= key(b)
  }

  lemma DescendingTotal<T(!new)>(key: T -> int)
    ensures TotalPreorder(Descending(key))
  {
  }

  /** ORDER BY created_at DESC on ads. */
  predicate Newer(a: AdRow, b: AdRow)
  {
    a.createdAt >= b.createdAt
  }

  lemma NewerTotal()
    ensures TotalPreorder(Newer)
  {
  }

  function CommentCreated(c: CommentRow): int { c.createdAt }
  function UgcCreated(g: UgcRow): int { g.createdAt }
  function AnswerCreated(a: SurveyAnswerRow): int { a.createdAt }
  function ApplicantCreated(a: ApplicantRow): int { a.createdAt }
  function RewardCreated(r: RewardRow): int { r.createdAt }

  /** ORDER BY is_pinned DESC, created_at DESC. */
  predicate PinnedThenNewest(a: CommentRow, b: CommentRow)
  {
    (a.isPinned && !b.isPinned) || (a.isPinned == b.isPinned && a.createdAt >= b.createdAt)
  }

  /** ORDER BY quality_score DESC, created_at DESC. */
  predicate BestThenNewest(a: UgcRow, b: UgcRow)
  {
    a.qualityScore > b.qualityScore || (a.qualityScore == b.qualityScore && a.createdAt >= b.createdAt)
  }

  lemma PinnedThenNewestTotal()
    ensures TotalPreorder(PinnedThenNewest)
  {
  }

  lemma BestThenNewestTotal()
    ensures TotalPreorder(BestThenNewest)
  {
  }

  /** `.limit(n)`: the first `n` rows. */
  function Take<T>(s: seq<T>, n: nat): (r: seq<T>)
    ensures |r| == if n <= |s| then n else |s|
    ensures r == s[..|r|]
    ensures |s| <= n ==> r == s
    ensures multiset(r) <= multiset(s)
  {
    if n <= |s| then
      assert s == s[..n] + s[n..];
      s[..n]
    else s
  }

  /** A subsequence of a sorted sequence is sorted. */
  lemma {:induction false} FilterSorted<T(!new)>(s: seq<T>, p: T -> bool, le: (T, T) -> bool)
    requires Sorted(s, le)
    ensures Sorted(Filter(s, p), le)
    decreases |s|
  {
    if s != [] {
      var init := s[..|s| - 1];
      FilterSorted(init, p, le);
      var f := Filter(init, p);
      forall i | 0 <= i < |f| ensures le(f[i], s[|s| - 1]) {
        assert f[i] in init;
      }
    }
  }

  // ---------------------------------------------------------------------------
  // The ad feed: getAds

  /** `.eq('status', 'active')` and `.contains('tags', tags)`. */
  function ListedWith(tags: seq<string>): AdRow -> bool
  {
    (a: AdRow) => a.status == AdStatus.Active && forall i :: 0 <= i < |tags| ==> tags[i] in a.tags
  }

  /** `.lt('created_at', cursor)`. */
  function OlderThan(cursor: Timestamp): AdRow -> bool
  {
    (a: AdRow) => a.createdAt < cursor
  }

  /** Every listed ad, newest first (equal timestamps keep table order). */
  function ListedAds(ads: seq<AdRow>, tags: seq<string>): (r: seq<AdRow>)
    ensures Sorted(r, Newer)
    ensures forall a :: a in r <==> a in ads && ListedWith(tags)(a)
    ensures multiset(r) <= multiset(ads)
  {
    NewerTotal();
    FilterSubMultiset(ads, ListedWith(tags));
    SortBy(Filter(ads, ListedWith(tags)), Newer)
  }

  /** The ads of a newest-first sequence that are older than the cursor, if one is given. */
  function BelowCursor(all: seq<AdRow>, cursor: Option<Timestamp>): (r: seq<AdRow>)
    requires Sorted(all, Newer)
    ensures Sorted(r, Newer)
    ensures forall a :: a in r <==> a in all && (cursor.Some? ==> a.createdAt < cursor.value)
    ensures multiset(r) <= multiset(all)
  {
    if cursor.None? then all
    else
      FilterSorted(all, OlderThan(cursor.value), Newer);
      FilterSubMultiset(all, OlderThan(cursor.value));
      Filter(all, OlderThan(cursor.value))
  }

  /**
   * What a feed page promises: at most `limit` ads, each an active ad of the
   * table carrying every requested tag and older than the cursor, newest first,
   * and no ad more often than the table holds it.
   */
  ghost predicate FeedPage(page: seq<AdRow>, ads: seq<AdRow>, tags: seq<string>, cursor: Option<Timestamp>, limit: int)
  {
    && |page| <= limit
    && (forall a :: a in page ==> a in ads && a.status == AdStatus.Active)
    && (forall a, k :: a in page && 0 <= k < |tags| ==> tags[k] in a.tags)
    && (forall a :: a in page && cursor.Some? ==> a.createdAt < cursor.value)
    && Sorted(page, Newer)
    && multiset(page) <= multiset(ads)
  }

  /** A page cannot show twice an ad the table holds once. */
  lemma PageRepeatsNothing(page: seq<AdRow>, ads: seq<AdRow>, tags: seq<string>, cursor: Option<Timestamp>,
                           limit: int, i: nat, j: nat)
    requires FeedPage(page, ads, tags, cursor, limit)
    requires i < j < |page| && page[i] == page[j]
    ensures multiset(ads)[page[i]] >= 2
  {
    HeldTwice(page, i, j);
  }

  /** An ad the feed query may return: active, carrying every tag, older than the cursor. */
  ghost predicate Qualifies(a: AdRow, ads: seq<AdRow>, tags: seq<string>, cursor: Option<Timestamp>)
  {
    a in ads && ListedWith(tags)(a) && (cursor.Some? ==> a.createdAt < cursor.value)
  }

  /**
   * What a feed page leaves out: an ad that qualifies is missing only from a
   * full page, and never one newer than the page's last ad.
   */
  ghost predicate FeedComplete(page: seq<AdRow>, ads: seq<AdRow>, tags: seq<string>, cursor: Option<Timestamp>, limit: int)
  {
    && (forall a :: Qualifies(a, ads, tags, cursor) && a !in page ==> |page| == limit)
    && (forall a :: Qualifies(a, ads, tags, cursor) && a !in page && page != [] ==>
          a.createdAt <= page[|page| - 1].createdAt)
  }

  /** The first `n` of a newest-first sequence leave out only what is no newer than their last. */
  lemma TakeLeavesOlder(below: seq<AdRow>, n: nat, a: AdRow)
    requires Sorted(below, Newer) && a in below && a !in Take(below, n)
    ensures |Take(below, n)| == n
    ensures Take(below, n) != [] ==> a.createdAt <= Take(below, n)[|Take(below, n)| - 1].createdAt
  {
    var r := Take(below, n);
    var i :| 0 <= i < |below| && below[i] == a;
    assert |r| <= i by {
      if i < |r| {
        assert false;
      }
    }
    if r != [] {
      assert r[|r| - 1] == below[|r| - 1];
      assert Newer(below[|r| - 1], below[i]);
    }
  }

  /** The feed query itself: the listed ads older than the cursor, newest first, at most `limit`. */
  function AdsFeed(ads: seq<AdRow>, tags: seq<string>, cursor: Option<Timestamp>, limit: nat): (r: seq<AdRow>)
    ensures FeedPage(r, ads, tags, cursor, limit)
    ensures FeedComplete(r, ads, tags, cursor, limit)
  {
    TakeIsFeedPage(ads, tags, cursor, limit);
    TakeIsFeedComplete(ads, tags, cursor, limit);
    Take(BelowCursor(ListedAds(ads, tags), cursor), limit)
  }

  lemma TakeIsFeedPage(ads: seq<AdRow>, tags: seq<string>, cursor: Option<Timestamp>, limit: nat)
    ensures FeedPage(Take(BelowCursor(ListedAds(ads, tags), cursor), limit), ads, tags, cursor, limit)
  {
    TakeInFeed(ads, tags, cursor, limit);
    TakeBounded(ads, tags, cursor, limit);
  }

  lemma TakeInFeed(ads: seq<AdRow>, tags: seq<string>, cursor: Option<Timestamp>, limit: nat)
    ensures forall a :: a in Take(BelowCursor(ListedAds(ads, tags), cursor), limit) ==> Qualifies(a, ads, tags, cursor)
  {
    var below := BelowCursor(ListedAds(ads, tags), cursor);
    assert forall a :: a in Take(below, limit) ==> a in below;
  }

  lemma TakeBounded(ads: seq<AdRow>, tags: seq<string>, cursor: Option<Timestamp>, limit: nat)
    ensures var r := Take(BelowCursor(ListedAds(ads, tags), cursor), limit);
      |r| <= limit && Sorted(r, Newer) && multiset(r) <= multiset(ads)
  {
    var below := BelowCursor(ListedAds(ads, tags), cursor);
    var r := Take(below, limit);
    assert multiset(r) <= multiset(below) <= multiset(ListedAds(ads, tags));
  }

  lemma TakeIsFeedComplete(ads: seq<AdRow>, tags: seq<string>, cursor: Option<Timestamp>, limit: nat)
    ensures FeedComplete(Take(BelowCursor(ListedAds(ads, tags), cursor), limit), ads, tags, cursor, limit)
  {
    var below := BelowCursor(ListedAds(ads, tags), cursor);
    var r := Take(below, limit);
    forall a | Qualifies(a, ads, tags, cursor) && a !in r
      ensures |r| == limit && (r != [] ==> a.createdAt <= r[|r| - 1].createdAt)
    {
      TakeLeavesOlder(below, limit, a);
    }
  }

  /** A page of the feed and the cursor for the next one. */
  datatype AdsPage = AdsPage(data: seq<AdRow>, cursor: Option<string>)

  /** The page size getAds uses: `limit || 20` (a missing, zero or NaN limit is 20). */
  function EffectiveLimit(limit: Option<int>): int
  {
    if limit.None? || limit.value == 0 then DefaultLimit else limit.value
  }

  /** `filters?.tags || []`. */
  function TagList(tags: Option<seq<string>>): seq<string>
  {
    if tags.Some? then tags.value else []
  }

  /** `if (cursor)`: the cursor's timestamp when one is given; the empty text is falsy. */
  function CursorTime(cursor: Option<string>): Option<int>
  {
    if cursor.Some? && cursor.value != "" then ParseInteger(cursor.value) else None
  }

  /** The cursor getAds hands back: the created_at of the page's last ad, or null. */
  function NextCursor(page: seq<AdRow>): Option<string>
  {
    if page == [] then None else Some(IntToString(page[|page| - 1].createdAt))
  }

  /**
   * getAds. `tags`, `cursor` and `limit` are None when left out (a NaN limit
   * too, being falsy); the store rejects a negative limit and a cursor that
   * is not a timestamp.
   */
  function GetAds(ads: seq<AdRow>, tags: Option<seq<string>>, cursor: Option<string>, limit: Option<int>,
                  readError: Option<string>): (r: Result<AdsPage>)
    ensures EffectiveLimit(limit) < 0 ==> r == Err(NegativeLimit)
    ensures r.Err? && r != Err(NegativeLimit) ==>
      readError.Some? || (cursor.Some? && cursor.value != "" && ParseInteger(cursor.value).None?)
    ensures (readError.None? && EffectiveLimit(limit) >= 0 && cursor.Some? && cursor.value != ""
             && ParseInteger(cursor.value).None?) ==> r == Err(InvalidTimestamp(cursor.value))
    ensures r.Ok? ==> readError.None? && 0 <= EffectiveLimit(limit)
    ensures r.Ok? && cursor.Some? && cursor.value != "" ==> ParseInteger(cursor.value).Some?
    ensures r.Ok? ==> FeedPage(r.value.data, ads, TagList(tags), CursorTime(cursor), EffectiveLimit(limit))
    ensures r.Ok? ==> FeedComplete(r.value.data, ads, TagList(tags), CursorTime(cursor), EffectiveLimit(limit))
    ensures r.Ok? ==> r.value.cursor == NextCursor(r.value.data)
  {
    var n := EffectiveLimit(limit);
    if n < 0 then Err(NegativeLimit)
    else if readError.Some? then Err(readError.value)
    else if cursor.Some? && cursor.value != "" && ParseInteger(cursor.value).None? then Err(InvalidTimestamp(cursor.value))
    else
      var page := AdsFeed(ads, TagList(tags), CursorTime(cursor), n);
      Ok(AdsPage(page, NextCursor(page)))
  }

  /** A cursor made from a timestamp is read back as that timestamp. */
  lemma FeedAtCursor(ads: seq<AdRow>, tags: Option<seq<string>>, c: int, limit: Option<int>)
    requires EffectiveLimit(limit) >= 0
    ensures var feed := AdsFeed(ads, TagList(tags), Some(c), EffectiveLimit(limit));
      GetAds(ads, tags, Some(IntToString(c)), limit, None) == Ok(AdsPage(feed, NextCursor(feed)))
  {
    ParseIntegerOfIntToString(c);
    assert CursorTime(Some(IntToString(c))) == Some(c);
  }

  /** Nothing on a newest-first page is older than its last ad. */
  lemma NoneOlderThanLast(page: seq<AdRow>)
    requires Sorted(page, Newer) && page != []
    ensures forall a :: a in page ==> a.createdAt >= page[|page| - 1].createdAt
  {
    forall a | a in page ensures a.createdAt >= page[|page| - 1].createdAt {
      var i :| 0 <= i < |page| && page[i] == a;
      assert i == |page| - 1 || Newer(page[i], page[|page| - 1]);
    }
  }

  lemma Separated(page: seq<AdRow>, next: seq<AdRow>, c: int)
    requires forall a :: a in page ==> a.createdAt >= c
    requires forall b :: b in next ==> b.createdAt < c
    ensures forall a, b :: a in page && b in next ==> b.createdAt < a.createdAt
    ensures forall b :: b in next ==> b !in page
  {
  }

  /**
   * Following the cursor a page hands back: the next page is read without
   * error and every ad on it is strictly older than every ad on this one, so
   * no ad is shown twice; an unseen ad sharing the last ad's timestamp is
   * skipped altogether.
   */
  lemma NextPageOlder(ads: seq<AdRow>, tags: Option<seq<string>>, cursor: Option<string>, limit: Option<int>,
                      page: AdsPage)
    requires GetAds(ads, tags, cursor, limit, None) == Ok(page) && page.cursor.Some?
    ensures var next := GetAds(ads, tags, page.cursor, limit, None);
      && next.Ok?
      && (forall a, b :: a in page.data && b in next.value.data ==> b.createdAt < a.createdAt)
      && (forall b :: b in next.value.data ==> b !in page.data && b.createdAt < page.data[|page.data| - 1].createdAt)
  {
    var n := EffectiveLimit(limit);
    var data := page.data;
    assert n >= 0 && page.cursor == NextCursor(data) && data != [];
    assert FeedPage(data, ads, TagList(tags), CursorTime(cursor), n);
    CursorOfPage(ads, tags, limit, data);
    var last := data[|data| - 1];
    var next := AdsFeed(ads, TagList(tags), Some(last.createdAt), n);
    NoneOlderThanLast(data);
    Separated(data, next, last.createdAt);
  }

  /** The cursor of a non-empty page reads the feed below its last ad's timestamp. */
  lemma CursorOfPage(ads: seq<AdRow>, tags: Option<seq<string>>, limit: Option<int>, data: seq<AdRow>)
    requires data != [] && EffectiveLimit(limit) >= 0
    ensures var next := AdsFeed(ads, TagList(tags), Some(data[|data| - 1].createdAt), EffectiveLimit(limit));
      GetAds(ads, tags, NextCursor(data), limit, None) == Ok(AdsPage(next, NextCursor(next)))
  {
    FeedAtCursor(ads, tags, data[|data| - 1].createdAt, limit);
  }

  /** No two ads of the sequence share a timestamp. */
  predicate DistinctTimes(s: seq<AdRow>)
  {
    forall i, j :: 0 <= i < j < |s| ==> s[i].createdAt != s[j].createdAt
  }

  /** Filtering by a predicate that fails exactly on the first `k` elements drops those. */
  lemma {:induction false} FilterDropsPrefix<T(!new)>(s: seq<T>, p: T -> bool, k: nat)
    requires k <= |s|
    requires forall i :: 0 <= i < k ==> !p(s[i])
    requires forall i :: k <= i < |s| ==> p(s[i])
    ensures Filter(s, p) == s[k..]
    decreases |s|
  {
    if |s| == k {
      assert Count(s, p) == 0;
    } else {
      var n := |s| - 1;
      var init := s[..n];
      assert forall i :: 0 <= i < n ==> init[i] == s[i];
      FilterDropsPrefix(init, p, k);
      assert init + [s[n]] == s;
      FilterAppend(init, s[n], p);
      assert init[k..] + [s[n]] == s[k..];
    }
  }

  /** In a newest-first sequence without ties, the ads older than the k-th are exactly those after it. */
  lemma OlderThanSplits(all: seq<AdRow>, k: nat)
    requires Sorted(all, Newer) && DistinctTimes(all) && 0 < k <= |all|
    ensures Filter(all, OlderThan(all[k - 1].createdAt)) == all[k..]
  {
    var c := all[k - 1].createdAt;
    forall i | 0 <= i < k ensures !OlderThan(c)(all[i]) {
      assert i == k - 1 || Newer(all[i], all[k - 1]);
    }
    forall i | k <= i < |all| ensures OlderThan(c)(all[i]) {
      assert Newer(all[k - 1], all[i]);
    }
    FilterDropsPrefix(all, OlderThan(c), k);
  }

  /** The last element of a window of `s` starting at `m`. */
  lemma TakeLast<T>(s: seq<T>, m: nat, n: nat, w: seq<T>)
    requires m <= |s| && w == Take(s[m..], n) && w != []
    ensures m + |w| <= |s| && w[|w| - 1] == s[m + |w| - 1]
  {
    assert w == s[m..][..|w|];
  }

  /** Without ties, the feed below the k-th listed ad's timestamp starts right after it. */
  lemma FeedAfterPosition(ads: seq<AdRow>, tags: seq<string>, k: nat, n: nat)
    requires DistinctTimes(ListedAds(ads, tags)) && 0 < k <= |ListedAds(ads, tags)|
    ensures AdsFeed(ads, tags, Some(ListedAds(ads, tags)[k - 1].createdAt), n) == Take(ListedAds(ads, tags)[k..], n)
  {
    var all := ListedAds(ads, tags);
    OlderThanSplits(all, k);
    assert BelowCursor(all, Some(all[k - 1].createdAt)) == all[k..];
  }

  /** Without ties, the cursor made from the k-th listed ad reads the ads after it. */
  lemma CursorWalksFeed(ads: seq<AdRow>, tags: Option<seq<string>>, limit: Option<int>, k: nat, cursor: Option<string>)
    requires DistinctTimes(ListedAds(ads, TagList(tags))) && 0 < k <= |ListedAds(ads, TagList(tags))|
    requires EffectiveLimit(limit) >= 0
    requires cursor == Some(IntToString(ListedAds(ads, TagList(tags))[k - 1].createdAt))
    ensures var r := GetAds(ads, tags, cursor, limit, None);
      r.Ok? && r.value.data == Take(ListedAds(ads, TagList(tags))[k..], EffectiveLimit(limit))
  {
    var c := ListedAds(ads, TagList(tags))[k - 1].createdAt;
    FeedAtCursor(ads, tags, c, limit);
    FeedAfterPosition(ads, TagList(tags), k, EffectiveLimit(limit));
  }

  /**
   * When the listed ads have distinct timestamps, the cursor walks the feed
   * without gaps: if a page holds the `n` ads from position `m` of the whole
   * newest-first feed, the page read with its cursor holds the `n` ads that
   * follow. (getAds hands back `NextCursor` of the page it returns.)
   */
  lemma NextPageFollows(ads: seq<AdRow>, tags: Option<seq<string>>, limit: Option<int>, page: seq<AdRow>, m: nat)
    requires DistinctTimes(ListedAds(ads, TagList(tags)))
    requires EffectiveLimit(limit) >= 0 && m <= |ListedAds(ads, TagList(tags))|
    requires page == Take(ListedAds(ads, TagList(tags))[m..], EffectiveLimit(limit)) && page != []
    ensures var next := GetAds(ads, tags, NextCursor(page), limit, None);
      next.Ok? && next.value.data == Take(ListedAds(ads, TagList(tags))[m + |page|..], EffectiveLimit(limit))
  {
    var all := ListedAds(ads, TagList(tags));
    var n := EffectiveLimit(limit);
    NextCursorOfPage(all, m, n, page);
    var k := m + |page|;
    FeedAtCursor(ads, tags, all[k - 1].createdAt, limit);
    FeedAfterPosition(ads, TagList(tags), k, n);
  }

  lemma NextCursorOfPage(all: seq<AdRow>, m: nat, n: nat, page: seq<AdRow>)
    requires m <= |all| && page == Take(all[m..], n) && page != []
    ensures m + |page| <= |all| && NextCursor(page) == Some(IntToString(all[m + |page| - 1].createdAt))
  {
    TakeLast(all, m, n, page);
  }

  /** The first page is the head of the newest-first feed. */
  lemma FirstPage(ads: seq<AdRow>, tags: Option<seq<string>>, limit: Option<int>)
    requires EffectiveLimit(limit) >= 0
    ensures GetAds(ads, tags, None, limit, None).Ok?
    ensures GetAds(ads, tags, None, limit, None).value.data
         == Take(ListedAds(ads, TagList(tags))[0..], EffectiveLimit(limit))
  {
    assert ListedAds(ads, TagList(tags))[0..] == ListedAds(ads, TagList(tags));
  }

  // ---------------------------------------------------------------------------
  // One ad: getAd

  function AdWithId(id: Id): AdRow -> bool
  {
    (a: AdRow) => a.id == id
  }

  /** getAd: `.single()` on the ad's id; anything but exactly one row throws. */
  function GetAd(ads: seq<AdRow>, id: Id, readError: Option<string>): (r: Result<AdRow>)
    ensures r.Ok? <==> readError.None? && Count(ads, AdWithId(id)) == 1
    ensures r.Ok? ==> r.value in ads && r.value.id == id
    ensures readError.None? && r.Err? ==> r.msg == NoSingleRow
  {
    if readError.Some? then Err(readError.value)
    else match Single(Filter(ads, AdWithId(id)))
      case None => Err(NoSingleRow)
      case Some(a) => assert a in Filter(ads, AdWithId(id)); Ok(a)
  }

  // ---------------------------------------------------------------------------
  // Comments and UGC of an ad

  /** `.eq('ad_id', adId).in('status', ['approved', 'adopted'])`. */
  function VisibleCommentOf(adId: Id): CommentRow -> bool
  {
    (c: CommentRow) => c.adId == adId && c.status in {ReviewStatus.Approved, ReviewStatus.Adopted}
  }

  function VisibleUgcOf(adId: Id): UgcRow -> bool
  {
    (g: UgcRow) => g.adId == adId && g.status in {ReviewStatus.Approved, ReviewStatus.Adopted}
  }

  /** getComments: the ad's approved and adopted comments, pinned ones first, newest first within each. */
  function GetComments(comments: seq<CommentRow>, adId: Id, readError: Option<string>): (r: Result<seq<CommentRow>>)
    ensures r.Err? <==> readError.Some?
    ensures r.Ok? ==> forall c :: c in r.value <==>
      c in comments && c.adId == adId && (c.status == ReviewStatus.Approved || c.status == ReviewStatus.Adopted)
    ensures r.Ok? ==> multiset(r.value) == multiset(Filter(comments, VisibleCommentOf(adId)))
    ensures r.Ok? ==> forall i, j :: 0 <= i < j < |r.value| ==>
      && (r.value[j].isPinned ==> r.value[i].isPinned)
      && (r.value[i].isPinned == r.value[j].isPinned ==> r.value[i].createdAt >= r.value[j].createdAt)
  {
    if readError.Some? then Err(readError.value)
    else
      PinnedThenNewestTotal();
      var r := SortBy(Filter(comments, VisibleCommentOf(adId)), PinnedThenNewest);
      assert forall i, j :: 0 <= i < j < |r| ==> PinnedThenNewest(r[i], r[j]);
      Ok(r)
  }

  /** getUGC: the ad's approved and adopted UGC, best quality first, newest first among equals. */
  function GetUgc(ugc: seq<UgcRow>, adId: Id, readError: Option<string>): (r: Result<seq<UgcRow>>)
    ensures r.Err? <==> readError.Some?
    ensures r.Ok? ==> forall g :: g in r.value <==>
      g in ugc && g.adId == adId && (g.status == ReviewStatus.Approved || g.status == ReviewStatus.Adopted)
    ensures r.Ok? ==> multiset(r.value) == multiset(Filter(ugc, VisibleUgcOf(adId)))
    ensures r.Ok? ==> forall i, j :: 0 <= i < j < |r.value| ==>
      && r.value[i].qualityScore >= r.value[j].qualityScore
      && (r.value[i].qualityScore == r.value[j].qualityScore ==> r.value[i].createdAt >= r.value[j].createdAt)
  {
    if readError.Some? then Err(readError.value)
    else
      BestThenNewestTotal();
      var r := SortBy(Filter(ugc, VisibleUgcOf(adId)), BestThenNewest);
      assert forall i, j :: 0 <= i < j < |r| ==> BestThenNewest(r[i], r[j]);
      Ok(r)
  }

  // ---------------------------------------------------------------------------
  // The ad's survey and tester campaign

  /**
   * getSurvey: the ad's one active survey; no match or several (PGRST116)
   * is null, any other error throws.
   */
  function GetSurvey(surveys: seq<SurveyRow>, adId: Id, readError: Option<string>): (r: Result<Option<SurveyRow>>)
    ensures r.Err? <==> readError.Some?
    ensures r.Ok? ==> (r.value.Some? <==> Count(surveys, Participation.ActiveSurveyOf(adId)) == 1)
    ensures r.Ok? && r.value.Some? ==>
      r.value.value in surveys && r.value.value.adId == adId && r.value.value.status == SurveyStatus.Active
  {
    if readError.Some? then Err(readError.value)
    else
      var found := Single(Filter(surveys, Participation.ActiveSurveyOf(adId)));
      assert found.Some? ==> found.value in Filter(surveys, Participation.ActiveSurveyOf(adId));
      Ok(found)
  }

  /** getTesterCampaign: the ad's one open campaign, null on PGRST116. */
  function GetTesterCampaign(campaigns: seq<CampaignRow>, adId: Id, readError: Option<string>)
    : (r: Result<Option<CampaignRow>>)
    ensures r.Err? <==> readError.Some?
    ensures r.Ok? ==> (r.value.Some? <==> Count(campaigns, Participation.OpenCampaignOf(adId)) == 1)
    ensures r.Ok? && r.value.Some? ==>
      r.value.value in campaigns && r.value.value.adId == adId && r.value.value.status == CampaignStatus.Open
  {
    if readError.Some? then Err(readError.value)
    else
      var found := Single(Filter(campaigns, Participation.OpenCampaignOf(adId)));
      assert found.Some? ==> found.value in Filter(campaigns, Participation.OpenCampaignOf(adId));
      Ok(found)
  }

  // ---------------------------------------------------------------------------
  // The signed-in user's rows

  function OwnedBy<T>(owner: T -> Id, user: Id): T -> bool
  {
    (x: T) => owner(x) == user
  }

  /** `r` is the user's rows of the table, newest first. */
  ghost predicate OwnRows<T(!new)>(r: seq<T>, rows: seq<T>, owner: T -> Id, created: T -> int, user: Id)
  {
    && (forall x :: x in r <==> x in rows && owner(x) == user)
    && (forall i, j :: 0 <= i < j < |r| ==> created(r[i]) >= created(r[j]))
  }

  /** `.eq('user_id', user).order('created_at', { ascending: false })` on one table. */
  function Own<T(!new)>(rows: seq<T>, owner: T -> Id, created: T -> int, user: Id): (r: seq<T>)
    ensures OwnRows(r, rows, owner, created, user)
    ensures multiset(r) == multiset(Filter(rows, OwnedBy(owner, user)))
  {
    DescendingTotal(created);
    var r := SortBy(Filter(rows, OwnedBy(owner, user)), Descending(created));
    assert forall i, j :: 0 <= i < j < |r| ==> Descending(created)(r[i], r[j]);
    r
  }

  function RewardOwner(r: RewardRow): Id { r.userId }
  function CommentOwner(c: CommentRow): Id { c.userId }
  function UgcOwner(g: UgcRow): Id { g.userId }
  function AnswerOwner(a: SurveyAnswerRow): Id { a.userId }
  function ApplicantOwner(a: ApplicantRow): Id { a.userId }

  /** getUserRewards: the caller's rewards, newest first. */
  function GetUserRewards(rewards: seq<RewardRow>, user: Option<Id>, readError: Option<string>)
    : (r: Result<seq<RewardRow>>)
    ensures user.None? ==> r == Err(Unauthorized)
    ensures r.Err? <==> user.None? || readError.Some?
    ensures r.Ok? ==> OwnRows(r.value, rewards, RewardOwner, RewardCreated, user.value)
  {
    if user.None? then Err(Unauthorized)
    else if readError.Some? then Err(readError.value)
    else Ok(Own(rewards, RewardOwner, RewardCreated, user.value))
  }

  /** What getUserParticipation returns: the caller's rows of four tables. */
  datatype History = History(
    comments: seq<CommentRow>,
    ugc: seq<UgcRow>,
    surveyAnswers: seq<SurveyAnswerRow>,
    testerApplications: seq<ApplicantRow>)

  /**
   * getUserParticipation: the four reads run side by side; a read that fails
   * yields an empty list (`data || []`) rather than an error.
   */
  function GetUserParticipation(t: Tables, user: Option<Id>, commentsFail: bool, ugcFail: bool,
                                answersFail: bool, applicationsFail: bool): (r: Result<History>)
    ensures r.Err? <==> user.None?
    ensures user.None? ==> r.msg == Unauthorized
    ensures r.Ok? ==>
      && (if commentsFail then r.value.comments == []
          else OwnRows(r.value.comments, t.comments, CommentOwner, CommentCreated, user.value))
      && (if ugcFail then r.value.ugc == []
          else OwnRows(r.value.ugc, t.ugc, UgcOwner, UgcCreated, user.value))
      && (if answersFail then r.value.surveyAnswers == []
          else OwnRows(r.value.surveyAnswers, t.surveyAnswers, AnswerOwner, AnswerCreated, user.value))
      && (if applicationsFail then r.value.testerApplications == []
          else OwnRows(r.value.testerApplications, t.applicants, ApplicantOwner, ApplicantCreated, user.value))
  {
    if user.None? then Err(Unauthorized)
    else
      var u := user.value;
      Ok(History(
        if commentsFail then [] else Own(t.comments, CommentOwner, CommentCreated, u),
        if ugcFail then [] else Own(t.ugc, UgcOwner, UgcCreated, u),
        if answersFail then [] else Own(t.surveyAnswers, AnswerOwner, AnswerCreated, u),
        if applicationsFail then [] else Own(t.applicants, ApplicantOwner, ApplicantCreated, u)))
  }
}

=== FILE: schema.dfy ===
/**
 * The rows of the relational store and their status enumerations
 * (lib/types/database.ts). Row ids are numbers handed out by the store;
 * timestamps are integers (later is larger).
 */
module Schema {
  import opened Common

  type Id = nat
  type Timestamp = int

  /** ads.status */
  datatype AdStatus = Active | Paused | Archived

  /** comments.status and ugc.status share these four values. */
  datatype ReviewStatus = Pending | Approved | Rejected | Adopted

  /** ugc.type */
  datatype MediaKind = Video | Image

  /** surveys.status */
  datatype SurveyStatus = Active | Paused | Closed

  /** tester_campaigns.status */
  datatype CampaignStatus = Open | Closed | Completed

  /** tester_applicants.status */
  datatype ApplicantStatus = Pending | Selected | Rejected | Completed

  /** rewards.type, rewards.status and rewards.source_type */
  datatype RewardType = Coupon | Point
  datatype RewardStatus = Pending | Issued | Used | Expired
  datatype SourceType = Comment | Ugc | Tester | Survey

  datatype AdRow = AdRow(
    id: Id, advertiserId: Id, title: string, tags: seq<string>,
    status: AdStatus, createdAt: Timestamp)

  datatype CommentRow = CommentRow(
    id: Id, adId: Id, userId: Id, content: string, status: ReviewStatus,
    isPinned: bool, parentId: Option<Id>, createdAt: Timestamp)

  datatype UgcRow = UgcRow(
    id: Id, adId: Id, userId: Id, mediaUrl: string, kind: MediaKind,
    status: ReviewStatus, qualityScore: int, prBadge: bool, createdAt: Timestamp)

  datatype SurveyRow = SurveyRow(id: Id, adId: Id, status: SurveyStatus)

  /** answer_options is free JSON in the store; the model keeps lists of option labels. */
  datatype SurveyAnswerRow = SurveyAnswerRow(
    id: Id, surveyId: Id, questionId: Id, userId: Id,
    answerText: Option<string>, answerOptions: Option<seq<string>>, createdAt: Timestamp)

  datatype CampaignRow = CampaignRow(id: Id, adId: Id, maxApplicants: int, status: CampaignStatus)

  /** application_data is free JSON in the store; the model keeps string fields. */
  datatype ApplicantRow = ApplicantRow(
    id: Id, campaignId: Id, userId: Id, applicationData: map<string, string>,
    status: ApplicantStatus, createdAt: Timestamp)

  datatype ReportRow = ReportRow(id: Id, applicantId: Id, content: string, mediaUrls: seq<string>)

  datatype RewardRow = RewardRow(
    id: Id, adId: Id, userId: Id, rewardType: RewardType, value: string,
    status: RewardStatus, sourceType: SourceType, sourceId: Option<Id>, createdAt: Timestamp)

  /** ad_exposures: an append-only log, never read back. */
  datatype ExposureRow = ExposureRow(adId: Id, userId: Id, exposedAt: Timestamp)

  datatype UserRow = UserRow(id: Id, name: Option<string>, interests: Option<seq<string>>)
}

=== FILE: sorting.dfy ===
/**
 * Sorting by a comparator, as Array.prototype.sort does (a stable sort) and
 * as an ORDER BY clause does. A comparator is given as `le(a, b)`: "a may
 * come before b", i.e. the JavaScript comparator returns a value <= 0.
 * The model sorts by insertion, which is stable: equal elements keep their
 * input order.
 */
module Sorting {
  import opened Common

  /** A comparator that orders every pair consistently. */
  ghost predicate TotalPreorder<T(!new)>(le: (T, T) -> bool)
  {
    && (forall a, b :: le(a, b) || le(b, a))
    && (forall a, b, c :: le(a, b) && le(b, c) ==> le(a, c))
  }

  predicate Sorted<T>(s: seq<T>, le: (T, T) -> bool)
  {
    forall i, j :: 0 <= i < j < |s| ==> le(s[i], s[j])
  }

  /** Puts `x` after every element that may come before it. */
  function Insert<T(!new)>(x: T, s: seq<T>, le: (T, T) -> bool): (r: seq<T>)
    requires TotalPreorder(le)
    requires Sorted(s, le)
    ensures Sorted(r, le)
    ensures multiset(r) == multiset(s) + multiset{x}
  {
    if s == [] then [x]
    else if le(s[0], x) then
      var t := Insert(x, s[1..], le);
      assert s == [s[0]] + s[1..];
      assert forall k :: 0 <= k < |t| ==> le(s[0], t[k]) by {
        forall k | 0 <= k < |t| ensures le(s[0], t[k]) {
          assert t[k] in multiset(t);
          assert t[k] == x || t[k] in s[1..];
        }
      }
      ConsSorted(s[0], t, le);
      [s[0]] + t
    else
      assert s == [s[0]] + s[1..];
      BeforeSorted(x, s, le);
      [x] + s
  }

  /** An element that may come before every element of a sorted sequence may head it. */
  lemma ConsSorted<T>(y: T, t: seq<T>, le: (T, T) -> bool)
    requires Sorted(t, le) && forall k :: 0 <= k < |t| ==> le(y, t[k])
    ensures Sorted([y] + t, le)
  {
    var r := [y] + t;
    forall i, j | 0 <= i < j < |r| ensures le(r[i], r[j]) {
      assert r[j] == t[j - 1];
      if i > 0 {
        assert r[i] == t[i - 1];
      }
    }
  }

  /** An element the head of a sorted sequence may not come before, may head it. */
  lemma BeforeSorted<T(!new)>(x: T, s: seq<T>, le: (T, T) -> bool)
    requires TotalPreorder(le) && Sorted(s, le) && s != [] && !le(s[0], x)
    ensures Sorted([x] + s, le)
  {
    forall k | 0 <= k < |s| ensures le(x, s[k]) {
      if k > 0 {
        assert le(s[0], s[k]);
      }
    }
    ConsSorted(x, s, le);
  }

  /** The elements of `s`, sorted by `le`; ties keep their input order. */
  function SortBy<T(!new)>(s: seq<T>, le: (T, T) -> bool): (r: seq<T>)
    requires TotalPreorder(le)
    ensures Sorted(r, le)
    ensures multiset(r) == multiset(s)
    ensures |r| == |s|
    ensures forall x :: x in r <==> x in s
  {
    if s == [] then []
    else
      var r := Insert(s[|s| - 1], SortBy(s[..|s| - 1], le), le);
      assert s == s[..|s| - 1] + [s[|s| - 1]];
      assert multiset(r) == multiset(s);
      assert forall x :: x in r <==> x in multiset(s);
      r
  }

  /** The elements `le` ties with `k`: each may come before the other. */
  function Tied<T>(le: (T, T) -> bool, k: T): T -> bool
  {
    (x: T) => le(x, k) && le(k, x)
  }

  /**
   * Inserting `x` puts it after every element it ties with: within any tie
   * class, `x` joins at the end.
   */
  lemma {:induction false} InsertKeepsTies<T(!new)>(x: T, s: seq<T>, le: (T, T) -> bool, k: T)
    requires TotalPreorder(le) && Sorted(s, le)
    ensures Filter(Insert(x, s, le), Tied(le, k)) == Filter(s, Tied(le, k)) + (if Tied(le, k)(x) then [x] else [])
    decreases |s|
  {
    var p := Tied(le, k);
    var e := if p(x) then [x] else [];
    if s == [] {
      FilterAppend([], x, p);
      assert [] + [x] == [x] == Insert(x, s, le);
    } else if le(s[0], x) {
      InsertKeepsTies(x, s[1..], le, k);
      InsertAfterHead(x, s, le);
      HeadTail(s);
      ConsFilter(s[0], s[1..], Insert(x, s[1..], le), s, Insert(x, s, le), p, e);
    } else {
      InsertFirstKeepsTies(x, s, le, k);
    }
  }

  lemma InsertAfterHead<T(!new)>(x: T, s: seq<T>, le: (T, T) -> bool)
    requires TotalPreorder(le) && Sorted(s, le) && s != [] && le(s[0], x)
    ensures Insert(x, s, le) == [s[0]] + Insert(x, s[1..], le)
  {
  }

  lemma HeadTail<T>(s: seq<T>)
    requires s != []
    ensures s == [s[0]] + s[1..]
  {
  }

  /** Inserted before the whole sequence, `x` follows every element of its tie class, there being none. */
  lemma InsertFirstKeepsTies<T(!new)>(x: T, s: seq<T>, le: (T, T) -> bool, k: T)
    requires TotalPreorder(le) && Sorted(s, le) && s != [] && !le(s[0], x)
    ensures Filter([x] + s, Tied(le, k)) == Filter(s, Tied(le, k)) + (if Tied(le, k)(x) then [x] else [])
  {
    var p := Tied(le, k);
    FilterAppend([], x, p);
    assert [] + [x] == [x];
    FilterConcat([x], s, p);
    if p(x) {
      NoTiesAfter(x, s, le, k);
      assert [x] + [] == [] + [x];
    } else {
      assert [] + Filter(s, p) == Filter(s, p) + [];
    }
  }

  /** A common head `h` keeps what filtering `c` adds to filtering `b`. */
  lemma ConsFilter<T(!new)>(h: T, b: seq<T>, c: seq<T>, s: seq<T>, r: seq<T>, p: T -> bool, e: seq<T>)
    requires s == [h] + b && r == [h] + c
    requires Filter(c, p) == Filter(b, p) + e
    ensures Filter(r, p) == Filter(s, p) + e
  {
    FilterConcat([h], c, p);
    FilterConcat([h], b, p);
    AppendAssociative(Filter([h], p), Filter(b, p), e);
  }

  /** Nothing in a sorted sequence whose head may not come before `x` ties with `x`'s class. */
  lemma NoTiesAfter<T(!new)>(x: T, s: seq<T>, le: (T, T) -> bool, k: T)
    requires TotalPreorder(le) && Sorted(s, le) && s != [] && !le(s[0], x) && Tied(le, k)(x)
    ensures Filter(s, Tied(le, k)) == []
  {
    var p := Tied(le, k);
    forall i | 0 <= i < |s| ensures !p(s[i]) {
      if i > 0 {
        assert le(s[0], s[i]);
      }
    }
    assert Count(s, p) == 0;
  }

  /** SortBy is stable: the elements of each tie class keep their input order. */
  lemma {:induction false} SortByStable<T(!new)>(s: seq<T>, le: (T, T) -> bool, k: T)
    requires TotalPreorder(le)
    ensures Filter(SortBy(s, le), Tied(le, k)) == Filter(s, Tied(le, k))
    decreases |s|
  {
    if s != [] {
      var init := s[..|s| - 1];
      SortByStable(init, le, k);
      InsertKeepsTies(s[|s| - 1], SortBy(init, le), le, k);
    }
  }
}

=== FILE: store.dfy ===
/**
 * The relational store the server actions and route handlers talk to: one
 * sequence of rows per table, and a counter that hands out fresh row ids.
 * `Tables` is the value of the whole store; `Database` is the mutable store
 * the action methods update in place, and `Snapshot()` reads its value.
 *
 * The query builder's vocabulary is modelled as functions on row sequences:
 * `.eq(...)` filters are `Filter` with a named row predicate, `.single()` is
 * `Single`, `.update(...).eq(...)` is `UpdateWhere`, and an insert appends a
 * row carrying the next id.
 */
module Store {
  import opened Common
  import opened Schema

  datatype Tables = Tables(
    comments: seq<CommentRow>,
    ugc: seq<UgcRow>,
    surveys: seq<SurveyRow>,
    surveyAnswers: seq<SurveyAnswerRow>,
    campaigns: seq<CampaignRow>,
    applicants: seq<ApplicantRow>,
    reports: seq<ReportRow>,
    rewards: seq<RewardRow>,
    exposures: seq<ExposureRow>,
    users: seq<UserRow>,
    nextId: Id)

  /** What an action leaves behind: the store after it, and what it returned or threw. */
  datatype Outcome<T> = Outcome(tables: Tables, result: Result<T>)

  /** What every action and route reports when no user is signed in. */
  const Unauthorized := "Unauthorized"

  /**
   * The message PostgREST gives (with code PGRST116) when `.single()` is
   * asked for one row and the query matched none or several.
   */
  const NoSingleRow := "Cannot coerce " + "the result " + "to a single " + "JSON object"

  /** The single-row message holds none of the characters '4', 'v' and 'p'. */
  lemma NoSingleRowLacks(c: char)
    requires c == '4' || c == 'v' || c == 'p'
    ensures c !in NoSingleRow && NoSingleRow != ""
  {
    var a, b, d, e := "Cannot coerce ", "the result ", "to a single ", "JSON object";
    assert c !in a && c !in b && c !in d && c !in e;
    assert NoSingleRow == a + b + d + e;
  }

  /** `.single()`: the row when exactly one matched, otherwise nothing. */
  function Single<T>(rows: seq<T>): Option<T>
  {
    if |rows| == 1 then Some(rows[0]) else None
  }

  /** `.update(f).eq(...)`: every row satisfying `p` is replaced by `f` of it, in place. */
  function UpdateWhere<T>(rows: seq<T>, p: T -> bool, f: T -> T): (r: seq<T>)
    ensures |r| == |rows|
    ensures forall i :: 0 <= i < |rows| ==> r[i] == (if p(rows[i]) then f(rows[i]) else rows[i])
  {
    seq(|rows|, i requires 0 <= i < |rows| => if p(rows[i]) then f(rows[i]) else rows[i])
  }

  // ---------------------------------------------------------------------------
  // Keys

  function CommentId(r: CommentRow): Id { r.id }
  function UgcId(r: UgcRow): Id { r.id }
  function SurveyId(r: SurveyRow): Id { r.id }
  function AnswerId(r: SurveyAnswerRow): Id { r.id }
  function CampaignId(r: CampaignRow): Id { r.id }
  function ApplicantId(r: ApplicantRow): Id { r.id }
  function ReportId(r: ReportRow): Id { r.id }
  function RewardId(r: RewardRow): Id { r.id }
  function UserId(r: UserRow): Id { r.id }

  /** The conflict target of the answer upsert: (survey_id, question_id, user_id). */
  function AnswerKey(r: SurveyAnswerRow): (Id, Id, Id) { (r.surveyId, r.questionId, r.userId) }

  /** No two rows share a key. */
  predicate KeysUnique<T, K(==)>(rows: seq<T>, key: T -> K)
  {
    forall i, j :: 0 <= i < j < |rows| ==> key(rows[i]) != key(rows[j])
  }

  /** Every id was handed out before `next`. */
  predicate IdsBelow<T>(rows: seq<T>, id: T -> Id, next: Id)
  {
    forall i :: 0 <= i < |rows| ==> id(rows[i]) < next
  }

  /** A table whose ids are unique and were all handed out before `next`. */
  predicate KeyedTable<T>(rows: seq<T>, id: T -> Id, next: Id)
  {
    KeysUnique(rows, id) && IdsBelow(rows, id, next)
  }

  /**
   * The store's integrity constraints: primary keys are unique, ids come
   * from the counter, and survey answers are unique per (survey, question,
   * user), the constraint the answer upsert names as its conflict target.
   */
  predicate WellFormed(t: Tables)
  {
    && KeyedTable(t.comments, CommentId, t.nextId)
    && KeyedTable(t.ugc, UgcId, t.nextId)
    && KeysUnique(t.surveys, SurveyId)
    && KeyedTable(t.surveyAnswers, AnswerId, t.nextId)
    && KeysUnique(t.surveyAnswers, AnswerKey)
    && KeysUnique(t.campaigns, CampaignId)
    && KeyedTable(t.applicants, ApplicantId, t.nextId)
    && KeyedTable(t.reports, ReportId, t.nextId)
    && KeyedTable(t.rewards, RewardId, t.nextId)
    && KeysUnique(t.users, UserId)
  }

  /** Appending a row with the next id keeps a keyed table keyed under the advanced counter. */
  lemma AppendFresh<T>(rows: seq<T>, id: T -> Id, next: Id, r: T)
    requires KeyedTable(rows, id, next) && id(r) == next
    ensures KeyedTable(rows + [r], id, next + 1)
  {
  }

  /** Advancing the counter keeps a keyed table keyed. */
  lemma AdvanceCounter<T>(rows: seq<T>, id: T -> Id, next: Id, later: Id)
    requires KeyedTable(rows, id, next) && next <= later
    ensures KeyedTable(rows, id, later)
  {
  }

  /** Advancing the counter keeps every keyed table keyed. */
  lemma AdvanceAll(t: Tables, later: Id)
    requires WellFormed(t) && t.nextId <= later
    ensures KeyedTable(t.comments, CommentId, later) && KeyedTable(t.ugc, UgcId, later)
    ensures KeyedTable(t.applicants, ApplicantId, later) && KeyedTable(t.reports, ReportId, later)
    ensures KeyedTable(t.rewards, RewardId, later)
  {
  }

  /** An update that leaves a property of rows alone leaves the number of rows having it alone. */
  lemma CountUpdateWhere<T(!new)>(rows: seq<T>, p: T -> bool, f: T -> T, q: T -> bool)
    requires forall x :: p(x) ==> q(f(x)) == q(x)
    ensures Count(UpdateWhere(rows, p, f), q) == Count(rows, q)
  {
    FilterPointwise(UpdateWhere(rows, p, f), rows, q);
  }

  /** The rows an update matched, read back with the same filter, are the updated ones. */
  lemma {:induction false} FilterUpdateWhere<T(!new)>(rows: seq<T>, p: T -> bool, f: T -> T)
    requires forall x :: p(x) ==> p(f(x))
    ensures |Filter(UpdateWhere(rows, p, f), p)| == |Filter(rows, p)|
    ensures forall i :: 0 <= i < |Filter(rows, p)| ==> Filter(UpdateWhere(rows, p, f), p)[i] == f(Filter(rows, p)[i])
    decreases |rows|
  {
    if rows != [] {
      var n := |rows| - 1;
      var u := UpdateWhere(rows, p, f);
      FilterUpdateWhere(rows[..n], p, f);
      assert u[..n] == UpdateWhere(rows[..n], p, f);
      var fr, fu := Filter(rows[..n], p), Filter(u[..n], p);
      assert Filter(rows, p) == fr + (if p(rows[n]) then [rows[n]] else []);
      assert Filter(u, p) == fu + (if p(rows[n]) then [f(rows[n])] else []);
    }
  }

  /** Applying an idempotent update twice is applying it once. */
  lemma UpdateWhereTwice<T>(rows: seq<T>, p: T -> bool, f: T -> T)
    requires forall x :: p(x) ==> p(f(x)) && f(f(x)) == f(x)
    ensures UpdateWhere(UpdateWhere(rows, p, f), p, f) == UpdateWhere(rows, p, f)
  {
  }

  /** An update that leaves keys alone keeps them unique and below the counter. */
  lemma UpdateKeepsKeys<T, K>(rows: seq<T>, p: T -> bool, f: T -> T, key: T -> K)
    requires KeysUnique(rows, key)
    requires forall x :: p(x) ==> key(f(x)) == key(x)
    ensures KeysUnique(UpdateWhere(rows, p, f), key)
  {
    var r := UpdateWhere(rows, p, f);
    forall i, j | 0 <= i < j < |r| ensures key(r[i]) != key(r[j]) {
      assert key(r[i]) == key(rows[i]) && key(r[j]) == key(rows[j]);
    }
  }

  lemma UpdateKeepsIdsBelow<T>(rows: seq<T>, p: T -> bool, f: T -> T, id: T -> Id, next: Id)
    requires IdsBelow(rows, id, next)
    requires forall x :: p(x) ==> id(f(x)) == id(x)
    ensures IdsBelow(UpdateWhere(rows, p, f), id, next)
  {
    var r := UpdateWhere(rows, p, f);
    forall i | 0 <= i < |r| ensures id(r[i]) < next {
      assert id(r[i]) == id(rows[i]);
    }
  }

  /** The mutable store: one field per table and the id counter. */
  class Database {
    var comments: seq<CommentRow>
    var ugc: seq<UgcRow>
    var surveys: seq<SurveyRow>
    var surveyAnswers: seq<SurveyAnswerRow>
    var campaigns: seq<CampaignRow>
    var applicants: seq<ApplicantRow>
    var reports: seq<ReportRow>
    var rewards: seq<RewardRow>
    var exposures: seq<ExposureRow>
    var users: seq<UserRow>
    var nextId: Id

    /** The value of every table. */
    function Snapshot(): Tables
      reads this
    {
      Tables(comments, ugc, surveys, surveyAnswers, campaigns, applicants,
             reports, rewards, exposures, users, nextId)
    }

    predicate Valid()
      reads this
    {
      WellFormed(Snapshot())
    }

    constructor (t: Tables)
      requires WellFormed(t)
      ensures Valid() && Snapshot() == t
    {
      comments, ugc, surveys, surveyAnswers := t.comments, t.ugc, t.surveys, t.surveyAnswers;
      campaigns, applicants, reports, rewards := t.campaigns, t.applicants, t.reports, t.rewards;
      exposures, users, nextId := t.exposures, t.users, t.nextId;
    }
  }
}

=== FILE: survey_section.dfy ===
/**
 * The answer state of the survey panel (components/collaboration/SurveySection.tsx):
 * a record from question id to the answer so far, a string for 'single'
 * and 'text' questions and an array of strings for 'multiple' ones.
 *
 * `handleAnswerChange` replaces the answer of a 'single' or 'text'
 * question; for a 'multiple' question it toggles the value in the current
 * array: a value already there is removed, any other is appended. Array
 * membership (`includes`) and the filter compare strings by value and
 * arrays by identity, so a freshly built array passed as the value is never
 * found and is appended whole.
 */
module SurveySection {
  import opened Common

  /** A JavaScript answer value: a string, or an array of answer values. */
  datatype AnswerValue = Text(text: string) | Items(items: seq<AnswerValue>)

  datatype QuestionType = SingleChoice | MultipleChoice | FreeText

  type Answers = map<string, AnswerValue>

  /** `(answers[questionId] as string[]) || []`, for an answer that is an array or missing. */
  function Current(answers: Answers, questionId: string): seq<AnswerValue>
    requires questionId in answers ==> answers[questionId].Items?
  {
    if questionId in answers then answers[questionId].items else []
  }

  /** `handleAnswerChange`. A 'multiple' question's stored answer, if any, is an array. */
  function HandleAnswerChange(answers: Answers, questionId: string, value: AnswerValue, kind: QuestionType): (r: Answers)
    requires kind == MultipleChoice && questionId in answers ==> answers[questionId].Items?
    ensures r.Keys == answers.Keys + {questionId}
    ensures forall q :: q in answers && q != questionId ==> r[q] == answers[q]
    ensures kind != MultipleChoice ==> r[questionId] == value
    ensures kind == MultipleChoice && value.Text? ==> r[questionId] == Items(Toggle(Current(answers, questionId), value))
    ensures kind == MultipleChoice && value.Items? ==> r[questionId] == Items(Current(answers, questionId) + [value])
  {
    if kind == MultipleChoice then
      var current := Current(answers, questionId);
      // `current.includes(value)` finds a string by value; an array built for
      // the call is a new object, equal to nothing stored, so it is appended
      var newValue := if value.Text? then Toggle(current, value) else current + [value];
      answers[questionId := Items(newValue)]
    else
      answers[questionId := value]
  }

  /** Choosing an option of a 'multiple' question twice, when it was not chosen, restores the answer. */
  lemma ToggleOptionTwice(answers: Answers, questionId: string, option: string)
    requires questionId in answers ==> answers[questionId].Items?
    requires Text(option) !in Current(answers, questionId)
    ensures var once := HandleAnswerChange(answers, questionId, Text(option), MultipleChoice);
      HandleAnswerChange(once, questionId, Text(option), MultipleChoice)[questionId]
        == Items(Current(answers, questionId))
  {
    ToggleAbsentTwice(Current(answers, questionId), Text(option));
  }

  /**
   * Choosing a chosen option of a 'multiple' question twice, when the
   * answer has no repeats, keeps the same options and moves it last.
   */
  lemma ToggleChosenOptionTwice(answers: Answers, questionId: string, i: nat)
    requires questionId in answers && answers[questionId].Items?
    requires Distinct(answers[questionId].items) && i < |answers[questionId].items|
    requires answers[questionId].items[i].Text?
    ensures var current := answers[questionId].items;
      var once := HandleAnswerChange(answers, questionId, current[i], MultipleChoice);
      && HandleAnswerChange(once, questionId, current[i], MultipleChoice)[questionId]
           == Items(current[..i] + current[i + 1..] + [current[i]])
      && multiset(HandleAnswerChange(once, questionId, current[i], MultipleChoice)[questionId].items)
           == multiset(current)
  {
    TogglePresentTwice(answers[questionId].items, i);
  }

  // ---------------------------------------------------------------------------
  // The checkbox of a 'multiple' question (QuestionField)

  /**
   * What a checkbox of a 'multiple' question hands to `onChange`: the
   * current array with the option added (checked) or removed (unchecked).
   */
  function CheckboxChange(value: Option<AnswerValue>, option: string, checked: bool): (r: AnswerValue)
    requires value.Some? ==> value.value.Items?
    ensures r.Items?
    ensures checked ==> Text(option) in r.items
    ensures !checked ==> Text(option) !in r.items
  {
    var current := if value.Some? then value.value.items else [];
    Items(if checked then current + [Text(option)] else Filter(current, v => v != Text(option)))
  }

  /**
   * As written, the checkbox's array goes through `handleAnswerChange`,
   * which appends it whole: checking an option of an unanswered question
   * stores an array holding an array, not the option.
   */
  lemma CheckboxAnswerNests(questionId: string, option: string)
    ensures var answers := HandleAnswerChange(map[], questionId, CheckboxChange(None, option, true), MultipleChoice);
      && answers[questionId] == Items([Items([Text(option)])])
      && Text(option) !in answers[questionId].items
  {
    assert [] + [Text(option)] == [Text(option)];
  }

  /**
   * The evident intent: the array a checkbox builds is the new answer, as
   * it is; a string value for a 'multiple' question is toggled as before.
   */
  function HandleAnswerChangeFixed(answers: Answers, questionId: string, value: AnswerValue, kind: QuestionType): (r: Answers)
    requires kind == MultipleChoice && questionId in answers ==> answers[questionId].Items?
    ensures r.Keys == answers.Keys + {questionId}
    ensures forall q :: q in answers && q != questionId ==> r[q] == answers[q]
    ensures kind != MultipleChoice || value.Items? ==> r[questionId] == value
    ensures kind == MultipleChoice && value.Text? ==> r[questionId] == Items(Toggle(Current(answers, questionId), value))
  {
    if kind == MultipleChoice && value.Text? then HandleAnswerChange(answers, questionId, value, kind)
    else answers[questionId := value]
  }

  /**
   * With the fix, a checkbox's option is in the stored answer exactly when
   * the box was checked, every other option is kept, and nothing else is
   * touched.
   */
  lemma CheckboxAnswerFixed(answers: Answers, questionId: string, option: string, checked: bool)
    requires questionId in answers ==> answers[questionId].Items?
    ensures var value := if questionId in answers then Some(answers[questionId]) else None;
      var r := HandleAnswerChangeFixed(answers, questionId, CheckboxChange(value, option, checked), MultipleChoice);
      && r[questionId].Items?
      && (Text(option) in r[questionId].items <==> checked)
      && (forall v :: v != Text(option) ==> (v in r[questionId].items <==> v in Current(answers, questionId)))
      && (forall q :: q in answers && q != questionId ==> r[q] == answers[q])
  {
  }
}

=== FILE: tester_reports_route.dfy ===
/**
 * POST /api/tester/reports (app/api/tester/reports/route.ts): a tester
 * submits the report for their selected application. Every exit is an HTTP
 * response; the handler's try/catch turns a thrown error into a 500 with
 * its message. As for the actions, the handler is a function on the store's
 * value and a method on the `Database` proved to agree with it.
 */
module TesterReportsRoute {
  import opened Common
  import opened Schema
  import opened Store
  import Participation

  /** A JSON response body: `{ error }` or `{ data }`. */
  datatype Body<T> = ErrorBody(error: string) | DataBody(data: T)

  datatype Response<T> = Response(status: int, body: Body<T>)

  /** The handler's effect: the store after it and the response it sent. */
  datatype RouteOutcome<T> = RouteOutcome(tables: Tables, response: Response<T>)

  /**
   * The parsed request body; a field left out (or null) is `None`. The model
   * takes `content` to be a string when present.
   */
  datatype ReportRequest = ReportRequest(content: Option<string>, mediaUrls: Option<seq<string>>)

  const ContentRequired := "Content is required"

  /** `!content`: missing, null and the empty string are falsy; any other string (blank ones too) is not. */
  predicate Falsy(content: Option<string>)
  {
    content.None? || content.value == ""
  }

  /** Any selected application of the user, whatever its campaign. */
  function SelectedOf(userId: Id): ApplicantRow -> bool
  {
    (a: ApplicantRow) => a.userId == userId && a.status == ApplicantStatus.Selected
  }

  /**
   * The handler. `body` is `Err(msg)` when `request.json()` throws (the
   * message is the parser's).
   */
  function PostReportSpec(t: Tables, user: Option<Id>, body: Result<ReportRequest>, applicantReadFails: bool,
                          insertError: Option<string>, statusWritten: bool): (o: RouteOutcome<ReportRow>)
    ensures WellFormed(t) ==> WellFormed(o.tables)
    ensures o.response.status != 201 ==> o.tables == t
    ensures o.response.status == 401 <==> user.None?
    ensures user.None? ==> o.response.body == ErrorBody(Unauthorized)
    ensures user.Some? && body.Err? ==> o.response == Response(500, ErrorBody(body.msg))
    ensures o.response.status == 400 <==> user.Some? && body.Ok? && Falsy(body.value.content)
    ensures o.response.status == 404 <==>
      && user.Some? && body.Ok? && !Falsy(body.value.content)
      && (applicantReadFails || Count(t.applicants, SelectedOf(user.value)) != 1)
    ensures o.response.status == 201 <==>
      && user.Some? && body.Ok? && !Falsy(body.value.content)
      && !applicantReadFails && Count(t.applicants, SelectedOf(user.value)) == 1
      && insertError.None?
    ensures o.response.status == 201 ==>
      && o.response.body.DataBody?
      && var a := Filter(t.applicants, SelectedOf(user.value))[0];
      var rep := o.response.body.data;
      && rep.id == t.nextId && rep.applicantId == a.id && rep.content == body.value.content.value
      && rep.mediaUrls == (if body.value.mediaUrls.Some? then body.value.mediaUrls.value else [])
      && o.tables.reports == t.reports + [rep]
      && o.tables.applicants
         == (if statusWritten then UpdateWhere(t.applicants, Participation.ApplicantWithId(a.id), Participation.MarkCompleted)
             else t.applicants)
      && o.tables == t.(reports := o.tables.reports, applicants := o.tables.applicants, nextId := t.nextId + 1)
    ensures o.response.status in {201, 400, 401, 404, 500}
  {
    if user.None? then RouteOutcome(t, Response(401, ErrorBody(Unauthorized)))
    else if body.Err? then RouteOutcome(t, Response(500, ErrorBody(body.msg)))
    else if Falsy(body.value.content) then RouteOutcome(t, Response(400, ErrorBody(ContentRequired)))
    else
      var found := if applicantReadFails then None else Single(Filter(t.applicants, SelectedOf(user.value)));
      match found
      case None => RouteOutcome(t, Response(404, ErrorBody(Participation.NoSelectedApplication)))
      case Some(a) =>
        if insertError.Some? then RouteOutcome(t, Response(500, ErrorBody(insertError.value)))
        else
          var mediaUrls := if body.value.mediaUrls.Some? then body.value.mediaUrls.value else [];
          var rep := ReportRow(t.nextId, a.id, body.value.content.value, mediaUrls);
          var u := t.(reports := t.reports + [rep], nextId := t.nextId + 1);
          assert WellFormed(t) ==> WellFormed(u) by {
            if WellFormed(t) {
              AppendFresh(t.reports, ReportId, t.nextId, rep);
              AdvanceAll(t, t.nextId + 1);
            }
          }
          RouteOutcome(Participation.CompleteApplicant(u, a.id, statusWritten), Response(201, DataBody(rep)))
  }

  /** The handler's success path: the report appended and the application completed when that update went through. */
  lemma ReportSaved(t: Tables, userId: Id, request: ReportRequest, a: ApplicantRow, insertError: Option<string>,
                    statusWritten: bool)
    requires !Falsy(request.content) && insertError.None?
    requires Single(Filter(t.applicants, SelectedOf(userId))) == Some(a)
    ensures var report := ReportRow(t.nextId, a.id, request.content.value,
                                    if request.mediaUrls.Some? then request.mediaUrls.value else []);
      PostReportSpec(t, Some(userId), Ok(request), false, insertError, statusWritten)
        == RouteOutcome(Participation.CompleteApplicant(t.(reports := t.reports + [report], nextId := t.nextId + 1),
                                                        a.id, statusWritten),
                        Response(201, DataBody(report)))
  {
  }

  method PostReport(db: Database, user: Option<Id>, body: Result<ReportRequest>, applicantReadFails: bool,
                    insertError: Option<string>, statusWritten: bool)
    returns (response: Response<ReportRow>)
    requires db.Valid()
    modifies db
    ensures db.Valid()
    ensures RouteOutcome(db.Snapshot(), response)
      == PostReportSpec(old(db.Snapshot()), user, body, applicantReadFails, insertError, statusWritten)
  {
    if user.None? {
      return Response(401, ErrorBody(Unauthorized));
    }
    if body.Err? {
      return Response(500, ErrorBody(body.msg));
    }
    var request := body.value;
    if Falsy(request.content) {
      return Response(400, ErrorBody(ContentRequired));
    }
    var found := if applicantReadFails then None else Single(Filter(db.applicants, SelectedOf(user.value)));
    if found.None? {
      return Response(404, ErrorBody(Participation.NoSelectedApplication));
    }
    var applicant := found.value;
    if insertError.Some? {
      return Response(500, ErrorBody(insertError.value));
    }
    var report := ReportRow(db.nextId, applicant.id, request.content.value,
                            if request.mediaUrls.Some? then request.mediaUrls.value else []);
    ghost var saved := db.Snapshot().(reports := db.reports + [report], nextId := db.nextId + 1);
    ReportSaved(db.Snapshot(), user.value, request, applicant, insertError, statusWritten);
    db.reports := db.reports + [report];
    db.nextId := db.nextId + 1;
    if statusWritten {
      db.applicants := UpdateWhere(db.applicants, Participation.ApplicantWithId(applicant.id), Participation.MarkCompleted);
    }
    assert db.Snapshot() == Participation.CompleteApplicant(saved, applicant.id, statusWritten);
    response := Response(201, DataBody(report));
  }

  /** Completing a user's one selected application leaves the user with none. */
  lemma CompletingLastSelected(applicants: seq<ApplicantRow>, userId: Id)
    requires Count(applicants, SelectedOf(userId)) == 1
    ensures var a := Filter(applicants, SelectedOf(userId))[0];
      Count(UpdateWhere(applicants, Participation.ApplicantWithId(a.id), Participation.MarkCompleted), SelectedOf(userId)) == 0
  {
    var p := SelectedOf(userId);
    var a := Filter(applicants, p)[0];
    var after := UpdateWhere(applicants, Participation.ApplicantWithId(a.id), Participation.MarkCompleted);
    var selected := Filter(applicants, p);
    assert selected == [a];
    forall i | 0 <= i < |after| ensures !p(after[i]) {
      if p(applicants[i]) {
        assert applicants[i] in selected;
      }
    }
  }

  /**
   * A user whose one selected application has just reported (with the
   * status update written) gets 404 on the next submission.
   */
  lemma SecondReportNotFound(t: Tables, user: Option<Id>, body: Result<ReportRequest>, insertError: Option<string>,
                             body2: Result<ReportRequest>, insertError2: Option<string>, statusWritten2: bool)
    requires PostReportSpec(t, user, body, false, insertError, true).response.status == 201
    requires body2.Ok? && !Falsy(body2.value.content)
    ensures var t1 := PostReportSpec(t, user, body, false, insertError, true).tables;
      PostReportSpec(t1, user, body2, false, insertError2, statusWritten2).response.status == 404
  {
    var t1 := PostReportSpec(t, user, body, false, insertError, true).tables;
    CompletingLastSelected(t.applicants, user.value);
    assert Count(t1.applicants, SelectedOf(user.value)) == 0;
  }
}

=== FILE: url.dfy ===
/**
 * URLSearchParams as the ad feed's client and route use it: an ordered list
 * of name/value pairs, `get` reading the first pair with a name and `set`
 * replacing every pair with that name by one. Percent-encoding is left out:
 * the text of a value is what the other side reads back.
 */
module Url {
  import opened Common

  type Params = seq<(string, string)>

  /** `searchParams.get(name)`: the value of the first pair with that name. */
  function Get(params: Params, name: string): (r: Option<string>)
    ensures r.Some? ==> (name, r.value) in params
    ensures r.None? ==> forall i :: 0 <= i < |params| ==> params[i].0 != name
  {
    if params == [] then None
    else if params[0].0 == name then Some(params[0].1)
    else Get(params[1..], name)
  }

  /** The pairs whose name is not `name`, in order. */
  function Without(params: Params, name: string): (r: Params)
    ensures forall other :: other != name ==> Get(r, other) == Get(params, other)
    ensures Get(r, name).None?
    ensures forall p :: p in r ==> p in params
  {
    if params == [] then []
    else if params[0].0 == name then Without(params[1..], name)
    else [params[0]] + Without(params[1..], name)
  }

  /**
   * `searchParams.set(name, value)`: the first pair with the name takes the
   * value and later ones are dropped; with no such pair, one is appended.
   */
  function Set(params: Params, name: string, value: string): (r: Params)
    ensures Get(r, name) == Some(value)
    ensures forall other :: other != name ==> Get(r, other) == Get(params, other)
    ensures forall p :: p in r ==> p.0 == name || p in params
    ensures r != []
  {
    if params == [] then [(name, value)]
    else if params[0].0 == name then
      [(name, value)] + Without(params[1..], name)
    else
      [params[0]] + Set(params[1..], name, value)
  }

  /** `searchParams.toString()`: `name=value` pairs joined by '&'. */
  function QueryString(params: Params): (s: string)
    ensures s == "" <==> params == []
  {
    if params == [] then ""
    else
      var pair := params[0].0 + "=" + params[0].1;
      assert pair[|params[0].0|] == '=';
      if |params| == 1 then pair else pair + "&" + QueryString(params[1..])
  }
}
